=== FILE: README.md ===
# Stock fundamentals: accounting-number parsing, ratios, growth and DCF

This project is a Dafny model of the computational core of a small
stock-screening toolkit written in Python. The toolkit reads a
tab-separated export of a company's financial statements and cleans the
accounting figures in it. Examples of such figures are `1,234`, `(56)`
for a negative, `12%`, `3.4M` and `1.2B`. From the cleaned figures it
derives:

- per-period ratios (FCF/Sales as a whole percent, debt to equity);
- pairwise products;
- a compound growth rate;
- Graham's "net-net" price-to-NCAV list;
- a two-stage discounted-cash-flow (DCF) valuation, which ends in a
  buy / don't-buy verdict.

Modules, following the structure of the program:

| module | models |
|---|---|
| `Wrappers` | `Option`, `Result` and the Python exceptions the core raises (`ValueError`, `ZeroDivisionError`, `TypeError`, `IndexError`, `KeyError`, `AssertionError`, `StopIteration`) |
| `Numbers` | Python's `round(x, d)` (half to even), powers, sums |
| `Text` | whitespace stripping, `str.replace`, the ASCII filter, and `float()` on decimal text |
| `Sanitize` | `sanitize`: one cell at a time and a whole row |
| `Table` | `get_data_dict`: headers, row entries, and the dictionary built row by row |
| `Series` | `get_ratio`, `get_product`, `get_fcf_to_sales_ratio`, `get_debt_to_equity`, `get_growth_rate` |
| `Figures`, `Friendly` | `get_friendly_format`: the `{:.3g}` rounding to three significant figures, and the divide-by-1000 loop with its suffix table |
| `Analyze` | the FCF/Sales labels and Graham's net-net list of `analyze.py` |
| `Floats` | numpy `float64` values (finite, ±inf, NaN) and the arithmetic the DCF performs on them |
| `Valuation` | the whole of `intrinsic_value.py` after the file checks, from the estimate lookup to the verdict |

Python floats are modelled as exact `real`s, and Python exceptions as
`Failure` values.

On the no-override path the next-year FCF comes from `np.mean`, so it is
a `numpy.float64`. A division by zero there yields inf or NaN instead of
raising. `Valuation.Evaluate` therefore runs the DCF on `Floats.Float`
on that path. When the FCF comes from the estimates file, it runs on
plain reals, where a division by zero is a `ZeroDivisionError`.

Some behaviour of the code that the model keeps:

- `sanitize` rounds every number to 2 decimals (scripts/common.py:75).
- `get_ratio` divides without a guard, so a zero denominator raises `ZeroDivisionError` (scripts/common.py:113).
- `get_product` multiplies without a guard, so a missing value raises `TypeError` (scripts/common.py:125).
- `get_growth_rate` returns `None` when an endpoint is not positive (scripts/common.py:27-29).
- The DCF does not check that the discount rate exceeds the perpetuity rate (scripts/intrinsic_value.py:84-85).

Inputs that the program reads from disk are parameters of the model:

- the estimates file, as a sequence of records, one string map per csv line;
- the data file, as a sequence of rows of cells;
- the result of `sanitize_accounting_number`.

## Model

| member | source | states |
|---|---|---|
| `Numbers.Round` | scripts/common.py:75 | `round(x, d)` lands on the grid of multiples of 10^-d and lies within half a grid step of x |
| `Numbers.RoundIdempotent` | scripts/common.py:75 | rounding an already rounded value changes nothing |
| `Numbers.RoundNegate` | scripts/common.py:70-75 | rounding commutes with negation (ties go to even on both sides), so the sign applied at lines 70-73 survives line 75 |
| `Numbers.RoundOnGrid` | scripts/common.py:75 | a value already on the grid is left unchanged by rounding |
| `Numbers.RoundTieExample` | scripts/common.py:75 | a tie goes to the even neighbour: `round(12.5 / 100, 2)` is 0.12, so a `12.5%` cell is 0.12 and not 0.13 |
| `Text.ParseFloat` | scripts/common.py:71-73 | `float()` of blank text fails, and text it accepts contains a digit; surrounding whitespace is the set `float()` strips, which leaves out the separators U+001C-U+001F |
| `Text.ToFloat` | scripts/common.py:71-73 | `float(v)` succeeds exactly when the text parses, with that value, and otherwise raises `ValueError` carrying the text |
| `Text.SeparatorRejected` | scripts/common.py:71-73 | a text starting with one of U+001C-U+001F does not parse: `str.strip()` treats the character as whitespace, `float()` does not |
| `Text.ParseIntString` | scripts/common.py:59-60 | the decimal rendering of any integer, sign included, reads back through `float()` as that integer |
| `Text.ParseDecimalPoint` | scripts/common.py:71-73 | `float()` of digits, a point and digits is the whole part plus the fraction over 10 to the number of fraction digits |
| `Text.AsciiOnlyIdempotent` | scripts/common.py:48 | dropping non-ASCII characters twice is the same as dropping them once |
| `Text.WithoutAppend` | scripts/common.py:52 | removing commas distributes over concatenation |
| `Sanitize.Interpret` | scripts/common.py:70-75 | a parsed number becomes a present value on the 2-decimal grid; a parse failure passes through unchanged |
| `Sanitize.SanitizeCell` | scripts/common.py:44-76 | a cell is `None` exactly when no ASCII character remains; a number is always on the 2-decimal grid; every failure is a `ValueError` |
| `Sanitize.SanitizeCells` | scripts/common.py:43-76 | all cells clean or the first failing cell's error is raised; on success the i-th result is the i-th cell's value |
| `Sanitize.SanitizeRow` | scripts/common.py:34-79 | success exactly when the row has `len_reqd` cells and every cell is clean, the i-th value being the i-th cell's; otherwise the first failing cell's `ValueError`, or `AssertionError` when all cells are clean but the length differs |
| `Sanitize.SanitizeIgnoresNonAscii` | scripts/common.py:48 | cleaning a cell gives the same result as cleaning its ASCII-only form |
| `Sanitize.SanitizeDropsCommas` | scripts/common.py:52 | an ASCII cell that keeps some character after removing commas is read as if it had no commas |
| `Sanitize.SanitizeOnlyCommas` | scripts/common.py:49-52 | a cell of commas alone is not `None`: it raises `ValueError("")` |
| `Sanitize.SanitizeNoDigit` | scripts/common.py:48-73 | a cell with ASCII characters but no digit (such as `N/A`) raises a `ValueError` |
| `Sanitize.SanitizeParenthesised` | scripts/common.py:54-57 | wrapping a cell in parentheses negates its value and keeps its errors |
| `Sanitize.SanitizePercentLabel` | scripts/common.py:59-60 | `"<k>%"` reads as k/100 for every integer k |
| `Sanitize.SanitizeSuffixed` | scripts/common.py:62-68 | `"<n>m"`/`"<n>M"` reads as n·10^6 and `"<n>b"`/`"<n>B"` as n·10^9 |
| `Sanitize.SanitizeDecimal` | scripts/common.py:52-75 | an ASCII cell whose comma-free text ends in a digit and reads through `float()` as x is `round(x, 2)`: `1,234.56` is the value of `1234.56` |
| `Sanitize.SanitizeDecimalPercent` | scripts/common.py:59-75 | such a text followed by `%` is `round(x / 100, 2)` |
| `Sanitize.SanitizeDecimalMillions` | scripts/common.py:62-75 | such a text followed by `m` or `M` is `round(x * 10^6, 2)` |
| `Sanitize.SanitizeDecimalBillions` | scripts/common.py:62-75 | such a text followed by `b` or `B` is `round(x * 10^9, 2)`: `3.2B` is the value of `3.2` times 10^9 |
| `Sanitize.SanitizePointPercent` | scripts/common.py:59-75 | `<w>.<f>%` for digit runs w and f is (w + f / 10^len(f)) / 100 rounded to two decimals, so `12.5%` is `round(0.125, 2)` |
| `Table.NonEmptyCells` | scripts/common.py:86 | holds exactly the non-empty header cells, and nothing empty |
| `Table.Headers` | scripts/common.py:85-87 | the non-empty header cells, in reverse order |
| `Table.RowEntry` | scripts/common.py:92-100 | `IndexError` on an empty row; a row shorter than the width is skipped; otherwise the metric is the stripped first cell and the i-th value is the sanitized i-th cell from the right |
| `Table.ReversedLast` | scripts/common.py:94-95 | `row[-n:]` reversed has n cells, the i-th being the i-th from the end |
| `Table.Load` | scripts/common.py:92-100 | the dictionary fills while every row succeeds; otherwise the first failing row's error is raised |
| `Table.LoadLatest` | scripts/common.py:92-100 | a metric keeps the values of the last row that names it |
| `Table.LoadOrigin` | scripts/common.py:92-100 | every value in the dictionary comes from the initial dictionary or from some row |
| `Table.GetDataDict` | scripts/common.py:82-101 | a file without a header line raises `StopIteration` |
| `Table.DataDictSuccess` | scripts/common.py:82-101 | the file loads exactly when it has a header line and every data row yields an entry |
| `Table.DataDictKeys` | scripts/common.py:90-100 | the keys are `headers` plus the metrics of the rows that are long enough |
| `Table.DataDictHeaders` | scripts/common.py:85-91 | `d['headers']` holds the reversed non-empty header cells unless a row named `headers` overwrites it |
| `Table.DataDictWidth` | scripts/common.py:88-100 | every metric series is exactly as long as the header list |
| `Table.DataDictLatest` | scripts/common.py:92-100 | the series stored for a metric is the sanitized tail of the last row with that name |
| `Table.Metric` | scripts/common.py:106-107 | `d[key]` raises `KeyError(key)` for an absent metric and returns its series otherwise |
| `Series.RoundHundredth` | scripts/common.py:113 | `round(q, 2)` is the nearest hundredth to q |
| `Series.RatioCell` | scripts/common.py:110-116 | `None` when either side is missing; `ZeroDivisionError` on a zero denominator; otherwise the nearest hundredth of the quotient, scaled by 100 for a percent, and truncated toward zero when `round_digits == 0` |
| `Series.RatioSeries` | scripts/common.py:105-117 | zips to the shorter length and yields each pair's `RatioCell`, or the first `ZeroDivisionError` |
| `Series.Ratio` | scripts/common.py:105-117 | `KeyError` for an absent numerator, then for an absent denominator; otherwise the ratio series of the two metrics |
| `Series.FcfToSales` | scripts/common.py:129-130 | each entry is the whole-number FCF/Sales percent of its period, `None` where the ratio is `None` |
| `Series.DebtToEquity` | scripts/common.py:133-134 | the ratio of "Total debt" over "Shareholders Equity" to 2 decimals; every value is on the 2-decimal grid |
| `Series.ProductSeries` | scripts/common.py:123-126 | the pairwise products over the shorter length; `TypeError` when a factor in range is missing |
| `Series.ProductCommutes` | scripts/common.py:120-126 | swapping the two series gives the same products |
| `Series.Product` | scripts/common.py:120-126 | `KeyError(numerator)` when the numerator metric is absent, and `KeyError(denominator)` when the numerator is present but the denominator is absent; succeeds exactly when both metrics exist and their products succeed, and then the result is the pairwise products of the two stored series |
| `Series.Truthy` | scripts/common.py:23 | the filtered list is empty exactly when no entry is truthy, and holds no zero |
| `Series.TruthyMembers` | scripts/common.py:23 | `[v for v in vals if v]` holds exactly the present non-zero values |
| `Series.TruthyFirst` | scripts/common.py:25 | `vals[0]` after filtering is the earliest truthy entry |
| `Series.TruthyLast` | scripts/common.py:26 | `vals[-1]` after filtering is the latest truthy entry |
| `Series.GrowthRate` | scripts/common.py:22-30 | `IndexError` when nothing is truthy; `None` when an endpoint is not positive; otherwise the first and last truthy values over `n = len(vals)` periods |
| `Series.GrowthPercent` | scripts/common.py:31 | `round(rate * 100, 1)` is the percent to the nearest tenth |
| `Series.CompoundRateUnique` | scripts/common.py:30 | at most one rate compounds `a_1` into `a_n` over the given periods, so the abstract rate is well defined |
| `Series.EqualEndpointsZeroGrowth` | scripts/common.py:30 | equal endpoints have compound rate zero and no other |
| `Series.FlatSeriesZeroPercent` | scripts/common.py:22-31 | a series whose first and last truthy values are equal reports growth `0.0` |
| `Series.GrowthOfGeometric` | scripts/common.py:22-30 | on a geometric series of n terms, the code as written uses n periods and the corrected version n-1 |
| `Series.AsWrittenUnderstatesRate` | scripts/common.py:24-30 | as written, a series growing at a positive rate reports a strictly smaller rate |
| `Series.GrowthRateCorrected` | scripts/common.py:22-30 | as `GrowthRate` but over `len(vals) - 1` periods, the number of steps between the endpoints |
| `Series.CorrectedRecoversRate` | scripts/common.py:22-30 | the corrected growth rate of a geometric series is its rate |
| `Series.GrowthDivisorExample` | scripts/common.py:22-30 | for [100, 110, 121] the code as written does not give 10 %, and the corrected version does |
| `Figures.Sig3Close` | scripts/common.py:10 | `{:.3g}` moves a number by at most half a unit in its third significant figure, keeping its sign and zero-ness |
| `Figures.Sig3Idempotent` | scripts/common.py:10 | rounding to three significant figures twice is the same as once |
| `Figures.Sig3Below` | scripts/common.py:10-12 | after `{:.3g}`, a value is below 10^e exactly when it was below 999.5·10^(e-3) |
| `Friendly.MagnitudeOfSpec` | scripts/common.py:11-14 | the loop's count of divisions by 1000 is the unique k with 1000^k <= abs(num) < 1000^(k+1), or 0 |
| `Friendly.ScaleDown` | scripts/common.py:11-15 | divides by 1000 until below 1000, so the mantissa times 1000^magnitude is the input; `IndexError` once the magnitude passes the five-entry suffix table |
| `Friendly.RoundedBelowTop` | scripts/common.py:10-15 | the suffix lookup succeeds exactly when abs(num) < 999.5·10^12 |
| `Friendly.FriendlyScale` | scripts/common.py:9-15 | rounds to three significant figures, then scales; succeeds exactly below 999.5·10^12 and is then within 0.5 % of the input |
| `Friendly.SuffixOf` | scripts/common.py:9-15 | the suffix is the one for the magnitude of the 3-figure value, or `IndexError` from 999.5·10^12 on |
| `Friendly.SuffixAtLimit` | scripts/common.py:10-15 | 999.4·10^12 formats with `T`, while 999.6·10^12 rounds to 1.00e15 and raises `IndexError` |
| `Analyze.PercentLabel` | scripts/analyze.py:30 | `'{}%'.format(f)`: `"None%"` for a missing value, otherwise the integer's digits followed by `%` |
| `Analyze.PercentLabels` | scripts/analyze.py:30 | one label per entry, in order |
| `Analyze.FcfToSalesColumn` | scripts/analyze.py:29-30 | the labels of `get_fcf_to_sales_ratio`: `"None%"` for missing periods and the whole percent otherwise |
| `Analyze.LabelOf` | scripts/analyze.py:30 | a label is `"None%"` exactly when the value is missing |
| `Analyze.LabelRoundTrip` | scripts/analyze.py:30 | a percent label read back through `sanitize` gives the percent divided by 100 |
| `Analyze.NcavRatio` | scripts/analyze.py:64 | `TypeError` for a missing market cap, `ZeroDivisionError` when cash equals liabilities, else the nearest hundredth of mkt_cap/(cash - liab) |
| `Analyze.QualifyingBelow` | scripts/analyze.py:63 | the periods with positive cash and positive liabilities, ascending and complete |
| `Analyze.NcavPrefix` | scripts/analyze.py:59-64 | one ratio per qualifying period in order, and success exactly when each of those ratios can be computed; on failure, the error (`TypeError` or `ZeroDivisionError`) is that of the earliest qualifying period whose ratio fails |
| `Analyze.PriceToNcavs` | scripts/analyze.py:59-65 | the ratios of the qualifying periods of the three-way zip, most recent first; on failure, the error of the earliest qualifying period whose ratio fails |
| `Analyze.NetNet` | scripts/analyze.py:56-65 | runs only when "Total liabilities" is present; then `KeyError` for missing cash, else `KeyError("Market Cap")` when the market cap is missing, else the price-to-NCAV list of the three metrics or its error |
| `Analyze.NegativeRatioKept` | scripts/analyze.py:63-64 | a company with liabilities above its cash qualifies and gets a negative ratio |
| `Valuation.FindEstimate` | scripts/intrinsic_value.py:25-33 | the first record whose ticker matches; `ValueError("Estimate for … not found …")` when none does; `KeyError` without a ticker column |
| `Valuation.Field` | scripts/intrinsic_value.py:35-40 | `row[key]` is the field's text, or `KeyError(key)` |
| `Valuation.NumberField` | scripts/intrinsic_value.py:35 | `float(row[key])` succeeds exactly when the field exists and parses, with the parsed value; `KeyError(key)` for a missing field and `ValueError` carrying the text for an unreadable one |
| `Valuation.FractionField` | scripts/intrinsic_value.py:36-40 | a percent field divided by 100, with the field's errors |
| `Valuation.ReadAssumptions` | scripts/intrinsic_value.py:35-40 | succeeds exactly when the price and the five rates all read; each rate is the file's percent over 100; otherwise the error is that of the first failing field in source order (price, discount, growth 1, growth 2, perpetuity, margin of safety) |
| `Valuation.SharesOut` | scripts/intrinsic_value.py:49-53 | the latest diluted share count when it is truthy; else the latest basic count, with `KeyError` when the basic series is missing, `IndexError` when it is empty and `TypeError` when its latest value is missing |
| `Valuation.DilutedIgnoresBasic` | scripts/intrinsic_value.py:49-51 | with a usable diluted count, replacing the basic series by anything leaves the share count unchanged |
| `Valuation.UnusableDilutedIgnored` | scripts/intrinsic_value.py:49-53 | without a usable diluted count, swapping the diluted series for another unusable one leaves the result unchanged |
| `Valuation.Mean` | scripts/intrinsic_value.py:57 | the mean times the count is the sum |
| `Valuation.NextYearFcf` | scripts/intrinsic_value.py:42-57 | a truthy override wins; otherwise the mean of the truthy FCF per share times the share count, NaN when there is none, and `KeyError("FCF per Share")` when that metric is missing |
| `Valuation.FactorStep` | scripts/intrinsic_value.py:70-76 | each year's growth factor is the previous year's times 1 + g1 (years 1-5) or 1 + g2 (years 6-9) |
| `Valuation.FactorPositive` | scripts/intrinsic_value.py:70-76 | with both growth rates above -100 %, every growth factor is positive |
| `Valuation.Projection` | scripts/intrinsic_value.py:70-76 | n projected flows, the i-th being the first grown by the first-stage and second-stage factors |
| `Valuation.ProjectionRecurrence` | scripts/intrinsic_value.py:70-76 | each projected flow is the previous one times 1 + its stage's rate, as the two loops compute |
| `Valuation.Discounted` | scripts/intrinsic_value.py:79-81 | flow i divided by (1 + r)^(i+1); `ZeroDivisionError` when 1 + r is 0 |
| `Valuation.Terminal` | scripts/intrinsic_value.py:84-86 | the perpetuity value last·(1+g)/(r-g) discounted over 10 years; `ZeroDivisionError` when r = g or 1 + r = 0 |
| `Valuation.Dcf` | scripts/intrinsic_value.py:70-99 | ten discounted flows and a discounted perpetuity summed into the equity value; intrinsic value and MOS price to the nearest hundredth; buy exactly when the MOS price exceeds the price; `ZeroDivisionError` when 1 + r = 0, r = g or no shares |
| `Valuation.DcfExplains` | scripts/intrinsic_value.py:70-89 | a successful valuation's flows, terminal value and equity are those the formulas define |
| `Valuation.DcfScales` | scripts/intrinsic_value.py:70-89 | scaling the starting FCF by c scales the equity value by c |
| `Valuation.DcfPositive` | scripts/intrinsic_value.py:84-89 | with growth above -100 % and a discount rate above the perpetuity rate, a positive FCF gives a positive terminal value and equity |
| `Valuation.TerminalNegative` | scripts/intrinsic_value.py:84-86 | a discount rate below the perpetuity rate gives a negative terminal value for a positive FCF, because nothing guards r > g |
| `Valuation.ProjectionF` | scripts/intrinsic_value.py:70-76 | on a float64 FCF the projection has the real values when finite and is all NaN when the FCF is NaN |
| `Valuation.DiscountedF` | scripts/intrinsic_value.py:79-81 | each float64 flow divided by (1 + r)^(i+1) with numpy's division |
| `Valuation.DiscountedFins` | scripts/intrinsic_value.py:79-81 | on finite flows the float64 discounting agrees with the real one |
| `Valuation.TerminalF` | scripts/intrinsic_value.py:84-86 | NaN in gives NaN out; agrees with the real terminal value whenever that exists |
| `Valuation.TerminalInfinite` | scripts/intrinsic_value.py:84-86 | with r = g and a positive last flow, the float64 perpetuity value is +inf instead of an exception |
| `Valuation.EquityAgrees` | scripts/intrinsic_value.py:70-89 | on a finite FCF the float64 equity value equals the real one whenever the real one exists |
| `Valuation.EquityNaN` | scripts/intrinsic_value.py:57-89 | the mean of an empty list (NaN) makes the equity value NaN |
| `Valuation.PerShareF` | scripts/intrinsic_value.py:90 | the intrinsic value is finite exactly when the equity is finite and shares are non-zero; it is NaN exactly for NaN equity or 0/0 |
| `Valuation.MarginPriceF` | scripts/intrinsic_value.py:92 | the MOS price is finite exactly when the intrinsic value is; +inf stays +inf for a positive factor |
| `Valuation.PerShare` | scripts/intrinsic_value.py:90-96 | the float64 verdict: intrinsic and MOS price as above, never buy on NaN, and buy exactly when the MOS price is +inf or exceeds the price |
| `Valuation.FromDcf` | scripts/intrinsic_value.py:90-96 | a real-number valuation gives a verdict with finite intrinsic value and MOS price |
| `Valuation.FloatDcfAgrees` | scripts/intrinsic_value.py:57-96 | on a finite FCF the float64 verdict equals the real verdict whenever the real DCF succeeds |
| `Valuation.FloatDcfNaN` | scripts/intrinsic_value.py:55-99 | with no truthy FCF history, the verdict is NaN, NaN and "Don't buy now" |
| `Valuation.EqualRatesBuy` | scripts/intrinsic_value.py:84-97 | with r = g, the real DCF raises, while the float64 DCF gives +inf and "Good to buy" |
| `Valuation.NoSharesBuy` | scripts/intrinsic_value.py:49-97 | with zero shares, the real DCF raises, while the float64 DCF of a positive FCF gives +inf and "Good to buy" |
| `Valuation.Evaluate` | scripts/intrinsic_value.py:66-99 | `IndexError` from the friendly format exactly when the share count or a finite FCF reaches 999.5·10^12; otherwise the real verdict for a file FCF and the float64 verdict for a historical one |
| `Valuation.IntrinsicValue` | scripts/intrinsic_value.py:25-99 | errors pass through in source order: the lookup's, the field reads', the data load's, `SharesOut`'s, `NextYearFcf`'s, then `Evaluate`'s; success means every step succeeded and the verdict is the real or float64 DCF of the selected inputs |
| `Floats.Add` | scripts/intrinsic_value.py:89 | float64 addition: NaN exactly for NaN or opposite infinities, otherwise the infinity present or the real sum |
| `Floats.Mul` | scripts/intrinsic_value.py:84 | float64 multiplication: NaN exactly for NaN or infinity times zero; an infinite product carries the product of the signs |
| `Floats.Div` | scripts/intrinsic_value.py:81-90 | float64 division: NaN for NaN, inf/inf and 0/0; non-zero over zero is a signed infinity; finite over infinite is zero |
| `Floats.RoundTo` | scripts/intrinsic_value.py:90-92 | `round` on a float64 rounds finite values to the grid and leaves inf and NaN alone |
| `Floats.SumOf` | scripts/intrinsic_value.py:89 | `sum` of float64 values is NaN exactly when an element is NaN or both infinities occur, else the infinity that occurs |
| `Floats.SumOfFins` | scripts/intrinsic_value.py:89 | on finite values `sum` is the real sum |
| `Seqs.Reverse` | scripts/common.py:87 | `list.reverse()`: the i-th element is the i-th from the end |
| `Seqs.ReverseReverse` | scripts/analyze.py:65 | reversing twice restores the list |

## Left out

- `Series.RatioCell` uses exact reals. Python computes `int(round(q, 2) * 100)` in binary floating point, where a product such as `0.29 * 100 = 28.999999999999996` truncates to 28. The model gives 29. `RatioCell` states the truncation of the exact product instead.
- `Series.FcfToSales` and `Analyze.FcfToSalesColumn` inherit that difference: for FCF 29 over Sales 100, Python labels the period `28%` and the model labels it `29%`.
- `Numbers.Round` rounds exact decimal ties half to even. Python rounds the nearest binary double, so `round(2.675, 2)` is 2.67 in Python and 2.68 here. `Sanitize.SanitizeCell` and every 2-decimal result inherit this.
- `Text.ParseFloat` accepts decimal text only: an optional sign, digits with an optional point, and an optional exponent, between the whitespace `float()` strips: space, tab, newline, vertical tab, form feed, carriage return and the non-ASCII Python whitespace, but not the separators U+001C-U+001F that `str.strip()` also removes. It rejects `nan`, `inf`, `infinity` and underscore-grouped digits (`1_000`) with `ValueError`, although Python's `float()` accepts them. It also accepts only the ASCII digits `0`-`9`, while `float()` accepts any Unicode decimal digit (fullwidth `１２` or Arabic-Indic `١٢` read as 12.0). `sanitize` drops non-ASCII characters before parsing and is unaffected. `Valuation.NumberField` and `Valuation.ReadAssumptions` parse the estimate fields unfiltered (scripts/intrinsic_value.py:35-40), so there such a field raises `ValueError` in the model and parses in Python. A literal beyond the float64 range (`1e400`) reads as its exact value here and as inf in Python.
- `Sanitize.SanitizeCell` treats a percent as the parsed value over 100. It does not go through `str()` of that float and parse it again, and the two agree on exact reals.
- `Figures.Sig3Close` rounds to three significant figures exactly. Python formats the binary double with `{:.3g}`, so a value just beside a tie can round the other way.
- `Friendly.FriendlyScale` returns the mantissa, magnitude and suffix, not the text. The `'{:f}'.format(num).rstrip('0').rstrip('.')` formatting of the mantissa is not modelled.
- `Valuation.Evaluate` never meets an infinite FCF, so it does not model `get_friendly_format(inf)`, which loops forever because inf/1000 stays inf. The case is unreachable in the model, whose cells are exact reals; it is reachable in Python through an infinite cell (`inf`, or `1e400` which `float()` reads as inf) or an overflowing mean.
- `Valuation.NextYearFcf` takes `np.mean` as the exact mean. numpy's pairwise summation, float64 rounding and overflow to infinity are not modelled.
- `Floats.Div` treats every zero as +0.0. numpy distinguishes -0.0, so a non-zero value over -0.0 has the opposite sign there. Finite float64 results never overflow here.
- `Series.GrowthRate` leaves `math.exp(math.log(a_n / a_1) / n) - 1` abstract. The rate is characterised by `IsCompoundRate`, a_1·(1 + rate)^n = a_n, and the error of `exp`/`log` is not modelled.
- `sanitize_accounting_number` (scripts/intrinsic_value.py:45) is not defined in scripts/common.py and is not part of this model. Its result enters `Valuation.IntrinsicValue` as a parameter.
- `Valuation.ReadAssumptions` models a csv record as a string map. A field missing from a short csv line is `None` in Python and makes `float()` raise `TypeError`; here it is absent and raises `KeyError`.
- File I/O is left out:
  - the existence checks and `sys.exit` (scripts/intrinsic_value.py:20-23);
  - opening files and csv/tsv tokenisation;
  - the `#` comment filter (scripts/intrinsic_value.py:27);
  - every `print`.
  
  Rows and records are parameters.
- `get_formatted`, `get_as_pct` and `get_roic` are outside the modelled core. So are pandas, `np.nanmean` and the growth-rate prints in `analyze.py`; only lines 29-30 and 56-65 of that script are modelled.

## Findings

| source | as written | input that shows it | evidently intended | confidence | as-written member | corrected member |
|---|---|---|---|---|---|---|
| scripts/common.py:24-30 | the log ratio of the last and first truthy values is divided by `n = len(vals)`, the number of values | `[100, 110, 121]` grows by 10 % per step; as written the reported rate is 1.21^(1/3) - 1 ≈ 6.6 % | divide by the number of steps between the endpoints, `len(vals) - 1` | high (proved about the model; not executed) | `Series.AsWrittenUnderstatesRate` | `Series.CorrectedRecoversRate` |

=== FILE: analyze.dfy ===
/** The two computations of scripts/analyze.py that are not printing: the
    '%' decoration of the FCF/Sales column and Graham's net-net screen, the
    price-to-NCAV ratio of every period with positive cash and liabilities. */
module Analyze {
  import opened Wrappers
  import opened Numbers
  import opened Seqs
  import opened Text
  import opened Sanitize
  import opened Table
  import opened Series

  /** `'{}%'.format(f)` of one FCF/Sales entry, which is a whole number or None. */
  function PercentLabel(f: Option<int>): (r: string)
    ensures f.None? ==> r == "None%"
    ensures f.Some? ==> |r| > 1 && r[|r| - 1] == '%' && r[..|r| - 1] == IntToString(f.value)
  {
    match f
    case None => "None%"
    case Some(k) => IntToString(k) + "%"
  }

  /** Line 30 over a list of entries: one label per entry (a number's label
      reads back, through `sanitize`, as that many hundredths: `LabelRoundTrip`). */
  function PercentLabels(fs: seq<Option<int>>): (r: seq<string>)
    ensures |r| == |fs|
    ensures forall i :: 0 <= i < |fs| ==> r[i] == PercentLabel(fs[i])
  {
    seq(|fs|, i requires 0 <= i < |fs| => PercentLabel(fs[i]))
  }

  /** Lines 29-30: the FCF/Sales column as printed. Every ratio there is a
      whole percent, printed followed by '%' (so it reads back through
      `sanitize` as a fraction, `LabelRoundTrip`); a period without both
      values prints "None%". */
  function FcfToSalesColumn(d: Dataset): (r: Result<seq<string>>)
    ensures r.Success? <==> Ratio(d, "FCF per Share", "Sales per Share", true, 0).Success?
    ensures r.Success? ==>
      var ratios := Ratio(d, "FCF per Share", "Sales per Share", true, 0).value;
      && |r.value| == |ratios|
      && forall i :: 0 <= i < |ratios| ==>
           && (ratios[i].None? ==> r.value[i] == "None%")
           && (ratios[i].Some? ==> ratios[i].value.Floor as real == ratios[i].value
                                   && r.value[i] == PercentLabel(Some(ratios[i].value.Floor)))
  {
    var fs :- FcfToSales(d);
    Success(PercentLabels(fs))
  }

  /** In the labelled list, exactly the missing entries read "None%". */
  lemma {:induction false} EveryLabel(fs: seq<Option<int>>)
    ensures forall i :: 0 <= i < |fs| ==> (fs[i].None? <==> PercentLabels(fs)[i] == "None%")
  {
    forall i | 0 <= i < |fs|
      ensures fs[i].None? <==> PercentLabel(fs[i]) == "None%"
    {
      LabelOf(fs[i]);
    }
  }

  /** Only a missing entry gets the label "None%". */
  lemma {:induction false} LabelOf(f: Option<int>)
    ensures f.None? <==> PercentLabel(f) == "None%"
  {
    if f.Some? {
      LabelNotNone(f.value);
    }
  }

  /** A number's label is never the missing-value label. */
  lemma {:induction false} LabelNotNone(k: int)
    ensures PercentLabel(Some(k)) != "None%"
  {
    var r := PercentLabel(Some(k));
    assert r[0] == IntToString(k)[0];
    assert r[0] != 'N';
  }

  /** Reading a number's label back gives the number as a fraction. */
  lemma {:induction false} LabelRoundTrip(k: int)
    ensures SanitizeCell(PercentLabel(Some(k))) == Success(Some(k as real / 100.0))
  {
    SanitizePercentLabel(k);
  }

  /** Line 63: a period counts when both cash and liabilities are truthy and positive. */
  predicate Qualifies(cash: Option<real>, liab: Option<real>) {
    IsTruthy(cash) && cash.value > 0.0 && IsTruthy(liab) && liab.value > 0.0
  }

  /** x is the rounded price-to-NCAV ratio of a period with these cash, liabilities and market cap. */
  predicate IsNcav(x: real, cash: Option<real>, liab: Option<real>, mkt: Option<real>) {
    cash.Some? && liab.Some? && mkt.Some? && cash.value != liab.value
    && NearestHundredth(x, mkt.value / (cash.value - liab.value))
  }

  /** Line 64 for one period: `round(mkt_cap / (cash - liab), 2)`. A missing
      market cap raises TypeError before the division is tried; equal cash
      and liabilities raise ZeroDivisionError. */
  function NcavRatio(cash: real, liab: real, mkt: Option<real>): (r: Result<real>)
    ensures r.Success? <==> mkt.Some? && cash != liab
    ensures mkt.None? ==> r == Failure(TypeError)
    ensures mkt.Some? && cash == liab ==> r == Failure(ZeroDivisionError)
    ensures r.Success? ==> IsNcav(r.value, Some(cash), Some(liab), mkt)
  {
    if mkt.None? then Failure(TypeError)
    else
      var q :- Divide(mkt.value, cash - liab);
      RoundHundredth(q);
      Success(Round(q, 2))
  }

  function Min3(a: nat, b: nat, c: nat): (m: nat)
    ensures m <= a && m <= b && m <= c
    ensures m == a || m == b || m == c
  {
    if a <= b && a <= c then a else if b <= c then b else c
  }

  /** The periods below n that qualify, in increasing order. */
  function QualifyingBelow(cash: seq<Option<real>>, liab: seq<Option<real>>, n: nat): (r: seq<nat>)
    requires n <= |cash| && n <= |liab|
    ensures forall k :: 0 <= k < |r| ==> r[k] < n && Qualifies(cash[r[k]], liab[r[k]])
    ensures forall k, l :: 0 <= k < l < |r| ==> r[k] < r[l]
    ensures forall i :: 0 <= i < n && Qualifies(cash[i], liab[i]) ==> i in r
  {
    if n == 0 then []
    else
      var p := QualifyingBelow(cash, liab, n - 1);
      if Qualifies(cash[n - 1], liab[n - 1]) then p + [n - 1] else p
  }

  /** Every qualifying period of the first n has a market cap and unequal cash and liabilities. */
  predicate Computable(cash: seq<Option<real>>, liab: seq<Option<real>>, mkt: seq<Option<real>>, n: nat)
    requires n <= |cash| && n <= |liab| && n <= |mkt|
  {
    forall i :: 0 <= i < n && Qualifies(cash[i], liab[i]) ==> mkt[i].Some? && cash[i].value != liab[i].value
  }

  /** Period i is the earliest qualifying period below n whose ratio fails, and it fails with e. */
  predicate FirstFailure(cash: seq<Option<real>>, liab: seq<Option<real>>, mkt: seq<Option<real>>, n: nat, e: Error)
    requires n <= |cash| && n <= |liab| && n <= |mkt|
  {
    exists i :: 0 <= i < n && Qualifies(cash[i], liab[i])
                && Computable(cash, liab, mkt, i)
                && NcavRatio(cash[i].value, liab[i].value, mkt[i]) == Failure(e)
  }

  /** The loop of lines 60-64 over the first n periods of the zip, oldest first. */
  function NcavPrefix(cash: seq<Option<real>>, liab: seq<Option<real>>, mkt: seq<Option<real>>, n: nat): (r: Result<seq<real>>)
    requires n <= |cash| && n <= |liab| && n <= |mkt|
    ensures r.Success? <==> Computable(cash, liab, mkt, n)
    ensures r.Success? ==> |r.value| == |QualifyingBelow(cash, liab, n)|
    ensures r.Success? ==>
      var q := QualifyingBelow(cash, liab, n);
      forall k :: 0 <= k < |q| ==> IsNcav(r.value[k], cash[q[k]], liab[q[k]], mkt[q[k]])
    ensures r.Failure? ==> FirstFailure(cash, liab, mkt, n, r.error)
  {
    if n == 0 then Success([])
    else
      var i := n - 1;
      var p :- NcavPrefix(cash, liab, mkt, i);
      var q := QualifyingBelow(cash, liab, i);
      if Qualifies(cash[i], liab[i]) then
        var x :- NcavRatio(cash[i].value, liab[i].value, mkt[i]);
        NcavStep(cash, liab, mkt, n, p, x);
        Success(p + [x])
      else
        assert QualifyingBelow(cash, liab, n) == q;
        Success(p)
  }

  /** Appending the ratio of a qualifying last period keeps the ratios in line with the periods. */
  lemma {:induction false} NcavStep(cash: seq<Option<real>>, liab: seq<Option<real>>, mkt: seq<Option<real>>, n: nat,
                                    p: seq<real>, x: real)
    requires 0 < n <= |cash| && n <= |liab| && n <= |mkt|
    requires Qualifies(cash[n - 1], liab[n - 1]) && IsNcav(x, cash[n - 1], liab[n - 1], mkt[n - 1])
    requires var q := QualifyingBelow(cash, liab, n - 1);
      |p| == |q| && forall k :: 0 <= k < |q| ==> IsNcav(p[k], cash[q[k]], liab[q[k]], mkt[q[k]])
    ensures var q := QualifyingBelow(cash, liab, n);
      |p + [x]| == |q| && forall k :: 0 <= k < |q| ==> IsNcav((p + [x])[k], cash[q[k]], liab[q[k]], mkt[q[k]])
  {
    var q := QualifyingBelow(cash, liab, n - 1);
    assert QualifyingBelow(cash, liab, n) == q + [n - 1];
    forall k | 0 <= k < |q| + 1
      ensures IsNcav((p + [x])[k], cash[(q + [n - 1])[k]], liab[(q + [n - 1])[k]], mkt[(q + [n - 1])[k]])
    {
      if k < |q| {
        assert (p + [x])[k] == p[k] && (q + [n - 1])[k] == q[k];
      }
    }
  }

  /** Lines 59-65: the ratios of the qualifying periods over the zip of the
      three series, most recent first. */
  function PriceToNcavs(cash: seq<Option<real>>, liab: seq<Option<real>>, mkt: seq<Option<real>>): (r: Result<seq<real>>)
    ensures var n := Min3(|cash|, |liab|, |mkt|);
      r.Success? <==> Computable(cash, liab, mkt, n)
    ensures r.Success? ==>
      var q := QualifyingBelow(cash, liab, Min3(|cash|, |liab|, |mkt|));
      && |r.value| == |q|
      && forall k :: 0 <= k < |q| ==>
           var i := q[|q| - 1 - k];
           IsNcav(r.value[k], cash[i], liab[i], mkt[i])
    ensures r.Failure? ==> FirstFailure(cash, liab, mkt, Min3(|cash|, |liab|, |mkt|), r.error)
  {
    var n := Min3(|cash|, |liab|, |mkt|);
    var ratios :- NcavPrefix(cash, liab, mkt, n);
    Success(Reverse(ratios))
  }

  /** Lines 56-65: the net-net screen runs only when the table has total
      liabilities; the three series it zips must then all be present. */
  function NetNet(d: Dataset): (r: Result<Option<seq<real>>>)
    ensures r == Success(None) <==> "Total liabilities" !in d
    ensures r.Success? && r.value.Some? ==>
      && Metric(d, "Cash and short-term investments").Success?
      && Metric(d, "Total liabilities").Success?
      && Metric(d, "Market Cap").Success?
      && PriceToNcavs(d["Cash and short-term investments"].cells, d["Total liabilities"].cells,
                      d["Market Cap"].cells) == Success(r.value.value)
    ensures "Total liabilities" in d && "Cash and short-term investments" !in d ==>
      r == Failure(KeyError("Cash and short-term investments"))
    ensures && Metric(d, "Cash and short-term investments").Success? && Metric(d, "Total liabilities").Success?
            && "Market Cap" !in d ==>
      r == Failure(KeyError("Market Cap"))
    ensures && Metric(d, "Cash and short-term investments").Success? && Metric(d, "Total liabilities").Success?
            && Metric(d, "Market Cap").Success?
            && PriceToNcavs(d["Cash and short-term investments"].cells, d["Total liabilities"].cells,
                            d["Market Cap"].cells).Failure? ==>
      r == Failure(PriceToNcavs(d["Cash and short-term investments"].cells, d["Total liabilities"].cells,
                                d["Market Cap"].cells).error)
  {
    if "Total liabilities" !in d then Success(None)
    else
      var cash :- Metric(d, "Cash and short-term investments");
      var liab :- Metric(d, "Total liabilities");
      var mkt :- Metric(d, "Market Cap");
      var ratios :- PriceToNcavs(cash, liab, mkt);
      Success(Some(ratios))
  }

  /** Every entry of the screen comes from a qualifying period, and a period
      whose cash exceeds its liabilities is not required: its ratio is
      negative when the market cap is positive. */
  lemma {:induction false} NegativeRatioKept(cash: real, liab: real, mkt: real)
    requires cash > 0.0 && liab > cash && mkt > 0.0 && 100.0 * mkt > liab - cash
    ensures Qualifies(Some(cash), Some(liab))
    ensures NcavRatio(cash, liab, Some(mkt)).Success?
    ensures NcavRatio(cash, liab, Some(mkt)).value < 0.0
  {
  }
}

=== FILE: figures.dfy ===
/** `float('{:.3g}'.format(x))`, the first step of `get_friendly_format` in
    scripts/common.py: x rounded to three significant figures, half to even. */
module Figures {
  import opened Numbers

  /** 10^e for any whole e. */
  function Exp10(e: int): (r: real)
    ensures r > 0.0
    decreases if e >= 0 then e else -e
  {
    if e == 0 then 1.0
    else if e > 0 then 10.0 * Exp10(e - 1)
    else Exp10(e + 1) / 10.0
  }

  /** Each step up multiplies by ten. */
  lemma {:induction false} Exp10Step(e: int)
    ensures Exp10(e + 1) == 10.0 * Exp10(e)
  {
    if e < 0 {
      assert Exp10(e) == Exp10(e + 1) / 10.0;
    }
  }

  /** On whole exponents from 0 up, 10^e is the integer power. */
  lemma {:induction false} Exp10Whole(n: nat)
    ensures Exp10(n) == Pow10(n) as real
  {
    if n > 0 {
      Exp10Whole(n - 1);
    }
  }

  lemma {:induction false} Exp10Monotone(a: int, b: int)
    requires a <= b
    ensures Exp10(a) <= Exp10(b)
    decreases b - a
  {
    if a < b {
      Exp10Monotone(a, b - 1);
      Exp10Step(b - 1);
    }
  }

  /** 10^(e+1) and 10^(e+2) as multiples of 10^(e-2), the unit of the third figure of the decade e. */
  lemma {:induction false} Exp10Around(e: int)
    ensures Exp10(e) == 100.0 * Exp10(e - 2)
    ensures Exp10(e + 1) == 1000.0 * Exp10(e - 2)
    ensures Exp10(e + 2) == 10000.0 * Exp10(e - 2)
  {
    Exp10Step(e - 2);
    Exp10Step(e - 1);
    Exp10Step(e);
    Exp10Step(e + 1);
  }

  /** x lies in the decade [10^e, 10^(e+1)). */
  predicate InDecade(x: real, e: int) {
    Exp10(e) <= x < Exp10(e + 1)
  }

  /** A positive number lies in one decade only. */
  lemma {:induction false} DecadeUnique(x: real, e: int, f: int)
    requires InDecade(x, e) && InDecade(x, f)
    ensures e == f
  {
    if e < f {
      Exp10Monotone(e + 1, f);
    } else if f < e {
      Exp10Monotone(f + 1, e);
    }
  }

  /** The decade of a positive number. */
  function Decade(x: real): (e: int)
    requires x > 0.0
    ensures InDecade(x, e)
    decreases (if x < 1.0 then 1 else 0), (if x < 1.0 then (1.0 / x).Floor else x.Floor)
  {
    if x >= 10.0 then
      TenfoldSmaller(x);
      var e := Decade(x / 10.0);
      Exp10Step(e);
      Exp10Step(e + 1);
      e + 1
    else if x < 1.0 then
      TenfoldCloser(x);
      var e := Decade(x * 10.0);
      Exp10Step(e - 1);
      Exp10Step(e);
      e - 1
    else
      assert Exp10(1) == 10.0;
      0
  }

  /** Scaling a number of at least 10 down by ten lowers its whole part and keeps it at least 1. */
  lemma {:induction false} TenfoldSmaller(x: real)
    requires x >= 10.0
    ensures x / 10.0 >= 1.0 && (x / 10.0).Floor < x.Floor
  {
  }

  /** Scaling a number below 1 up by ten brings it closer to 1. */
  lemma {:induction false} TenfoldCloser(x: real)
    requires 0.0 < x < 1.0
    ensures x * 10.0 < 1.0 ==> (1.0 / (x * 10.0)).Floor < (1.0 / x).Floor
  {
    var y := 1.0 / x;
    assert y > 1.0;
    assert 1.0 / (x * 10.0) == y / 10.0;
  }

  /** The place value of the third significant figure of a non-zero number. */
  function Unit(x: real): (u: real)
    requires x != 0.0
    ensures u > 0.0 && 100.0 * u <= Abs(x) < 1000.0 * u
  {
    var e := Decade(Abs(x));
    Exp10Around(e);
    Exp10(e - 2)
  }

  /** The unit of a number in the decade e is 10^(e-2). */
  lemma {:induction false} UnitIn(x: real, e: int)
    requires x != 0.0 && InDecade(Abs(x), e)
    ensures Unit(x) == Exp10(e - 2)
  {
    DecadeUnique(Abs(x), e, Decade(Abs(x)));
  }

  /** x rounded, half to even, to a whole number of units u. */
  function Rounded(x: real, u: real): real
    requires u > 0.0
  {
    HalfEven(x / u) as real * u
  }

  /** The unit of a number in the decade above e is ten units of e. */
  lemma {:induction false} UnitAbove(x: real, e: int, u: real)
    requires x != 0.0 && InDecade(Abs(x), e + 1) && u == Exp10(e - 2)
    ensures Unit(x) == 10.0 * u
  {
    UnitIn(x, e + 1);
    assert e + 1 - 2 == e - 1;
    Exp10Step(e - 2);
  }

  /** `float('{:.3g}'.format(x))` on an exact value. */
  function Sig3(x: real): real {
    if x == 0.0 then 0.0 else Rounded(x, Unit(x))
  }

  lemma {:induction false} MulLe(a: real, b: real, u: real)
    requires a <= b && u >= 0.0
    ensures a * u <= b * u
  {
  }

  lemma {:induction false} MulLt(a: real, b: real, u: real)
    requires a < b && u > 0.0
    ensures a * u < b * u
  {
  }

  lemma {:induction false} AbsProduct(k: real, u: real)
    requires u > 0.0
    ensures Abs(k * u) == Abs(k) * u
    ensures k > 0.0 <==> k * u > 0.0
  {
    if k > 0.0 {
      MulLt(0.0, k, u);
    } else if k < 0.0 {
      MulLt(k, 0.0, u);
      assert Abs(k * u) == -(k * u) == (-k) * u;
    }
  }

  /** AbsProduct for a whole count of units. */
  lemma {:induction false} AbsCount(k: int, u: real)
    requires u > 0.0
    ensures Abs(k as real * u) == Abs(k as real) * u
    ensures k > 0 <==> k as real * u > 0.0
  {
    AbsProduct(k as real, u);
  }

  lemma {:induction false} RoundedIs(x: real, u: real, y: real, k: int)
    requires u > 0.0 && y == x / u && k == HalfEven(y)
    ensures Rounded(x, u) == k as real * u
  {
  }

  /** Comparing a = c units u with t units u is comparing c with t. */
  lemma {:induction false} ScaleCompare(a: real, c: real, u: real, t: real)
    requires u > 0.0 && a == c * u
    ensures a < t * u <==> c < t
    ensures t * u <= a <==> t <= c
  {
    if c < t {
      MulLt(c, t, u);
    } else {
      MulLe(t, c, u);
    }
  }

  /** A number with 100 to 1000 units u in size is y units, y between 100 and 1000 in size. */
  lemma {:induction false} CountOf(x: real, u: real, y: real)
    requires u > 0.0 && 100.0 * u <= Abs(x) < 1000.0 * u && y == x / u
    ensures y * u == x && Abs(x) == Abs(y) * u
    ensures 100.0 <= Abs(y) < 1000.0
  {
    assert y * u == x;
    AbsProduct(y, u);
    ScaleCompare(Abs(x), Abs(y), u, 100.0);
    ScaleCompare(Abs(x), Abs(y), u, 1000.0);
  }

  /** Half a unit is at most 0.5% of a number of at least 100 units. */
  lemma {:induction false} UnitsClose(x: real, u: real, y: real, k: real)
    requires u > 0.0 && y * u == x && 2.0 * Abs(k - y) <= 1.0 && 100.0 <= Abs(y)
    ensures 200.0 * Abs(k * u - x) <= Abs(x)
  {
    var d := Abs(k - y);
    assert k * u - x == (k - y) * u;
    AbsProduct(k - y, u);
    AbsProduct(y, u);
    MulLe(200.0 * d, Abs(y), u);
    assert 200.0 * (d * u) == (200.0 * d) * u;
  }

  /** A count of at least 100 in size rounds to a whole count of 100 to 1000 with the same sign. */
  lemma {:induction false} CountRounds(y: real, k: int)
    requires 100.0 <= Abs(y) < 1000.0 && 2.0 * Abs(k as real - y) <= 1.0
    ensures 100.0 <= Abs(k as real) <= 1000.0
    ensures Abs(k as real) == 1000.0 ==> k == 1000 || k == -1000
    ensures y > 0.0 <==> k > 0
  {
  }

  /** A non-negative y rounds below 1000 exactly when it is below 999.5: the
      tie 999.5 goes to the even 1000. */
  lemma {:induction false} HalfEvenBelowThousand(y: real)
    requires y >= 0.0
    ensures HalfEven(y) < 1000 <==> y < 999.5
  {
  }

  /** Rounding a negative number mirrors rounding its size. */
  lemma {:induction false} HalfEvenAbs(y: real)
    ensures Abs(HalfEven(y) as real) == HalfEven(Abs(y)) as real
  {
    HalfEvenNegate(y);
    if y >= 0.0 {
      assert HalfEven(y) >= 0;
    } else {
      assert HalfEven(-y) >= 0;
    }
  }

  /** A number rounds to a size below 1000 exactly when its size is below 999.5. */
  lemma {:induction false} HalfEvenThousand(y: real, k: int)
    requires k == HalfEven(y)
    ensures Abs(k as real) < 1000.0 <==> Abs(y) < 999.5
  {
    HalfEvenAbs(y);
    HalfEvenBelowThousand(Abs(y));
  }

  /** The count reaches 1000 exactly from 999.5 units on. */
  lemma {:induction false} CountBelowThousand(x: real, u: real, y: real, k: int)
    requires u > 0.0 && Abs(x) == Abs(y) * u && (Abs(k as real) < 1000.0 <==> Abs(y) < 999.5)
    ensures Abs(k as real) < 1000.0 <==> Abs(x) < 999.5 * u
  {
    ScaleCompare(Abs(x), Abs(y), u, 999.5);
  }

  /** The count k that y = x/u rounds to, for x of 100 to 1000 units u: k
      units lie within half a unit of x, with its sign, and k reaches 1000
      exactly from 999.5 units on. */
  lemma {:induction false} CountFacts(x: real, u: real, y: real, k: int)
    requires u > 0.0 && 100.0 * u <= Abs(x) < 1000.0 * u && y == x / u
    requires 2.0 * Abs(k as real - y) <= 1.0 && (Abs(k as real) < 1000.0 <==> Abs(y) < 999.5)
    ensures Abs(k as real * u) == Abs(k as real) * u
    ensures 100.0 <= Abs(k as real) <= 1000.0
    ensures Abs(k as real) == 1000.0 ==> k == 1000 || k == -1000
    ensures x > 0.0 <==> k as real * u > 0.0
    ensures 200.0 * Abs(k as real * u - x) <= Abs(x)
    ensures Abs(k as real) < 1000.0 <==> Abs(x) < 999.5 * u
  {
    CountOf(x, u, y);
    UnitsClose(x, u, y, k as real);
    CountRounds(y, k);
    AbsCount(k, u);
    CountBelowThousand(x, u, y, k);
    AbsProduct(y, u);
  }

  /** Rounding a number of 100 to 1000 units u: the whole count k of units it
      rounds to, within half a unit (so within 0.5%), with the same sign. */
  lemma {:induction false} RoundedCount(x: real, u: real) returns (k: int)
    requires u > 0.0 && 100.0 * u <= Abs(x) < 1000.0 * u
    ensures Rounded(x, u) == k as real * u && Abs(Rounded(x, u)) == Abs(k as real) * u
    ensures 100.0 <= Abs(k as real) <= 1000.0
    ensures Abs(k as real) == 1000.0 ==> k == 1000 || k == -1000
    ensures x > 0.0 <==> Rounded(x, u) > 0.0
    ensures 200.0 * Abs(Rounded(x, u) - x) <= Abs(x)
    ensures Abs(k as real) < 1000.0 <==> Abs(x) < 999.5 * u
  {
    var y := x / u;
    k := HalfEven(y);
    HalfEvenThousand(y, k);
    CountFacts(x, u, y, k);
    RoundedIs(x, u, y, k);
  }

  /** Rounding to three figures moves a number by at most half a unit in its
      third figure, which is at most 0.5% of it, and keeps its sign. */
  lemma {:induction false} Sig3Close(x: real)
    ensures 200.0 * Abs(Sig3(x) - x) <= Abs(x)
    ensures x > 0.0 <==> Sig3(x) > 0.0
    ensures x == 0.0 <==> Sig3(x) == 0.0
  {
    if x != 0.0 {
      var u := Unit(x);
      var k := RoundedCount(x, u);
      assert Sig3(x) == Rounded(x, u);
    }
  }

  /** A whole count of units is left unchanged by rounding to the unit. */
  lemma {:induction false} RoundedWhole(r: real, u: real, k: int)
    requires u > 0.0 && r == k as real * u
    ensures Rounded(r, u) == r
  {
    assert r / u == k as real;
    assert (k as real).Floor == k;
    RoundedIs(r, u, k as real, k);
  }

  /** k units of u, k from 100 to 999 in size, lie in the decade of 100 units. */
  lemma {:induction false} ThreeFigureBounds(r: real, u: real, k: int)
    requires u > 0.0 && r == k as real * u && 100.0 <= Abs(k as real) < 1000.0
    ensures 100.0 * u <= Abs(r) < 1000.0 * u
  {
    AbsProduct(k as real, u);
    ScaleCompare(Abs(r), Abs(k as real), u, 100.0);
    ScaleCompare(Abs(r), Abs(k as real), u, 1000.0);
  }

  /** 1000 units u are 100 units 10u. */
  lemma {:induction false} ThousandUnits(r: real, u: real, k: int) returns (m: int, v: real)
    requires u > 0.0 && r == k as real * u && (k == 1000 || k == -1000)
    ensures Abs(r) == 1000.0 * u
    ensures v == 10.0 * u && v > 0.0 && r == m as real * v
  {
    v := 10.0 * u;
    if k == 1000 {
      m := 100;
      assert r == 1000.0 * u;
    } else {
      m := -100;
      assert r == -1000.0 * u;
    }
  }

  /** A thousand units of the decade e are a round number of the decade above. */
  lemma {:induction false} ThousandStable(r: real, u: real, k: int, e: int)
    requires u == Exp10(e - 2) && r == k as real * u && (k == 1000 || k == -1000)
    ensures Sig3(r) == r
  {
    Exp10Around(e + 1);
    Exp10Step(e - 2);
    var m, v := ThousandUnits(r, u, k);
    assert InDecade(Abs(r), e + 1);
    UnitAbove(r, e, u);
    RoundedWhole(r, v, m);
  }

  /** Rounding a rounded number changes nothing. */
  lemma {:induction false} Sig3Idempotent(x: real)
    ensures Sig3(Sig3(x)) == Sig3(x)
  {
    if x != 0.0 {
      var e := Decade(Abs(x));
      var u := Unit(x);
      UnitIn(x, e);
      var k := RoundedCount(x, u);
      var r := Rounded(x, u);
      assert Sig3(x) == r;
      Exp10Around(e);
      if Abs(k as real) < 1000.0 {
        ThreeFigureBounds(r, u, k);
        assert InDecade(Abs(r), e);
        UnitIn(r, e);
        RoundedWhole(r, u, k);
        assert Sig3(r) == Rounded(r, u);
      } else {
        ThousandStable(r, u, k, e);
      }
    }
  }

  /** A count k of at least 100 units, where 100 units already reach t = 1000p,
      is at least t, and so is the number counted. */
  lemma {:induction false} CountAbove(a: real, s: real, k: int, u: real, t: real, p: real)
    requires u > 0.0 && p > 0.0 && s == Abs(k as real) * u && 100.0 <= Abs(k as real) && 100.0 * u <= a
    requires t == 1000.0 * p && t <= 100.0 * u
    ensures !(s < t) && !(a < 999.5 * p)
  {
    MulLe(100.0, Abs(k as real), u);
  }

  /** A count of at most 1000 units stays below 1000 units exactly when it is not 1000. */
  lemma {:induction false} CountAt(a: real, s: real, k: int, u: real)
    requires u > 0.0 && s == Abs(k as real) * u && Abs(k as real) <= 1000.0
    requires Abs(k as real) < 1000.0 <==> a < 999.5 * u
    ensures s < 1000.0 * u <==> a < 999.5 * u
  {
    if Abs(k as real) < 1000.0 {
      MulLt(Abs(k as real), 1000.0, u);
    }
  }

  /** A count of at most 1000 units, where 1000 units are at most 100p, stays
      below t = 1000p, and so does the number counted. */
  lemma {:induction false} CountBelow(a: real, s: real, k: int, u: real, t: real, p: real)
    requires u > 0.0 && p > 0.0 && s == Abs(k as real) * u && Abs(k as real) <= 1000.0 && a < 1000.0 * u
    requires t == 1000.0 * p && 1000.0 * u <= 100.0 * p
    ensures s < t && a < 999.5 * p
  {
    MulLe(Abs(k as real), 1000.0, u);
    assert s <= 1000.0 * u;
  }

  /** The unit of a non-zero x in the decade d, with the decade's ends in units. */
  lemma {:induction false} UnitOfDecade(x: real, d: int) returns (u: real)
    requires x != 0.0 && d == Decade(Abs(x))
    ensures u == Unit(x) && u == Exp10(d - 2)
    ensures Exp10(d) == 100.0 * u && Exp10(d + 1) == 1000.0 * u
  {
    u := Unit(x);
    UnitIn(x, d);
    Exp10Around(d);
  }

  /** The rounded size of a non-zero x as a count of its units u. */
  lemma {:induction false} SizeInUnits(x: real, u: real) returns (k: int)
    requires x != 0.0 && u == Unit(x)
    ensures Abs(Sig3(x)) == Abs(k as real) * u
    ensures 100.0 <= Abs(k as real) <= 1000.0
    ensures Abs(k as real) < 1000.0 <==> Abs(x) < 999.5 * u
  {
    k := RoundedCount(x, u);
    assert Sig3(x) == Rounded(x, u);
  }

  /** Rounding to three figures keeps a number below 10^e exactly when the
      number is below 999.5 units of 10^(e-3), the point at which it rounds up
      to 10^e. */
  lemma {:induction false} Sig3Below(x: real, e: int)
    ensures Abs(Sig3(x)) < Exp10(e) <==> Abs(x) < 999.5 * Exp10(e - 3)
  {
    var p := Exp10(e - 3);
    Exp10Around(e - 1);
    var t := Exp10(e);
    assert t == 1000.0 * p && Exp10(e - 1) == 100.0 * p;
    if x != 0.0 {
      var d := Decade(Abs(x));
      var u := UnitOfDecade(x, d);
      var k := SizeInUnits(x, u);
      if d >= e {
        Exp10Monotone(e, d);
        CountAbove(Abs(x), Abs(Sig3(x)), k, u, t, p);
      } else if d == e - 1 {
        assert u == p;
        CountAt(Abs(x), Abs(Sig3(x)), k, u);
      } else {
        Exp10Monotone(d + 1, e - 1);
        CountBelow(Abs(x), Abs(Sig3(x)), k, u, t, p);
      }
    }
  }
}

=== FILE: floats.dfy ===
/** numpy's `float64` arithmetic as scripts/intrinsic_value.py meets it on the
    historical-mean path: `np.mean` makes the cash flow a `numpy.float64`, and
    from then on a division by zero gives an infinity or NaN (with a runtime
    warning) instead of raising, and NaN spreads through every later step.
    Values are exact reals; zeros are taken to be +0.0. */
module Floats {
  import opened Numbers

  /** A float64: a finite value, an infinity or NaN. */
  datatype Float = Fin(value: real) | PosInf | NegInf | NaN

  /** The sign of a value that is not NaN: 1, 0 or -1. */
  function Sign(x: Float): (s: int)
    requires !x.NaN?
    ensures -1 <= s <= 1
    ensures s == 0 <==> x == Fin(0.0)
    ensures x.PosInf? ==> s == 1
    ensures x.NegInf? ==> s == -1
  {
    match x
    case Fin(v) => if v > 0.0 then 1 else if v < 0.0 then -1 else 0
    case PosInf => 1
    case NegInf => -1
  }

  /** The infinity of a non-zero sign. */
  function Inf(s: int): (r: Float)
    requires s != 0
    ensures !r.Fin? && !r.NaN? && Sign(r) == (if s > 0 then 1 else -1)
  {
    if s > 0 then PosInf else NegInf
  }

  /** `x + y`: NaN when either is NaN or the two are opposite infinities. */
  function Add(x: Float, y: Float): (r: Float)
    ensures r.NaN? <==> x.NaN? || y.NaN? || (x.PosInf? && y.NegInf?) || (x.NegInf? && y.PosInf?)
    ensures x.Fin? && y.Fin? ==> r.Fin? && r.value - y.value == x.value
    ensures r.PosInf? <==> !r.NaN? && (x.PosInf? || y.PosInf?)
    ensures r.NegInf? <==> !r.NaN? && (x.NegInf? || y.NegInf?)
  {
    if x.NaN? || y.NaN? then NaN
    else if x.Fin? && y.Fin? then Fin(x.value + y.value)
    else if x.Fin? then y
    else if y.Fin? || x == y then x
    else NaN
  }

  /** `x * y`: NaN when either is NaN or an infinity meets a zero; otherwise an
      infinity carries the product of the signs. */
  function Mul(x: Float, y: Float): (r: Float)
    ensures r.NaN? <==> x.NaN? || y.NaN? || (!x.Fin? && y == Fin(0.0)) || (x == Fin(0.0) && !y.Fin?)
    ensures x.Fin? && y.Fin? ==> r.Fin? && (y.value != 0.0 ==> r.value / y.value == x.value)
    ensures !r.NaN? && !r.Fin? ==> (!x.Fin? || !y.Fin?) && Sign(r) == Sign(x) * Sign(y)
  {
    if x.NaN? || y.NaN? then NaN
    else if x.Fin? && y.Fin? then Fin(x.value * y.value)
    else if Sign(x) * Sign(y) == 0 then NaN
    else Inf(Sign(x) * Sign(y))
  }

  /** `x / y`: NaN for NaN, for two infinities and for 0/0; a non-zero value
      over zero is the infinity of its sign; a finite value over an infinity
      is zero. */
  function Div(x: Float, y: Float): (r: Float)
    ensures r.NaN? <==> x.NaN? || y.NaN? || (!x.Fin? && !y.Fin?) || (x == Fin(0.0) && y == Fin(0.0))
    ensures x.Fin? && y.Fin? && y.value != 0.0 ==> r.Fin? && r.value * y.value == x.value
    ensures x.Fin? && x.value != 0.0 && y == Fin(0.0) ==> r == Inf(Sign(x))
    ensures x.Fin? && !y.Fin? && !y.NaN? ==> r == Fin(0.0)
    ensures !x.Fin? && !x.NaN? && y.Fin? ==> r == Inf(Sign(x) * (if y.value < 0.0 then -1 else 1))
  {
    if x.NaN? || y.NaN? then NaN
    else if x.Fin? && y.Fin? then
      if y.value != 0.0 then Fin(x.value / y.value)
      else if x.value == 0.0 then NaN
      else Inf(Sign(x))
    else if x.Fin? then Fin(0.0)
    else if y.Fin? then Inf(Sign(x) * (if y.value < 0.0 then -1 else 1))
    else NaN
  }

  /** `round(x, digits)` on a float64: a finite value goes to the nearest
      multiple of 10^-digits, half to even; infinities and NaN stay as they are. */
  function RoundTo(x: Float, digits: nat): (r: Float)
    ensures r.Fin? <==> x.Fin?
    ensures !x.Fin? ==> r == x
    ensures x.Fin? ==> OnGrid(r.value, digits) && 2.0 * Abs(r.value - x.value) * Pow10(digits) as real <= 1.0
  {
    if x.Fin? then Fin(Round(x.value, digits)) else x
  }

  /** `x > p` against a Python float: false for NaN and -inf, true for +inf. */
  predicate Greater(x: Float, p: real) {
    x.PosInf? || (x.Fin? && x.value > p)
  }

  /** Some element is NaN, +inf or -inf. */
  predicate HasNaN(xs: seq<Float>) { exists i :: 0 <= i < |xs| && xs[i].NaN? }
  predicate HasPosInf(xs: seq<Float>) { exists i :: 0 <= i < |xs| && xs[i].PosInf? }
  predicate HasNegInf(xs: seq<Float>) { exists i :: 0 <= i < |xs| && xs[i].NegInf? }

  /** Finite reals as float64 values. */
  function Fins(xs: seq<real>): (r: seq<Float>)
    ensures |r| == |xs| && forall i :: 0 <= i < |xs| ==> r[i] == Fin(xs[i])
  {
    seq(|xs|, i requires 0 <= i < |xs| => Fin(xs[i]))
  }

  /** Python's `sum(xs)`: 0 plus each element in turn. NaN when an element is
      NaN or both infinities occur; otherwise the infinity that occurs. */
  function SumOf(xs: seq<Float>): (r: Float)
    ensures r.NaN? <==> HasNaN(xs) || (HasPosInf(xs) && HasNegInf(xs))
    ensures r.PosInf? <==> !HasNaN(xs) && HasPosInf(xs) && !HasNegInf(xs)
    ensures r.NegInf? <==> !HasNaN(xs) && HasNegInf(xs) && !HasPosInf(xs)
  {
    if |xs| == 0 then Fin(0.0)
    else
      var init := xs[..|xs| - 1];
      SumOfStep(xs, init);
      Add(SumOf(init), xs[|xs| - 1])
  }

  /** The elements of xs are those of its front and its last one. */
  lemma {:induction false} SumOfStep(xs: seq<Float>, init: seq<Float>)
    requires |xs| > 0 && init == xs[..|xs| - 1]
    ensures HasNaN(xs) <==> HasNaN(init) || xs[|xs| - 1].NaN?
    ensures HasPosInf(xs) <==> HasPosInf(init) || xs[|xs| - 1].PosInf?
    ensures HasNegInf(xs) <==> HasNegInf(init) || xs[|xs| - 1].NegInf?
  {
    var n := |xs| - 1;
    if HasNaN(xs) && !xs[n].NaN? {
      var i :| 0 <= i < |xs| && xs[i].NaN?;
      assert init[i].NaN?;
    }
    if HasPosInf(xs) && !xs[n].PosInf? {
      var i :| 0 <= i < |xs| && xs[i].PosInf?;
      assert init[i].PosInf?;
    }
    if HasNegInf(xs) && !xs[n].NegInf? {
      var i :| 0 <= i < |xs| && xs[i].NegInf?;
      assert init[i].NegInf?;
    }
    if HasNaN(init) {
      var i :| 0 <= i < |init| && init[i].NaN?;
      assert xs[i].NaN?;
    }
    if HasPosInf(init) {
      var i :| 0 <= i < |init| && init[i].PosInf?;
      assert xs[i].PosInf?;
    }
    if HasNegInf(init) {
      var i :| 0 <= i < |init| && init[i].NegInf?;
      assert xs[i].NegInf?;
    }
  }

  /** On finite values Python's `sum` is the real sum. */
  lemma {:induction false} SumOfFins(xs: seq<real>)
    ensures SumOf(Fins(xs)) == Fin(Sum(xs))
  {
    if |xs| > 0 {
      var n := |xs| - 1;
      SumOfFins(xs[..n]);
      assert Fins(xs)[..n] == Fins(xs[..n]);
    }
  }
}

=== FILE: friendly.dfy ===
/** `get_friendly_format` in scripts/common.py: round to three significant
    figures, divide by 1000 while the value is at least 1000 in size, counting
    the divisions, and pick the suffix at that count from
    `['', 'K', 'M', 'B', 'T']`. */
module Friendly {
  import opened Wrappers
  import opened Numbers
  import opened Figures

  const Suffixes: seq<string> := ["", "K", "M", "B", "T"]

  /** m is the number of thousands-steps in x: |x| < 1000^(m+1), and |x| >= 1000^m unless m is 0. */
  predicate IsMagnitude(x: real, m: nat) {
    Abs(x) < Pow(1000.0, m + 1) && (m == 0 || Pow(1000.0, m) <= Abs(x))
  }

  /** The number of divisions by 1000 the loop makes on x. */
  function MagnitudeOf(x: real): (m: nat)
    decreases Abs(x).Floor
  {
    if Abs(x) >= 1000.0 then 1 + MagnitudeOf(x / 1000.0) else 0
  }

  lemma {:induction false} MagnitudeOfSpec(x: real)
    ensures IsMagnitude(x, MagnitudeOf(x))
    decreases Abs(x).Floor
  {
    if Abs(x) >= 1000.0 {
      var y := x / 1000.0;
      assert Abs(x) == 1000.0 * Abs(y);
      MagnitudeOfSpec(y);
      var m := MagnitudeOf(y);
      assert Pow(1000.0, m + 2) == 1000.0 * Pow(1000.0, m + 1);
      assert Pow(1000.0, m + 1) == 1000.0 * Pow(1000.0, m);
      if m == 0 {
        assert Pow(1000.0, 1) == 1000.0;
      }
    } else {
      assert Pow(1000.0, 1) == 1000.0;
    }
  }

  /** Only one magnitude fits a value. */
  lemma {:induction false} MagnitudeUnique(x: real, m: nat, k: nat)
    requires IsMagnitude(x, m) && IsMagnitude(x, k)
    ensures m == k
  {
    if m < k {
      PowMonotone(m + 1, k);
    } else if k < m {
      PowMonotone(k + 1, m);
    }
  }

  lemma {:induction false} PowMonotone(i: nat, j: nat)
    requires i <= j
    ensures Pow(1000.0, i) <= Pow(1000.0, j)
    decreases j - i
  {
    if i < j {
      PowMonotone(i, j - 1);
      PowPositive(1000.0, j - 1);
      assert Pow(1000.0, j) == 1000.0 * Pow(1000.0, j - 1);
    }
  }

  /** x in units of 1000^m, back in units of 1. */
  function Upscaled(x: real, m: nat): real {
    x * Pow(1000.0, m)
  }

  /** The loop's result: the value in units of 1000^magnitude and its suffix. */
  datatype Shortened = Shortened(mantissa: real, magnitude: nat, suffix: string)

  /** The loop and the suffix lookup on an already rounded value v. The list
      has five suffixes, so a value of 1000^5 or more in size raises IndexError. */
  method ScaleDown(v: real) returns (r: Result<Shortened>)
    ensures r.Success? <==> Abs(v) < Pow(1000.0, 5)
    ensures r.Failure? ==> r.error == IndexError
    ensures r.Success? ==>
      && r.value.magnitude < |Suffixes|
      && IsMagnitude(v, r.value.magnitude)
      && Upscaled(r.value.mantissa, r.value.magnitude) == v
      && Abs(r.value.mantissa) < 1000.0
      && r.value.suffix == Suffixes[r.value.magnitude]
  {
    var x := v;
    var magnitude: nat := 0;
    while Abs(x) >= 1000.0
      invariant Upscaled(x, magnitude) == v
      invariant magnitude + MagnitudeOf(x) == MagnitudeOf(v)
      decreases Abs(x).Floor
    {
      LoopStep(v, x, magnitude);
      magnitude := magnitude + 1;
      x := x / 1000.0;
    }
    LoopExit(v, x, magnitude);
    if magnitude < |Suffixes| {
      r := Success(Shortened(x, magnitude, Suffixes[magnitude]));
    } else {
      r := Failure(IndexError);
    }
  }

  /** The largest size the suffix list can name: 1000^5 = 10^15, reached by
      three-figure rounding from 999.5 * 10^12 on. */
  const Limit: real := 999500000000000.0

  lemma TopOfScale()
    ensures Pow(1000.0, 5) == Exp10(15)
    ensures 999.5 * Exp10(15 - 3) == Limit
  {
    assert Pow(1000.0, 2) == 1000000.0 by {
      assert Pow(1000.0, 1) == 1000.0;
    }
    assert Pow(1000.0, 4) == 1000000000000.0 by {
      assert Pow(1000.0, 3) == 1000000000.0;
    }
    assert Pow(1000.0, 5) == 1000000000000000.0;
    assert Pow10(12) == 1000000000000 by {
      assert Pow10(6) == 1000000;
    }
    assert Pow10(15) == 1000000000000000;
    Exp10Whole(15);
    Exp10Whole(12);
  }

  /** The rounded value's size reaches 1000^5 exactly from Limit on. */
  lemma {:induction false} RoundedBelowTop(num: real)
    ensures Abs(Sig3(num)) < Pow(1000.0, 5) <==> Abs(num) < Limit
  {
    Sig3Below(num, 15);
    TopOfScale();
  }

  /** `get_friendly_format` up to the text: the value rounded to three
      figures, scaled down to below 1000 with its suffix, within 0.5% of the
      input; IndexError from Limit on. */
  method FriendlyScale(num: real) returns (r: Result<Shortened>)
    ensures r.Success? <==> Abs(num) < Limit
    ensures r.Failure? ==> r.error == IndexError
    ensures r.Success? ==>
      && r.value.magnitude < |Suffixes|
      && IsMagnitude(Sig3(num), r.value.magnitude)
      && Upscaled(r.value.mantissa, r.value.magnitude) == Sig3(num)
      && Abs(r.value.mantissa) < 1000.0
      && r.value.suffix == Suffixes[r.value.magnitude]
    ensures r.Success? ==> 200.0 * Abs(Upscaled(r.value.mantissa, r.value.magnitude) - num) <= Abs(num)
  {
    r := ScaleDown(Sig3(num));
    RoundedBelowTop(num);
    Sig3Close(num);
  }

  /** One pass of the loop keeps x * 1000^magnitude at v and one step of
      magnitude still to count in x, and lowers the whole part of |x|. */
  lemma {:induction false} LoopStep(v: real, x: real, magnitude: nat)
    requires Abs(x) >= 1000.0
    requires Upscaled(x, magnitude) == v && magnitude + MagnitudeOf(x) == MagnitudeOf(v)
    ensures Upscaled(x / 1000.0, magnitude + 1) == v
    ensures magnitude + 1 + MagnitudeOf(x / 1000.0) == MagnitudeOf(v)
    ensures Abs(x / 1000.0).Floor < Abs(x).Floor
  {
    PowStep(x, magnitude);
    Shrinks(x);
  }

  /** When the loop stops, it has counted the magnitude of its input. */
  lemma {:induction false} LoopExit(num: real, x: real, magnitude: nat)
    requires Abs(x) < 1000.0 && magnitude + MagnitudeOf(x) == MagnitudeOf(num)
    ensures IsMagnitude(num, magnitude)
    ensures magnitude < |Suffixes| <==> Abs(num) < Pow(1000.0, 5)
  {
    MagnitudeOfSpec(num);
    MagnitudeBound(num);
  }

  /** One pass of the loop strictly lowers the whole part of |x|. */
  lemma {:induction false} Shrinks(x: real)
    requires Abs(x) >= 1000.0
    ensures Abs(x / 1000.0).Floor < Abs(x).Floor
    ensures MagnitudeOf(x) == 1 + MagnitudeOf(x / 1000.0)
  {
    assert Abs(x / 1000.0) == Abs(x) / 1000.0;
  }

  lemma {:induction false} PowStep(x: real, m: nat)
    ensures (x / 1000.0) * Pow(1000.0, m + 1) == x * Pow(1000.0, m)
  {
    assert Pow(1000.0, m + 1) == 1000.0 * Pow(1000.0, m);
  }

  /** The magnitude is below 5 exactly when the value is below 1000^5 in size. */
  lemma {:induction false} MagnitudeBound(x: real)
    ensures MagnitudeOf(x) < 5 <==> Abs(x) < Pow(1000.0, 5)
  {
    MagnitudeOfSpec(x);
    var m := MagnitudeOf(x);
    if m < 5 {
      PowMonotone(m + 1, 5);
    } else {
      PowMonotone(5, m);
    }
  }

  /** The suffix `get_friendly_format` picks for a value, or its IndexError. */
  function SuffixOf(num: real): (r: Result<string>)
    ensures r.Success? <==> Abs(num) < Limit
    ensures r.Failure? ==> r.error == IndexError
    ensures r.Success? ==> exists m :: 0 <= m < 5 && IsMagnitude(Sig3(num), m) && r.value == Suffixes[m]
  {
    RoundedBelowTop(num);
    MagnitudeBound(Sig3(num));
    MagnitudeOfSpec(Sig3(num));
    var m := MagnitudeOf(Sig3(num));
    if m < |Suffixes| then Success(Suffixes[m]) else Failure(IndexError)
  }

  /** Just below the limit the suffix is "T"; from the limit on, where Python
      reaches 1e15 after rounding, it is an IndexError. */
  lemma SuffixAtLimit()
    ensures SuffixOf(999400000000000.0) == Success("T")
    ensures SuffixOf(999600000000000.0) == Failure(IndexError)
  {
    var r := SuffixOf(999400000000000.0);
    assert r.Success?;
    var m :| 0 <= m < 5 && IsMagnitude(Sig3(999400000000000.0), m) && r.value == Suffixes[m];
    Sig3Close(999400000000000.0);
    TopOfScale();
    if m < 4 {
      PowMonotone(m + 1, 4);
    }
  }
}

=== FILE: numbers.dfy ===
/** Exact-real stand-ins for the float operations the scripts use. */
module Numbers {

  function Abs(x: real): real {
    if x < 0.0 then -x else x
  }

  /** 10^n, the scale of a rounding to n decimal places. */
  function Pow10(n: nat): (r: nat)
    ensures r >= 1
  {
    if n == 0 then 1 else 10 * Pow10(n - 1)
  }

  /** `b ** n` for a natural exponent. */
  function Pow(b: real, n: nat): real {
    if n == 0 then 1.0 else b * Pow(b, n - 1)
  }

  /** x counted in units of 10^-digits. */
  function Scaled(x: real, digits: nat): real {
    x * Pow10(digits) as real
  }

  /** k units of 10^-digits, as a value. */
  function Unscaled(k: int, digits: nat): real {
    k as real / Pow10(digits) as real
  }

  /** x is a whole number of units of 10^-digits. */
  predicate OnGrid(x: real, digits: nat) {
    Scaled(x, digits).Floor as real == Scaled(x, digits)
  }

  lemma {:induction false} ScaleRoundTrip(k: int, x: real, digits: nat)
    ensures Scaled(Unscaled(k, digits), digits) == k as real
    ensures Abs(Unscaled(k, digits) - x) * Pow10(digits) as real == Abs(k as real - Scaled(x, digits))
  {
    var scale := Pow10(digits) as real;
    DivideMultiply(k as real, scale);
    ScaledDistance(k as real, x, scale);
  }

  lemma {:induction false} GridRoundTrip(x: real, digits: nat)
    requires OnGrid(x, digits)
    ensures Unscaled(Scaled(x, digits).Floor, digits) == x
  {
    var scale := Pow10(digits) as real;
    var f := Scaled(x, digits).Floor as real;
    assert f == x * scale;
    MultiplyDivide(x, scale);
  }

  lemma {:induction false} MultiplyDivide(a: real, scale: real)
    requires scale >= 1.0
    ensures (a * scale) / scale == a
  {
  }

  lemma {:induction false} DivideMultiply(a: real, scale: real)
    requires scale >= 1.0
    ensures (a / scale) * scale == a
  {
  }

  lemma {:induction false} ScaledDistance(a: real, x: real, scale: real)
    requires scale >= 1.0
    ensures Abs(a / scale - x) * scale == Abs(a - x * scale)
  {
    assert (a / scale - x) * scale == a - x * scale;
  }

  /** The whole number nearest to y, the even one on a tie. */
  function HalfEven(y: real): (k: int)
    ensures 2.0 * Abs(k as real - y) <= 1.0
  {
    var low := y.Floor;
    var frac := y - low as real;
    assert 0.0 <= frac < 1.0;
    if frac < 0.5 then low
    else if frac > 0.5 then low + 1
    else if low % 2 == 0 then low
    else low + 1
  }

  lemma {:induction false} HalfEvenNegate(y: real)
    ensures HalfEven(-y) == -HalfEven(y)
  {
    var low := y.Floor;
    if low as real == y {
      assert (-y).Floor == -low;
    } else {
      assert (-y).Floor == -low - 1;
    }
  }

  /** Python's `round(x, digits)` (round half to even), on exact reals. */
  function Round(x: real, digits: nat): (r: real)
    ensures OnGrid(r, digits)
    ensures 2.0 * Abs(r - x) * Pow10(digits) as real <= 1.0
  {
    var k := HalfEven(Scaled(x, digits));
    ScaleRoundTrip(k, x, digits);
    Unscaled(k, digits)
  }

  /** A tie rounds to the even neighbour: 12.5% to two decimals is 0.12, not 0.13. */
  lemma {:induction false} RoundTieExample()
    ensures Round(12.5 / 100.0, 2) == 0.12
  {
  }

  /** A value already on the grid is left unchanged by rounding. */
  lemma {:induction false} RoundOnGrid(x: real, digits: nat)
    requires OnGrid(x, digits)
    ensures Round(x, digits) == x
  {
    var s := Scaled(x, digits);
    assert HalfEven(s) == s.Floor;
    GridRoundTrip(x, digits);
  }

  /** Rounding twice is rounding once. */
  lemma {:induction false} RoundIdempotent(x: real, digits: nat)
    ensures Round(Round(x, digits), digits) == Round(x, digits)
  {
    RoundOnGrid(Round(x, digits), digits);
  }

  /** Round half to even is symmetric about zero. */
  lemma {:induction false} RoundNegate(x: real, digits: nat)
    ensures Round(-x, digits) == -Round(x, digits)
  {
    var scale := Pow10(digits) as real;
    assert Scaled(-x, digits) == -Scaled(x, digits);
    HalfEvenNegate(Scaled(x, digits));
    var k := HalfEven(Scaled(x, digits));
    assert (-k) as real / scale == -(k as real / scale);
  }

  /** Python's `int(x)`: truncation toward zero. */
  function Trunc(x: real): (r: int)
    ensures x >= 0.0 ==> 0 <= r && r as real <= x < r as real + 1.0
    ensures x < 0.0 ==> r <= 0 && r as real - 1.0 < x <= r as real
  {
    if x >= 0.0 then x.Floor else -((-x).Floor)
  }

  /** Python's `sum(xs)`. */
  function Sum(xs: seq<real>): real {
    if |xs| == 0 then 0.0 else Sum(xs[..|xs| - 1]) + xs[|xs| - 1]
  }

  /** Powers of a non-zero base are non-zero, and a positive power of zero is zero. */
  lemma {:induction false} PowZero(b: real, n: nat)
    requires n >= 1
    ensures Pow(b, n) == 0.0 <==> b == 0.0
  {
    if n > 1 {
      PowZero(b, n - 1);
      assert Pow(b, n) == b * Pow(b, n - 1);
    }
  }

  /** Powers of a positive base are positive. */
  lemma {:induction false} PowPositive(b: real, n: nat)
    requires b > 0.0
    ensures Pow(b, n) > 0.0
  {
    if n > 0 {
      PowPositive(b, n - 1);
      assert Pow(b, n) == b * Pow(b, n - 1);
    }
  }

  /** For a positive exponent, a larger positive base has a larger power. */
  lemma {:induction false} PowStrictlyIncreasing(a: real, b: real, n: nat)
    requires 0.0 < a < b && n >= 1
    ensures Pow(a, n) < Pow(b, n)
  {
    if n == 1 {
      assert Pow(a, 1) == a && Pow(b, 1) == b;
    } else {
      PowStrictlyIncreasing(a, b, n - 1);
      PowPositive(a, n - 1);
      var pa, pb := Pow(a, n - 1), Pow(b, n - 1);
      MultiplyStrict(a, b, pa);
      MultiplyStrict(pa, pb, b);
      assert Pow(a, n) == a * pa;
      assert Pow(b, n) == b * pb;
    }
  }

  lemma {:induction false} MultiplyStrict(x: real, y: real, z: real)
    requires x < y && z > 0.0
    ensures x * z < y * z && z * x < z * y
  {
  }

  /** `b ** (m + n) == b ** m * b ** n`. */
  lemma {:induction false} PowAdd(b: real, m: nat, n: nat)
    ensures Pow(b, m + n) == Pow(b, m) * Pow(b, n)
  {
    if n > 0 {
      PowAdd(b, m, n - 1);
      assert Pow(b, m + n) == b * Pow(b, m + n - 1);
    }
  }

  /** The sum of a sequence with one more element at its end. */
  lemma {:induction false} SumAppend(xs: seq<real>, x: real)
    ensures Sum(xs + [x]) == Sum(xs) + x
  {
    assert (xs + [x])[..|xs|] == xs;
  }

  /** Scaling every element scales the sum. */
  lemma {:induction false} SumScale(xs: seq<real>, ys: seq<real>, c: real)
    requires |xs| == |ys| && forall i :: 0 <= i < |xs| ==> ys[i] == c * xs[i]
    ensures Sum(ys) == c * Sum(xs)
  {
    if |xs| > 0 {
      var n := |xs| - 1;
      SumScale(xs[..n], ys[..n], c);
      assert Sum(ys) == Sum(ys[..n]) + ys[n];
      assert Sum(xs) == Sum(xs[..n]) + xs[n];
    }
  }

  /** A sum of positive numbers is non-negative, and positive when there is at least one. */
  lemma {:induction false} SumPositive(xs: seq<real>)
    requires forall i :: 0 <= i < |xs| ==> xs[i] > 0.0
    ensures Sum(xs) >= 0.0
    ensures |xs| > 0 ==> Sum(xs) > 0.0
  {
    if |xs| > 0 {
      SumPositive(xs[..|xs| - 1]);
    }
  }
}

=== FILE: sanitize.dfy ===
/** `sanitize` from scripts/common.py: accounting cells such as `1,234`,
    `(500)`, `12%` or `3.2B` read as numbers rounded to two decimals. */
module Sanitize {
  import opened Wrappers
  import opened Numbers
  import opened Text

  predicate IsOpenParen(c: char) {
    c == '('
  }

  predicate IsCloseParen(c: char) {
    c == ')'
  }

  predicate IsPercent(c: char) {
    c == '%'
  }

  /** `v.startswith('(') and v.endswith(')')`. */
  predicate Parenthesised(w: string) {
    |w| > 0 && w[0] == '(' && w[|w| - 1] == ')'
  }

  /** `v.lstrip('(').rstrip(')')`. */
  function Unwrapped(w: string): string {
    TrimEnd(TrimStart(w, IsOpenParen), IsCloseParen)
  }

  /** `re.search('[xX]$', v)`: the last character is the letter in either
      case, or the last character is a newline and the one before it is. */
  predicate SuffixMatch(v: string, lower: char, upper: char) {
    || (|v| >= 1 && (v[|v| - 1] == lower || v[|v| - 1] == upper))
    || (|v| >= 2 && v[|v| - 1] == '\n' && (v[|v| - 2] == lower || v[|v| - 2] == upper))
  }

  /** The factor a cell's suffix applies. */
  datatype Suffix = Plain | Percent | Millions | Billions

  function Apply(suffix: Suffix, x: real): real {
    match suffix
    case Plain => x
    case Percent => x / 100.0
    case Millions => x * 1000000.0
    case Billions => x * 1000000000.0
  }

  /** How a comma-free cell is read: whether parentheses make it negative,
      the text handed to `float()`, and its suffix (a trailing `%` divides by
      100; otherwise a trailing m/M multiplies by 10^6, else a trailing b/B
      by 10^9). */
  datatype Reading = Reading(negative: bool, text: string, suffix: Suffix)

  function ReadingOf(w: string): Reading {
    var negative := Parenthesised(w);
    var body := if negative then Unwrapped(w) else w;
    if |body| > 0 && body[|body| - 1] == '%' then
      Reading(negative, TrimEnd(body, IsPercent), Percent)
    else if SuffixMatch(body, 'm', 'M') then
      Reading(negative, body[..|body| - 1], Millions)
    else if SuffixMatch(body, 'b', 'B') then
      Reading(negative, body[..|body| - 1], Billions)
    else
      Reading(negative, body, Plain)
  }

  /** The number x read under a cell's sign and suffix. */
  function Signed(reading: Reading, x: real): real {
    if reading.negative then -Apply(reading.suffix, x) else Apply(reading.suffix, x)
  }

  /** The value a reading denotes, rounded to two decimals, given what
      `float()` made of its text: a number, or the ValueError it raised. */
  function Interpret(reading: Reading, parsed: Result<real>): (r: Result<Option<real>>)
    ensures r.Success? <==> parsed.Success?
    ensures r.Success? ==> r.value.Some? && OnGrid(r.value.value, 2)
    ensures r.Failure? ==> r.error == parsed.error
  {
    var x :- parsed;
    Success(Some(Round(Signed(reading, x), 2)))
  }

  /** One cell of `sanitize`: None for a cell with no ASCII character left,
      otherwise the number it denotes, rounded to two decimals. */
  function SanitizeCell(raw: string): (r: Result<Option<real>>)
    ensures r == Success(None) <==> AsciiOnly(raw) == []
    ensures r.Success? && r.value.Some? ==> OnGrid(r.value.value, 2)
    ensures r.Failure? ==> r.error.ValueError?
  {
    var v := AsciiOnly(raw);
    if v == [] then Success(None) else
      var reading := ReadingOf(Without(v, ','));
      Interpret(reading, ToFloat(reading.text))
  }

  /** The cells of `sanitize(values, len_reqd)`, in order, stopping at the first
      cell that does not parse. */
  function SanitizeCells(values: seq<string>): (r: Result<seq<Option<real>>>)
    ensures r.Success? <==> forall i :: 0 <= i < |values| ==> SanitizeCell(values[i]).Success?
    ensures r.Success? ==> |r.value| == |values|
    ensures r.Success? ==> forall i :: 0 <= i < |values| ==> SanitizeCell(values[i]) == Success(r.value[i])
    ensures r.Failure? ==> exists i :: 0 <= i < |values| && SanitizeCell(values[i]) == Failure(r.error)
                                       && forall j :: 0 <= j < i ==> SanitizeCell(values[j]).Success?
  {
    if |values| == 0 then
      Success([])
    else
      var head :- SanitizeCell(values[0]);
      var tail :- SanitizeCells(values[1..]);
      CellsStep(SanitizeCell, values, head, tail);
      Success([head] + tail)
  }

  /** The first cell and the cells of the rest line up with the whole row,
      for any cell reader f. */
  lemma {:induction false} CellsStep<A, B>(f: A -> Result<B>, values: seq<A>, head: B, tail: seq<B>)
    requires |values| > 0 && f(values[0]) == Success(head) && |tail| == |values| - 1
    requires forall i :: 0 <= i < |tail| ==> f(values[1..][i]) == Success(tail[i])
    ensures forall i :: 0 <= i < |values| ==> f(values[i]) == Success(([head] + tail)[i])
  {
    forall i | 1 <= i < |values|
      ensures f(values[i]) == Success(([head] + tail)[i])
    {
      assert values[1..][i - 1] == values[i];
    }
  }

  /** `sanitize(values, len_reqd)`: the parsed cells, or the first cell's
      ValueError, or an AssertionError when there are not len_reqd of them. */
  function SanitizeRow(values: seq<string>, lenReqd: int): (r: Result<seq<Option<real>>>)
    ensures r.Success? <==> |values| == lenReqd && forall i :: 0 <= i < |values| ==> SanitizeCell(values[i]).Success?
    ensures r.Success? ==> |r.value| == lenReqd
    ensures r.Success? ==> forall i :: 0 <= i < |values| ==> SanitizeCell(values[i]) == Success(r.value[i])
    ensures r.Failure? && (forall i :: 0 <= i < |values| ==> SanitizeCell(values[i]).Success?) ==> r.error == AssertionError
    ensures r.Failure? && !(forall i :: 0 <= i < |values| ==> SanitizeCell(values[i]).Success?) ==>
      exists i :: 0 <= i < |values| && SanitizeCell(values[i]) == Failure(r.error)
                  && forall j :: 0 <= j < i ==> SanitizeCell(values[j]).Success?
  {
    var cells :- SanitizeCells(values);
    if |cells| == lenReqd then Success(cells) else Failure(AssertionError)
  }


  /** The same number with its sign flipped; failures and None unchanged. */
  function Negated(r: Result<Option<real>>): Result<Option<real>> {
    match r
    case Success(Some(x)) => Success(Some(-x))
    case _ => r
  }

  /** A cell that is already ASCII and comma-free is read through `ReadingOf` alone. */
  lemma {:induction false} SanitizeByReading(raw: string)
    requires IsAscii(raw) && |raw| > 0
    requires forall i :: 0 <= i < |raw| ==> raw[i] != ','
    ensures SanitizeCell(raw) == Interpret(ReadingOf(raw), ToFloat(ReadingOf(raw).text))
  {
    AsciiOnlyKeepsAscii(raw);
    WithoutAbsent(raw, ',');
  }

  lemma {:induction false} OnGridInteger(k: int, digits: nat)
    ensures OnGrid(k as real, digits)
  {
    assert Scaled(k as real, digits) == (k * Pow10(digits)) as real;
  }

  lemma {:induction false} OnGridHundredths(k: int)
    ensures OnGrid(k as real / 100.0, 2)
  {
    assert Scaled(k as real / 100.0, 2) == k as real;
  }

  lemma {:induction false} ReadingSign(w: string)
    ensures ReadingOf(w).negative == Parenthesised(w)
  {
  }

  lemma {:induction false} ReadingUnwrapped(w: string)
    requires |w| > 0 && w[0] != '(' && w[|w| - 1] != ')'
    ensures ReadingOf("(" + w + ")") == ReadingOf(w).(negative := true)
  {
    var raw := "(" + w + ")";
    assert raw == [ '(' ] + (w + ")");
    TrimStartOne('(', w + ")", IsOpenParen);
    TrimEndOne(w, ')', IsCloseParen);
    assert Unwrapped(raw) == w;
  }

  lemma {:induction false} WithoutWrapped(s: string)
    ensures Without("(" + s + ")", ',') == "(" + Without(s, ',') + ")"
  {
    var open, close := "(", ")";
    assert open + s + close == open + (s + close);
    WithoutAppend(open, s + close, ',');
    WithoutAppend(s, close, ',');
    WithoutOther(open, ',');
    WithoutOther(close, ',');
  }

  /** A single character other than c is kept. */
  lemma {:induction false} WithoutOther(t: string, c: char)
    requires |t| == 1 && t[0] != c
    ensures Without(t, c) == t
  {
    assert t[1..] == [];
  }

  lemma {:induction false} RoundSigned(reading: Reading, x: real)
    requires !reading.negative
    ensures Round(Signed(reading.(negative := true), x), 2) == -Round(Signed(reading, x), 2)
  {
    RoundNegate(Signed(reading, x), 2);
  }

  /** Flipping the sign of a reading negates the number it denotes. */
  lemma {:induction false} InterpretNegated(reading: Reading, parsed: Result<real>)
    requires !reading.negative
    ensures Interpret(reading.(negative := true), parsed) == Negated(Interpret(reading, parsed))
  {
    if parsed.Success? {
      RoundSigned(reading, parsed.value);
    }
  }

  /** An ASCII cell whose comma-free text reads as `reading` denotes what that reading does. */
  lemma {:induction false} SanitizeAscii(raw: string, reading: Reading)
    requires IsAscii(raw) && |raw| > 0 && ReadingOf(Without(raw, ',')) == reading
    ensures SanitizeCell(raw) == Interpret(reading, ToFloat(reading.text))
  {
    AsciiOnlyKeepsAscii(raw);
  }

  /** Wrapping a cell in parentheses negates it: `(500)` reads as -500. Any cell
      qualifies whose comma-free text is not itself wrapped. */
  lemma {:induction false} SanitizeParenthesised(s: string)
    requires IsAscii(s)
    requires var w := Without(s, ','); |w| > 0 && w[0] != '(' && w[|w| - 1] != ')'
    ensures SanitizeCell("(" + s + ")") == Negated(SanitizeCell(s))
  {
    var w := Without(s, ',');
    var raw := "(" + s + ")";
    assert IsAscii(raw);
    WithoutWrapped(s);
    ReadingUnwrapped(w);
    var reading := ReadingOf(w);
    ReadingSign(w);
    var flipped := reading.(negative := true);
    SanitizeAscii(raw, flipped);
    SanitizeAscii(s, reading);
    assert flipped.text == reading.text;
    InterpretNegated(reading, ToFloat(reading.text));
  }

  lemma {:induction false} ReadingPercent(t: string)
    requires |t| > 0 && t[|t| - 1] != '%'
    ensures ReadingOf(t + "%") == Reading(false, t, Percent)
  {
    TrimEndOne(t, '%', IsPercent);
  }

  /** `str(i) + '%'` reads back as i / 100: the FCF/Sales labels re-parse as fractions. */
  lemma {:induction false} SanitizePercentLabel(i: int)
    ensures SanitizeCell(IntToString(i) + "%") == Success(Some(i as real / 100.0))
  {
    var t := IntToString(i);
    var raw := t + "%";
    var reading := Reading(false, t, Percent);
    assert forall k :: 0 <= k < |raw| ==> raw[k] != ',' by {
      assert forall k :: 0 <= k < |t| ==> raw[k] == t[k];
    }
    WithoutAbsent(raw, ',');
    ReadingPercent(t);
    SanitizeAscii(raw, reading);
    ParseIntString(i);
    PercentValue(t, i);
  }

  lemma {:induction false} PercentValue(t: string, i: int)
    ensures Interpret(Reading(false, t, Percent), Success(i as real)) == Success(Some(i as real / 100.0))
  {
    OnGridHundredths(i);
    RoundOnGrid(i as real / 100.0, 2);
  }

  lemma {:induction false} ReadingSuffix(t: string, suffix: char)
    requires |t| > 0 && IsDigit(t[|t| - 1])
    requires suffix in "mMbB"
    ensures ReadingOf(t + [suffix]) == Reading(false, t, if suffix in "mM" then Millions else Billions)
  {
    assert (t + [suffix])[..|t|] == t;
  }

  /** A whole number followed by m/M reads as that many millions, and by b/B as that many billions. */
  lemma {:induction false} SanitizeSuffixed(n: nat, suffix: char)
    requires suffix in "mMbB"
    ensures SanitizeCell(NatToString(n) + [suffix])
         == Success(Some(n as real * (if suffix in "mM" then 1000000.0 else 1000000000.0)))
  {
    var t := NatToString(n);
    var raw := t + [suffix];
    var reading := Reading(false, t, if suffix in "mM" then Millions else Billions);
    assert forall k :: 0 <= k < |raw| ==> raw[k] != ',' by {
      assert forall k :: 0 <= k < |t| ==> raw[k] == t[k];
    }
    WithoutAbsent(raw, ',');
    ReadingSuffix(t, suffix);
    SanitizeAscii(raw, reading);
    ParseNatInt(n);
    SuffixValue(t, n, suffix);
  }

  lemma {:induction false} SuffixValue(t: string, n: nat, suffix: char)
    requires suffix in "mMbB"
    ensures Interpret(Reading(false, t, if suffix in "mM" then Millions else Billions), Success(n as real))
         == Success(Some(n as real * (if suffix in "mM" then 1000000.0 else 1000000000.0)))
  {
    var units := if suffix in "mM" then n * 1000000 else n * 1000000000;
    assert Signed(Reading(false, t, if suffix in "mM" then Millions else Billions), n as real) == units as real;
    OnGridInteger(units, 2);
    RoundOnGrid(units as real, 2);
  }

  /** A reading without parentheses denotes its parsed number with the
      suffix's factor applied, rounded to two decimals. */
  lemma {:induction false} UnsignedValue(reading: Reading, x: real)
    requires !reading.negative
    ensures Interpret(reading, Success(x)) == Success(Some(Round(Apply(reading.suffix, x), 2)))
  {
  }

  /** Removing commas from `s + [c]` keeps a final character c that is not a comma. */
  lemma {:induction false} WithoutLast(s: string, c: char)
    requires c != ','
    ensures Without(s + [c], ',') == Without(s, ',') + [c]
  {
    WithoutAppend(s, [c], ',');
    WithoutOther([c], ',');
  }

  /** An ASCII cell read without parentheses, whose text `float()` reads as x,
      is x with the suffix's factor applied, rounded to two decimals. */
  lemma {:induction false} ReadAs(raw: string, reading: Reading, x: real, v: real)
    requires IsAscii(raw) && |raw| > 0 && ReadingOf(Without(raw, ',')) == reading
    requires !reading.negative && ToFloat(reading.text) == Success(x)
    requires v == Round(Apply(reading.suffix, x), 2)
    ensures SanitizeCell(raw) == Success(Some(v))
  {
    SanitizeAscii(raw, reading);
    UnsignedValue(reading, x);
  }

  /** A decimal cell, comma-grouped or not and possibly signed (`1,234.56`,
      `-0.5`), is the number `float()` reads from its comma-free text,
      rounded to two decimals. */
  lemma {:induction false} SanitizeDecimal(s: string, x: real)
    requires IsAscii(s)
    requires var t := Without(s, ','); |t| > 0 && IsDigit(t[|t| - 1])
    ensures ToFloat(Without(s, ',')) == Success(x) ==>
              SanitizeCell(s) == Success(Some(Round(x, 2)))
  {
    if ToFloat(Without(s, ',')) == Success(x) {
      var t := Without(s, ',');
      ReadingPlain(t);
      ReadAs(s, Reading(false, t, Plain), x, Round(x, 2));
    }
  }

  /** Text ending in a digit is read as itself, unsigned and without suffix. */
  lemma {:induction false} ReadingPlain(t: string)
    requires |t| > 0 && IsDigit(t[|t| - 1])
    ensures ReadingOf(t) == Reading(false, t, Plain)
  {
  }

  /** A decimal followed by `%` (`12.5%`) is that number over 100, rounded to
      two decimals. */
  lemma {:induction false} SanitizeDecimalPercent(s: string, x: real)
    requires IsAscii(s)
    requires var t := Without(s, ','); |t| > 0 && IsDigit(t[|t| - 1])
    ensures ToFloat(Without(s, ',')) == Success(x) ==>
              SanitizeCell(s + "%") == Success(Some(Round(x / 100.0, 2)))
  {
    if ToFloat(Without(s, ',')) == Success(x) {
      var t := Without(s, ',');
      WithoutLast(s, '%');
      ReadingPercent(t);
      assert IsAscii(s + "%");
      ReadAs(s + "%", Reading(false, t, Percent), x, Round(x / 100.0, 2));
    }
  }

  /** Appending m/M/b/B to an ASCII cell whose comma-free text ends in a digit
      keeps it ASCII and reads it as that text under the letter's suffix. */
  lemma {:induction false} SuffixedReading(s: string, suffix: char, kind: Suffix)
    requires IsAscii(s)
    requires || ((suffix == 'm' || suffix == 'M') && kind == Millions)
             || ((suffix == 'b' || suffix == 'B') && kind == Billions)
    requires var t := Without(s, ','); |t| > 0 && IsDigit(t[|t| - 1])
    ensures IsAscii(s + [suffix]) && |s + [suffix]| > 0
    ensures ReadingOf(Without(s + [suffix], ',')) == Reading(false, Without(s, ','), kind)
  {
    WithoutLast(s, suffix);
    ReadingSuffix(Without(s, ','), suffix);
    assert IsAscii(s + [suffix]);
  }

  /** An ASCII cell whose comma-free text `float()` reads as x, followed by
      m/M/b/B, is x scaled by the letter's factor, rounded to two decimals. */
  lemma {:induction false} SuffixedAs(s: string, suffix: char, kind: Suffix, x: real, v: real)
    requires IsAscii(s)
    requires || ((suffix == 'm' || suffix == 'M') && kind == Millions)
             || ((suffix == 'b' || suffix == 'B') && kind == Billions)
    requires var t := Without(s, ','); |t| > 0 && IsDigit(t[|t| - 1]) && ToFloat(t) == Success(x)
    requires v == Round(Apply(kind, x), 2)
    ensures SanitizeCell(s + [suffix]) == Success(Some(v))
  {
    SuffixedReading(s, suffix, kind);
    ReadAs(s + [suffix], Reading(false, Without(s, ','), kind), x, v);
  }

  /** A decimal followed by m or M (`3.2M`) is that many millions, rounded to
      two decimals. */
  lemma {:induction false} SanitizeDecimalMillions(s: string, x: real, suffix: char)
    requires IsAscii(s) && (suffix == 'm' || suffix == 'M')
    requires var t := Without(s, ','); |t| > 0 && IsDigit(t[|t| - 1])
    ensures ToFloat(Without(s, ',')) == Success(x) ==>
              SanitizeCell(s + [suffix]) == Success(Some(Round(x * 1000000.0, 2)))
  {
    if ToFloat(Without(s, ',')) == Success(x) {
      SuffixedAs(s, suffix, Millions, x, Round(x * 1000000.0, 2));
    }
  }

  /** A decimal followed by b or B (`3.2B`) is that many billions, rounded to
      two decimals. */
  lemma {:induction false} SanitizeDecimalBillions(s: string, x: real, suffix: char)
    requires IsAscii(s) && (suffix == 'b' || suffix == 'B')
    requires var t := Without(s, ','); |t| > 0 && IsDigit(t[|t| - 1])
    ensures ToFloat(Without(s, ',')) == Success(x) ==>
              SanitizeCell(s + [suffix]) == Success(Some(Round(x * 1000000000.0, 2)))
  {
    if ToFloat(Without(s, ',')) == Success(x) {
      SuffixedAs(s, suffix, Billions, x, Round(x * 1000000000.0, 2));
    }
  }

  /** Digits, a point and digits followed by `%` (`12.5%`) is that decimal
      over 100, rounded to two decimals. */
  lemma {:induction false} SanitizePointPercent(w: string, f: string, x: real)
    requires |w| > 0 && AllDigits(w) && |f| > 0 && AllDigits(f)
    requires x == DigitsValue(w) as real + DigitsValue(f) as real / Pow10(|f|) as real
    ensures SanitizeCell(w + "." + f + "%") == Success(Some(Round(x / 100.0, 2)))
  {
    PointFloat(w, f, x);
    SanitizeDecimalPercent(w + "." + f, x);
  }

  /** Digits, a point and digits are ASCII, free of commas, end in a digit and
      read as the decimal they spell. */
  lemma {:induction false} PointFloat(w: string, f: string, x: real)
    requires |w| > 0 && AllDigits(w) && |f| > 0 && AllDigits(f)
    requires x == DigitsValue(w) as real + DigitsValue(f) as real / Pow10(|f|) as real
    ensures var s := w + "." + f; IsAscii(s) && |Without(s, ',')| > 0
    ensures var t := Without(w + "." + f, ','); IsDigit(t[|t| - 1]) && ToFloat(t) == Success(x)
  {
    var s := w + "." + f;
    assert forall i :: 0 <= i < |s| ==> IsDigit(s[i]) || s[i] == '.';
    WithoutAbsent(s, ',');
    ParseDecimalPoint(w, f, x);
    FloatOf(s, x);
  }

  /** What `float()` reads, `ToFloat` returns. */
  lemma {:induction false} FloatOf(s: string, x: real)
    requires ParseFloat(s) == Some(x)
    ensures ToFloat(s) == Success(x)
  {
  }

  /** Characters with code 128 or above are ignored wherever they occur. */
  lemma {:induction false} SanitizeIgnoresNonAscii(raw: string)
    ensures SanitizeCell(AsciiOnly(raw)) == SanitizeCell(raw)
  {
    AsciiOnlyIdempotent(raw);
  }

  /** The text handed to `float()` is made of characters of the cell. */
  lemma {:induction false} ReadingText(w: string)
    ensures forall x :: x in ReadingOf(w).text ==> x in w
  {
    var body := if Parenthesised(w) then Unwrapped(w) else w;
    TrimSubset(w, IsOpenParen);
    TrimSubset(TrimStart(w, IsOpenParen), IsCloseParen);
    assert forall x :: x in body ==> x in w;
    TrimSubset(body, IsPercent);
    if |body| > 0 {
      assert forall x :: x in body[..|body| - 1] ==> x in body;
    }
  }

  /** Commas are ignored: an ASCII cell reads as it does with its commas removed,
      unless nothing but commas is left. */
  lemma {:induction false} SanitizeDropsCommas(s: string)
    requires IsAscii(s) && Without(s, ',') != []
    ensures SanitizeCell(s) == SanitizeCell(Without(s, ','))
  {
    var w := Without(s, ',');
    AsciiOnlyKeepsAscii(s);
    WithoutSubset(s, ',');
    assert IsAscii(w) by {
      forall i | 0 <= i < |w|
        ensures (w[i] as int) < 128
      {
        assert w[i] in s;
      }
    }
    AsciiOnlyKeepsAscii(w);
    WithoutAbsent(w, ',');
  }

  /** A cell of nothing but commas is not empty, so it is not None: `float('')`
      raises ValueError. */
  lemma {:induction false} SanitizeOnlyCommas(s: string)
    requires |s| > 0 && forall i :: 0 <= i < |s| ==> s[i] == ','
    ensures SanitizeCell(s) == Failure(ValueError(""))
  {
    assert IsAscii(s);
    AsciiOnlyKeepsAscii(s);
    WithoutAll(s, ',');
    assert ReadingOf([]) == Reading(false, [], Plain);
    assert FloatStrip([]) == [];
  }

  /** A cell with some ASCII character but no digit ("N/A", "-", " ") does not
      parse: it raises ValueError. */
  lemma {:induction false} SanitizeNoDigit(raw: string)
    requires AsciiOnly(raw) != []
    requires forall i :: 0 <= i < |raw| ==> !IsDigit(raw[i])
    ensures SanitizeCell(raw).Failure? && SanitizeCell(raw).error.ValueError?
  {
    var v := AsciiOnly(raw);
    var w := Without(v, ',');
    var text := ReadingOf(w).text;
    AsciiOnlySubset(raw);
    WithoutSubset(v, ',');
    ReadingText(w);
    forall i | 0 <= i < |text|
      ensures !IsDigit(text[i])
    {
      assert text[i] in raw;
    }
  }
}

=== FILE: seqs.dfy ===
/** Sequence helpers shared by the table loader and the series operations. */
module Seqs {

  function Min(a: int, b: int): int {
    if a <= b then a else b
  }

  /** Python's `list.reverse()`. */
  function Reverse<T>(s: seq<T>): (r: seq<T>)
    ensures |r| == |s|
    ensures forall i :: 0 <= i < |s| ==> r[i] == s[|s| - 1 - i]
  {
    if |s| == 0 then [] else Reverse(s[1..]) + [s[0]]
  }

  lemma {:induction false} ReverseReverse<T>(s: seq<T>)
    ensures Reverse(Reverse(s)) == s
  {
  }
}

=== FILE: series.dfy ===
/** The per-period series operations of scripts/common.py: `get_ratio`,
    `get_product`, `get_growth_rate` and the two named ratios built on
    `get_ratio`. A series is a list of optional values, oldest first. */
module Series {
  import opened Wrappers
  import opened Numbers
  import opened Seqs
  import opened Table

  /** A hundredth-grid value within half a hundredth of q: what `round(q, 2)` gives. */
  predicate NearestHundredth(v: real, q: real) {
    OnGrid(v, 2) && 2.0 * Abs(v - q) * 100.0 <= 1.0
  }

  /** `round(q, 2)` is the nearest hundredth to q. */
  lemma {:induction false} RoundHundredth(q: real)
    ensures NearestHundredth(Round(q, 2), q)
  {
    assert Pow10(2) == 100;
  }

  /** `int(x)`: x is a whole number with the sign of p, and |p| - 1 < |x| <= |p|. */
  predicate TruncationOf(x: real, p: real) {
    x.Floor as real == x && Abs(x) <= Abs(p) < Abs(x) + 1.0 && (x == 0.0 || (x > 0.0 <==> p > 0.0))
  }

  function AsPercent(percent: bool, v: real): real {
    if percent then v * 100.0 else v
  }

  /** One pair of `get_ratio`: None when either side is missing, otherwise
      `round(n / d, 2)`, times 100 when `percent`, truncated toward zero by
      `int` when `round_digits == 0`. A zero denominator raises. */
  function RatioCell(n: Option<real>, d: Option<real>, percent: bool, roundDigits: int): (r: Result<Option<real>>)
    ensures r == Success(None) <==> n.None? || d.None?
    ensures r.Failure? <==> n.Some? && d.Some? && d.value == 0.0
    ensures r.Failure? ==> r.error == ZeroDivisionError
    ensures r.Success? && r.value.Some? ==>
      var q := n.value / d.value;
      var v := Round(q, 2);
      && NearestHundredth(v, q)
      && (roundDigits != 0 ==> r.value.value == AsPercent(percent, v))
      && (roundDigits == 0 ==> TruncationOf(r.value.value, AsPercent(percent, v)))
  {
    if n.None? || d.None? then
      Success(None)
    else
      var q :- Divide(n.value, d.value);
      var p := AsPercent(percent, Round(q, 2));
      Success(Some(if roundDigits == 0 then Trunc(p) as real else p))
  }

  /** The loop of `get_ratio` over `zip(nums, dens)`: one cell per pair, as
      many as the shorter series has, stopping at the first zero denominator. */
  function RatioSeries(nums: seq<Option<real>>, dens: seq<Option<real>>, percent: bool, roundDigits: int): (r: Result<seq<Option<real>>>)
    ensures r.Success? <==> forall i :: 0 <= i < Min(|nums|, |dens|) ==> RatioCell(nums[i], dens[i], percent, roundDigits).Success?
    ensures r.Success? ==> |r.value| == Min(|nums|, |dens|)
    ensures r.Success? ==> forall i :: 0 <= i < |r.value| ==> RatioCell(nums[i], dens[i], percent, roundDigits) == Success(r.value[i])
    ensures r.Failure? ==> r.error == ZeroDivisionError
  {
    if |nums| == 0 || |dens| == 0 then
      Success([])
    else
      var head :- RatioCell(nums[0], dens[0], percent, roundDigits);
      var tail :- RatioSeries(nums[1..], dens[1..], percent, roundDigits);
      assert forall i :: 1 <= i < Min(|nums|, |dens|) ==> nums[1..][i - 1] == nums[i] && dens[1..][i - 1] == dens[i];
      Success([head] + tail)
  }

  /** `get_ratio(d, numerator, denominator, percent, round_digits)`. */
  function Ratio(d: Dataset, numerator: string, denominator: string, percent: bool, roundDigits: int): (r: Result<seq<Option<real>>>)
    ensures numerator !in d ==> r == Failure(KeyError(numerator))
    ensures numerator in d && denominator !in d && d[numerator].Values? ==> r == Failure(KeyError(denominator))
    ensures r.Success? <==> Metric(d, numerator).Success? && Metric(d, denominator).Success?
                            && RatioSeries(Metric(d, numerator).value, Metric(d, denominator).value, percent, roundDigits).Success?
    ensures r.Success? ==> r == RatioSeries(d[numerator].cells, d[denominator].cells, percent, roundDigits)
  {
    var nums :- Metric(d, numerator);
    var dens :- Metric(d, denominator);
    RatioSeries(nums, dens, percent, roundDigits)
  }

  /** A whole-number cell as the `int` Python's `int()` made of it. */
  function WholeOf(c: Option<real>): Option<int> {
    match c
    case None => None
    case Some(x) => Some(x.Floor)
  }

  /** `get_fcf_to_sales_ratio`: FCF per share over sales per share, in whole
      percent. With `round_digits=0` every present entry is an `int`. */
  function FcfToSales(d: Dataset): (r: Result<seq<Option<int>>>)
    ensures r.Success? <==> Ratio(d, "FCF per Share", "Sales per Share", true, 0).Success?
    ensures r.Success? ==>
      var ratios := Ratio(d, "FCF per Share", "Sales per Share", true, 0).value;
      && |r.value| == |ratios|
      && forall i :: 0 <= i < |ratios| ==>
           && (r.value[i].None? <==> ratios[i].None?)
           && (r.value[i].Some? ==> r.value[i].value as real == ratios[i].value)
  {
    var ratios :- Ratio(d, "FCF per Share", "Sales per Share", true, 0);
    var nums := d["FCF per Share"].cells;
    var dens := d["Sales per Share"].cells;
    assert forall i :: 0 <= i < |ratios| ==> RatioCell(nums[i], dens[i], true, 0) == Success(ratios[i]);
    Success(seq(|ratios|, i requires 0 <= i < |ratios| => WholeOf(ratios[i])))
  }

  /** `get_debt_to_equity`: total debt over shareholders' equity, to the hundredth. */
  function DebtToEquity(d: Dataset): (r: Result<seq<Option<real>>>)
    ensures r == Ratio(d, "Total debt", "Shareholders Equity", false, 2)
    ensures r.Success? ==> forall i :: 0 <= i < |r.value| && r.value[i].Some? ==> OnGrid(r.value[i].value, 2)
  {
    var r := Ratio(d, "Total debt", "Shareholders Equity", false, 2);
    if r.Success? then
      var nums := d["Total debt"].cells;
      var dens := d["Shareholders Equity"].cells;
      assert forall i :: 0 <= i < |r.value| ==> RatioCell(nums[i], dens[i], false, 2) == Success(r.value[i]);
      r
    else
      r
  }

  /** The loop of `get_product`: the pairwise products over the shorter length;
      a missing value on either side raises TypeError (`None * x`). */
  function ProductSeries(nums: seq<Option<real>>, dens: seq<Option<real>>): (r: Result<seq<real>>)
    ensures r.Success? <==> forall i :: 0 <= i < Min(|nums|, |dens|) ==> nums[i].Some? && dens[i].Some?
    ensures r.Success? ==> |r.value| == Min(|nums|, |dens|)
    ensures r.Success? ==> forall i :: 0 <= i < |r.value| ==> r.value[i] == nums[i].value * dens[i].value
    ensures r.Failure? ==> r.error == TypeError
  {
    if |nums| == 0 || |dens| == 0 then
      Success([])
    else if nums[0].None? || dens[0].None? then
      Failure(TypeError)
    else
      var tail :- ProductSeries(nums[1..], dens[1..]);
      ProductStep(nums, dens, tail);
      Success([nums[0].value * dens[0].value] + tail)
  }

  /** The first product and the products of the rest line up with the whole series. */
  lemma {:induction false} ProductStep(nums: seq<Option<real>>, dens: seq<Option<real>>, tail: seq<real>)
    requires |nums| > 0 && |dens| > 0 && nums[0].Some? && dens[0].Some?
    requires |tail| == Min(|nums|, |dens|) - 1
    requires forall i :: 0 <= i < |tail| ==> nums[1..][i].Some? && dens[1..][i].Some?
    requires forall i :: 0 <= i < |tail| ==> tail[i] == nums[1..][i].value * dens[1..][i].value
    ensures forall i :: 0 <= i < Min(|nums|, |dens|) ==> nums[i].Some? && dens[i].Some?
    ensures forall i :: 0 <= i < Min(|nums|, |dens|) ==>
      ([nums[0].value * dens[0].value] + tail)[i] == nums[i].value * dens[i].value
  {
    forall i | 1 <= i < Min(|nums|, |dens|)
      ensures nums[i].Some? && dens[i].Some?
      ensures ([nums[0].value * dens[0].value] + tail)[i] == nums[i].value * dens[i].value
    {
      assert nums[1..][i - 1] == nums[i] && dens[1..][i - 1] == dens[i];
    }
  }

  /** The order of the two series does not matter to `get_product`. */
  lemma {:induction false} ProductCommutes(a: seq<Option<real>>, b: seq<Option<real>>)
    ensures ProductSeries(a, b) == ProductSeries(b, a)
  {
    var ab := ProductSeries(a, b);
    var ba := ProductSeries(b, a);
    assert Min(|a|, |b|) == Min(|b|, |a|);
    if ab.Success? {
      assert ba.Success?;
      assert forall i :: 0 <= i < |ab.value| ==> ab.value[i] == ba.value[i];
      assert ab.value == ba.value;
    } else {
      assert ba.Failure?;
    }
  }

  /** `get_product(d, numerator, denominator)`. */
  function Product(d: Dataset, numerator: string, denominator: string): (r: Result<seq<real>>)
    ensures numerator !in d ==> r == Failure(KeyError(numerator))
    ensures r.Success? <==> Metric(d, numerator).Success? && Metric(d, denominator).Success?
                            && ProductSeries(Metric(d, numerator).value, Metric(d, denominator).value).Success?
    ensures numerator in d && d[numerator].Values? && denominator !in d ==> r == Failure(KeyError(denominator))
    ensures r.Success? ==> r == ProductSeries(d[numerator].cells, d[denominator].cells)
  {
    var nums :- Metric(d, numerator);
    var dens :- Metric(d, denominator);
    ProductSeries(nums, dens)
  }

  /** Python truthiness of a cell: present and non-zero. */
  predicate IsTruthy(c: Option<real>) {
    c.Some? && c.value != 0.0
  }

  /** `[v for v in vals if v]`: the present, non-zero values in order. */
  function Truthy(vals: seq<Option<real>>): (r: seq<real>)
    ensures |r| <= |vals|
    ensures forall i :: 0 <= i < |r| ==> r[i] != 0.0
    ensures |r| == 0 <==> forall i :: 0 <= i < |vals| ==> !IsTruthy(vals[i])
  {
    if |vals| == 0 then
      []
    else
      var tail := vals[1..];
      assert forall i :: 1 <= i < |vals| ==> vals[i] == tail[i - 1];
      (if IsTruthy(vals[0]) then [vals[0].value] else []) + Truthy(tail)
  }

  /** The filter keeps exactly the present, non-zero values. */
  lemma {:induction false} TruthyMembers(vals: seq<Option<real>>)
    ensures forall x :: x in Truthy(vals) <==> Some(x) in vals && x != 0.0
  {
    if |vals| > 0 {
      var tail := vals[1..];
      TruthyStep(vals);
      TruthyMembers(tail);
      assert forall x :: Some(x) in vals <==> vals[0] == Some(x) || Some(x) in tail by {
        assert vals == [vals[0]] + tail;
      }
    }
  }

  lemma {:induction false} TruthyStep(vals: seq<Option<real>>)
    requires |vals| > 0
    ensures Truthy(vals) == (if IsTruthy(vals[0]) then [vals[0].value] else []) + Truthy(vals[1..])
  {
  }

  /** The first truthy value is that of the first truthy cell. */
  lemma {:induction false} TruthyFirst(vals: seq<Option<real>>)
    requires |Truthy(vals)| > 0
    ensures exists i :: 0 <= i < |vals| && vals[i] == Some(Truthy(vals)[0]) && forall j :: 0 <= j < i ==> !IsTruthy(vals[j])
  {
    TruthyStep(vals);
    var tail := vals[1..];
    if IsTruthy(vals[0]) {
      assert Truthy(vals)[0] == vals[0].value;
      assert vals[0] == Some(Truthy(vals)[0]);
    } else {
      assert Truthy(vals) == Truthy(tail);
      TruthyFirst(tail);
      var i :| 0 <= i < |tail| && tail[i] == Some(Truthy(tail)[0]) && forall j :: 0 <= j < i ==> !IsTruthy(tail[j]);
      assert vals[i + 1] == tail[i];
      assert forall j :: 1 <= j < i + 1 ==> vals[j] == tail[j - 1];
      assert vals[i + 1] == Some(Truthy(vals)[0]);
    }
  }

  /** The last truthy value is that of the last truthy cell. */
  lemma {:induction false} TruthyLast(vals: seq<Option<real>>)
    requires |Truthy(vals)| > 0
    ensures exists i :: 0 <= i < |vals| && vals[i] == Some(Truthy(vals)[|Truthy(vals)| - 1]) && forall j :: i < j < |vals| ==> !IsTruthy(vals[j])
  {
    var tail := vals[1..];
    var rest := Truthy(tail);
    TruthyStep(vals);
    assert forall j :: 1 <= j < |vals| ==> vals[j] == tail[j - 1];
    if |rest| > 0 {
      TruthyLast(tail);
      var i :| 0 <= i < |tail| && tail[i] == Some(rest[|rest| - 1]) && forall j :: i < j < |tail| ==> !IsTruthy(tail[j]);
      assert vals[i + 1] == Some(Truthy(vals)[|Truthy(vals)| - 1]);
    } else {
      assert forall j :: 0 < j < |vals| ==> !IsTruthy(vals[j]);
    }
  }

  /** What `get_growth_rate` hands to `exp`/`log`: the first and last remaining
      values and the divisor n of the log, which is the count of remaining values. */
  datatype Growth = Growth(first: real, last: real, periods: nat)

  /** `rate` compounds `first` into `last` over `periods` periods:
      `first * (1 + rate) ** periods == last`, with 1 + rate positive. This is
      the value `exp(log(last / first) / periods) - 1` denotes. */
  predicate IsCompoundRate(g: Growth, rate: real) {
    rate > -1.0 && g.first * Pow(1.0 + rate, g.periods) == g.last
  }

  /** `round(rate * 100, 1)`: the growth rate the function returns, in percent. */
  function GrowthPercent(rate: real): (r: real)
    ensures OnGrid(r, 1) && 2.0 * Abs(r - rate * 100.0) * 10.0 <= 1.0
  {
    Round(rate * 100.0, 1)
  }

  /** `get_growth_rate` as written: IndexError when no value is truthy, None
      (after printing a warning) when the first or last truthy value is not
      positive, otherwise the compounding problem with n = the number of truthy values. */
  function GrowthRate(vals: seq<Option<real>>): (r: Result<Option<Growth>>)
    ensures r.Failure? <==> forall i :: 0 <= i < |vals| ==> !IsTruthy(vals[i])
    ensures r.Failure? ==> r.error == IndexError
    ensures r == Success(None) <==> |Truthy(vals)| > 0 && (Truthy(vals)[0] <= 0.0 || Truthy(vals)[|Truthy(vals)| - 1] <= 0.0)
    ensures r.Success? && r.value.Some? ==>
      var g := r.value.value;
      g.first > 0.0 && g.last > 0.0 && g.periods == |Truthy(vals)| >= 1
      && g.first == Truthy(vals)[0] && g.last == Truthy(vals)[|Truthy(vals)| - 1]
  {
    var vs := Truthy(vals);
    if |vs| == 0 then
      Failure(IndexError)
    else if vs[0] <= 0.0 || vs[|vs| - 1] <= 0.0 then
      Success(None)
    else
      Success(Some(Growth(vs[0], vs[|vs| - 1], |vs|)))
  }

  /** Over at least one period, a positive start has at most one compound rate. */
  lemma {:induction false} CompoundRateUnique(g: Growth, a: real, b: real)
    requires g.first > 0.0 && g.periods >= 1
    requires IsCompoundRate(g, a) && IsCompoundRate(g, b)
    ensures a == b
  {
    if a < b {
      PowStrictlyIncreasing(1.0 + a, 1.0 + b, g.periods);
    } else if b < a {
      PowStrictlyIncreasing(1.0 + b, 1.0 + a, g.periods);
    }
  }

  lemma {:induction false} PowOne(n: nat)
    ensures Pow(1.0, n) == 1.0
  {
    if n > 0 {
      PowOne(n - 1);
    }
  }

  /** Equal endpoints mean zero growth, and zero is the only rate that fits. */
  lemma {:induction false} EqualEndpointsZeroGrowth(g: Growth, rate: real)
    requires g.first == g.last > 0.0 && g.periods >= 1
    ensures IsCompoundRate(g, rate) <==> rate == 0.0
  {
    PowOne(g.periods);
    assert IsCompoundRate(g, 0.0);
    if IsCompoundRate(g, rate) {
      CompoundRateUnique(g, rate, 0.0);
    }
  }

  /** A series whose first and last truthy values agree reports a growth of
      0.0 percent: the only rate that fits is zero, and it rounds to zero. */
  lemma {:induction false} FlatSeriesZeroPercent(vals: seq<Option<real>>, g: Growth, rate: real)
    requires GrowthRate(vals) == Success(Some(g)) && g.first == g.last
    requires IsCompoundRate(g, rate)
    ensures GrowthPercent(rate) == 0.0
  {
    EqualEndpointsZeroGrowth(g, rate);
    assert Scaled(0.0, 1) == 0.0;
    RoundOnGrid(0.0, 1);
  }

  /** `get_growth_rate` with the divisor it evidently intends: a series of n
      truthy values spans n - 1 periods, so n - 1 divides the log. A single
      value spans no period and has no rate. */
  function GrowthRateCorrected(vals: seq<Option<real>>): (r: Result<Option<Growth>>)
    ensures r.Failure? <==> forall i :: 0 <= i < |vals| ==> !IsTruthy(vals[i])
    ensures r.Failure? ==> r.error == IndexError
    ensures r.Success? && r.value.Some? ==>
      var g := r.value.value;
      g.first > 0.0 && g.last > 0.0 && g.periods + 1 == |Truthy(vals)|
      && g.first == Truthy(vals)[0] && g.last == Truthy(vals)[|Truthy(vals)| - 1]
  {
    var vs := Truthy(vals);
    if |vs| == 0 then
      Failure(IndexError)
    else if vs[0] <= 0.0 || vs[|vs| - 1] <= 0.0 || |vs| == 1 then
      Success(None)
    else
      Success(Some(Growth(vs[0], vs[|vs| - 1], |vs| - 1)))
  }

  /** A series that is all truthy passes the filter unchanged. */
  lemma {:induction false} TruthyAll(vals: seq<Option<real>>)
    requires forall i :: 0 <= i < |vals| ==> IsTruthy(vals[i])
    ensures |Truthy(vals)| == |vals|
    ensures forall i :: 0 <= i < |vals| ==> Truthy(vals)[i] == vals[i].value
  {
    if |vals| > 0 {
      var tail := vals[1..];
      TruthyStep(vals);
      TruthyAll(tail);
      assert forall i :: 1 <= i < |vals| ==> vals[i] == tail[i - 1];
    }
  }

  /** n values growing from a at a steady rate: a, a(1+rate), a(1+rate)^2, ... */
  function Geometric(a: real, rate: real, n: nat): (r: seq<Option<real>>)
    ensures |r| == n
    ensures forall i :: 0 <= i < n ==> r[i] == Some(Compounded(a, rate, i))
  {
    if n == 0 then [] else Geometric(a, rate, n - 1) + [Some(Compounded(a, rate, n - 1))]
  }

  /** `a * (1 + rate) ** i`. */
  function Compounded(a: real, rate: real, i: nat): real {
    a * Pow(1.0 + rate, i)
  }

  lemma {:induction false} CompoundedPositive(a: real, rate: real, i: nat)
    requires a > 0.0 && rate > -1.0
    ensures Compounded(a, rate, i) > 0.0
  {
    PowPositive(1.0 + rate, i);
  }

  lemma {:induction false} GeometricEnds(a: real, rate: real, n: nat)
    requires a > 0.0 && rate > -1.0 && n >= 1
    ensures |Truthy(Geometric(a, rate, n))| == n
    ensures Truthy(Geometric(a, rate, n))[0] == a
    ensures Truthy(Geometric(a, rate, n))[n - 1] == Compounded(a, rate, n - 1) > 0.0
  {
    var vals := Geometric(a, rate, n);
    forall i | 0 <= i < n
      ensures IsTruthy(vals[i])
    {
      CompoundedPositive(a, rate, i);
    }
    TruthyAll(vals);
    assert Compounded(a, rate, 0) == a;
    CompoundedPositive(a, rate, n - 1);
  }

  lemma {:induction false} CompoundedFits(a: real, rate: real, periods: nat)
    requires rate > -1.0
    ensures IsCompoundRate(Growth(a, Compounded(a, rate, periods), periods), rate)
  {
  }

  lemma {:induction false} GrowthOfGeometric(a: real, rate: real, n: nat)
    requires a > 0.0 && rate > -1.0 && n >= 2
    ensures GrowthRate(Geometric(a, rate, n)) == Success(Some(Growth(a, Compounded(a, rate, n - 1), n)))
    ensures GrowthRateCorrected(Geometric(a, rate, n)) == Success(Some(Growth(a, Compounded(a, rate, n - 1), n - 1)))
  {
    GeometricEnds(a, rate, n);
  }

  /** With the corrected divisor, a steadily growing series yields its own rate. */
  lemma {:induction false} CorrectedRecoversRate(a: real, rate: real, n: nat)
    requires a > 0.0 && rate > -1.0 && n >= 2
    ensures var r := GrowthRateCorrected(Geometric(a, rate, n));
      r.Success? && r.value.Some? && IsCompoundRate(r.value.value, rate)
  {
    GrowthOfGeometric(a, rate, n);
    CompoundedFits(a, rate, n - 1);
  }

  /** As written, the divisor counts values rather than periods, so the rate of
      a series growing steadily at a positive rate comes out strictly lower. */
  lemma {:induction false} AsWrittenUnderstatesRate(a: real, rate: real, n: nat, x: real)
    requires a > 0.0 && rate > 0.0 && n >= 2
    requires var r := GrowthRate(Geometric(a, rate, n)); r.Success? && r.value.Some? && IsCompoundRate(r.value.value, x)
    ensures x < rate
  {
    GrowthOfGeometric(a, rate, n);
    UnderstatedRate(a, rate, n, x);
  }

  lemma {:induction false} UnderstatedRate(a: real, rate: real, n: nat, x: real)
    requires a > 0.0 && rate > 0.0 && n >= 2
    requires IsCompoundRate(Growth(a, Compounded(a, rate, n - 1), n), x)
    ensures x < rate
  {
    assert a * Pow(1.0 + x, n) == a * Pow(1.0 + rate, n - 1);
    PowPositive(1.0 + rate, n - 1);
    assert Pow(1.0 + rate, n) == (1.0 + rate) * Pow(1.0 + rate, n - 1);
    if x >= rate {
      if x > rate {
        PowStrictlyIncreasing(1.0 + rate, 1.0 + x, n);
      }
      assert false;
    }
  }

  /** The series 100, 110, 121 grows 10% a period. As written, the divisor 3
      makes 10% not fit; the corrected divisor 2 makes it fit. */
  lemma {:induction false} GrowthDivisorExample()
    ensures GrowthRate([Some(100.0), Some(110.0), Some(121.0)]) == Success(Some(Growth(100.0, 121.0, 3)))
    ensures !IsCompoundRate(Growth(100.0, 121.0, 3), 0.1)
    ensures GrowthRateCorrected([Some(100.0), Some(110.0), Some(121.0)]) == Success(Some(Growth(100.0, 121.0, 2)))
    ensures IsCompoundRate(Growth(100.0, 121.0, 2), 0.1)
  {
    var vals := [Some(100.0), Some(110.0), Some(121.0)];
    TruthyAll(vals);
    assert Pow(1.1, 2) == 1.21 by {
      assert Pow(1.1, 1) == 1.1 * Pow(1.1, 0);
    }
    assert Pow(1.1, 3) == 1.331;
  }
}

=== FILE: table.dfy ===
/** The row logic of `get_data_dict` in scripts/common.py, over rows that the
    tab-separated reader has already split into cells. The first row holds the
    period headers; every later row is a metric name followed by its values,
    newest first, right-aligned to the headers. */
module Table {
  import opened Wrappers
  import opened Seqs
  import opened Text
  import opened Sanitize

  /** A value of the returned dict: the header list, or one metric's series. */
  datatype Column = Labels(names: seq<string>) | Values(cells: seq<Option<real>>)

  type Dataset = map<string, Column>

  /** The key under which the header list is stored. */
  const HeadersKey: string := "headers"

  /** `[h for h in header_line if h]`. */
  function NonEmptyCells(cells: seq<string>): (r: seq<string>)
    ensures |r| <= |cells|
    ensures forall i :: 0 <= i < |r| ==> r[i] != []
    ensures forall c :: c in r <==> c in cells && c != []
  {
    if |cells| == 0 then []
    else (if cells[0] == [] then [] else [cells[0]]) + NonEmptyCells(cells[1..])
  }

  /** The period headers, oldest first: the non-empty header cells, reversed. */
  function Headers(header: seq<string>): (r: seq<string>)
    ensures |r| == |NonEmptyCells(header)|
    ensures forall i :: 0 <= i < |r| ==> r[i] == NonEmptyCells(header)[|r| - 1 - i]
    ensures forall c :: c in r <==> c in header && c != []
  {
    var r := Reverse(NonEmptyCells(header));
    assert forall c :: c in r <==> c in NonEmptyCells(header) by {
      forall c | c in NonEmptyCells(header) ensures c in r {
        var i :| 0 <= i < |r| && NonEmptyCells(header)[i] == c;
        assert r[|r| - 1 - i] == c;
      }
    }
    r
  }

  /** Python's `row[-n:]`: the last n cells, the whole row when it is shorter,
      and also the whole row when n is 0 (`row[-0:]` is `row[0:]`). */
  function LastCells(row: seq<string>, n: nat): seq<string> {
    if n == 0 || |row| <= n then row else row[|row| - n..]
  }

  /** A metric row that was long enough: its stripped name and its cells, oldest first. */
  datatype Entry = Entry(metric: string, cells: seq<Option<real>>)

  /** One data row against n header columns: IndexError for an empty row
      (`row[0]`), nothing for a row shorter than n, otherwise the sanitised
      last n cells reversed, or the error `sanitize` raises on them. */
  function RowEntry(row: seq<string>, n: nat): (r: Result<Option<Entry>>)
    ensures r.Failure? <==> |row| == 0 || (|row| >= n && SanitizeRow(Reverse(LastCells(row, n)), n).Failure?)
    ensures r == Success(None) <==> 0 < |row| < n
    ensures r.Success? && r.value.Some? ==> r.value.value.metric == Strip(row[0])
    ensures r.Success? && r.value.Some? ==> SanitizedFrom(row, n, r.value.value.cells)
  {
    if |row| == 0 then
      Failure(IndexError)
    else
      var values := Reverse(LastCells(row, n));
      if |values| < n then
        Success(None)
      else
        var cells :- SanitizeRow(values, n);
        LastCellsSanitized(row, n, cells);
        Success(Some(Entry(Strip(row[0]), cells)))
  }

  /** cells are the last n cells of row, newest first, each sanitised. */
  predicate SanitizedFrom(row: seq<string>, n: nat, cells: seq<Option<real>>) {
    && |cells| == n && n <= |row|
    && forall i :: 0 <= i < n ==> SanitizeCell(row[|row| - 1 - i]) == Success(cells[i])
  }

  lemma {:induction false} LastCellsSanitized(row: seq<string>, n: nat, cells: seq<Option<real>>)
    requires n <= |row| && SanitizeRow(Reverse(LastCells(row, n)), n) == Success(cells)
    ensures SanitizedFrom(row, n, cells)
  {
    var values := Reverse(LastCells(row, n));
    if n > 0 {
      ReversedLast(row, n);
    }
    forall i | 0 <= i < n
      ensures SanitizeCell(row[|row| - 1 - i]) == Success(cells[i])
    {
      assert values[i] == row[|row| - 1 - i];
    }
  }

  /** Python's `row[-n:][::-1]` for n up to the row's length: the last n cells, newest first. */
  lemma {:induction false} ReversedLast(row: seq<string>, n: nat)
    requires 0 < n <= |row|
    ensures |Reverse(LastCells(row, n))| == n
    ensures forall i :: 0 <= i < n ==> Reverse(LastCells(row, n))[i] == row[|row| - 1 - i]
  {
    var last := LastCells(row, n);
    assert |last| == n;
    assert forall j :: 0 <= j < n ==> last[j] == row[|row| - n + j];
  }

  /** The outcome of a row stores a series under key k. */
  predicate Keyed(e: Result<Option<Entry>>, k: string) {
    e.Success? && e.value.Some? && e.value.value.metric == k
  }

  /** `d[metric] = ...` for a stored row; a skipped row leaves d alone. */
  function Store(d: Dataset, e: Option<Entry>): Dataset {
    match e
    case None => d
    case Some(entry) => d[entry.metric := Values(entry.cells)]
  }

  /** The loop over the data rows, given each row's outcome in order: the first
      failing row ends the loop with its error; every stored row overwrites its key. */
  function Load(d: Dataset, entries: seq<Result<Option<Entry>>>): (r: Result<Dataset>)
    ensures r.Success? <==> forall i :: 0 <= i < |entries| ==> entries[i].Success?
    ensures r.Failure? ==>
      exists i :: 0 <= i < |entries| && entries[i] == Failure(r.error)
               && forall j :: 0 <= j < i ==> entries[j].Success?
    decreases |entries|
  {
    if |entries| == 0 then
      Success(d)
    else
      var e :- entries[0];
      var tail := entries[1..];
      assert forall i :: 1 <= i < |entries| ==> entries[i] == tail[i - 1];
      Load(Store(d, e), tail)
  }

  lemma {:induction false} LoadStep(d: Dataset, entries: seq<Result<Option<Entry>>>)
    requires |entries| > 0 && entries[0].Success?
    ensures Load(d, entries) == Load(Store(d, entries[0].value), entries[1..])
  {
  }

  /** The keys after the loop: those present before and those of the stored rows. */
  lemma {:induction false} LoadKeys(d: Dataset, entries: seq<Result<Option<Entry>>>, k: string)
    requires Load(d, entries).Success?
    ensures k in Load(d, entries).value <==> k in d || exists i :: 0 <= i < |entries| && Keyed(entries[i], k)
    decreases |entries|
  {
    if |entries| > 0 {
      var tail := entries[1..];
      LoadStep(d, entries);
      LoadKeys(Store(d, entries[0].value), tail, k);
      if exists i :: 0 <= i < |tail| && Keyed(tail[i], k) {
        var i :| 0 <= i < |tail| && Keyed(tail[i], k);
        assert Keyed(entries[i + 1], k);
      }
      if exists i :: 0 <= i < |entries| && Keyed(entries[i], k) {
        var i :| 0 <= i < |entries| && Keyed(entries[i], k);
        if i > 0 {
          assert Keyed(tail[i - 1], k);
        }
      }
    }
  }

  /** A key no row stores keeps its value from before the loop. */
  lemma {:induction false} LoadUntouched(d: Dataset, entries: seq<Result<Option<Entry>>>, k: string)
    requires Load(d, entries).Success?
    requires k in d && forall i :: 0 <= i < |entries| ==> !Keyed(entries[i], k)
    ensures k in Load(d, entries).value && Load(d, entries).value[k] == d[k]
    decreases |entries|
  {
    if |entries| > 0 {
      var tail := entries[1..];
      LoadStep(d, entries);
      assert !Keyed(entries[0], k);
      assert forall i :: 0 <= i < |tail| ==> tail[i] == entries[i + 1];
      LoadUntouched(Store(d, entries[0].value), tail, k);
    }
  }

  /** The last row that stores a key decides its value: a later row with the
      same name overwrites an earlier one. */
  lemma {:induction false} LoadLatest(d: Dataset, entries: seq<Result<Option<Entry>>>, i: nat)
    requires Load(d, entries).Success?
    requires i < |entries| && entries[i].Success? && entries[i].value.Some?
    requires forall j :: i < j < |entries| ==> !Keyed(entries[j], entries[i].value.value.metric)
    ensures var entry := entries[i].value.value;
      entry.metric in Load(d, entries).value && Load(d, entries).value[entry.metric] == Values(entry.cells)
    decreases |entries|
  {
    var tail := entries[1..];
    LoadStep(d, entries);
    if i == 0 {
      var entry := entries[0].value.value;
      assert forall j :: 0 <= j < |tail| ==> !Keyed(tail[j], entry.metric) by {
        assert forall j :: 0 <= j < |tail| ==> tail[j] == entries[j + 1];
      }
      LoadUntouched(Store(d, entries[0].value), tail, entry.metric);
    } else {
      assert tail[i - 1] == entries[i];
      assert forall j :: i - 1 < j < |tail| ==> tail[j] == entries[j + 1];
      LoadLatest(Store(d, entries[0].value), tail, i - 1);
    }
  }

  /** Every value after the loop came from before it or from a stored row. */
  lemma {:induction false} LoadOrigin(d: Dataset, entries: seq<Result<Option<Entry>>>, k: string)
    requires Load(d, entries).Success? && k in Load(d, entries).value
    ensures || (k in d && Load(d, entries).value[k] == d[k])
            || exists i :: 0 <= i < |entries| && Keyed(entries[i], k)
                           && Load(d, entries).value[k] == Values(entries[i].value.value.cells)
    decreases |entries|
  {
    if |entries| > 0 {
      var tail := entries[1..];
      var d' := Store(d, entries[0].value);
      LoadStep(d, entries);
      LoadOrigin(d', tail, k);
      if k in d' && Load(d', tail).value[k] == d'[k] {
        if Keyed(entries[0], k) {
          assert d'[k] == Values(entries[0].value.value.cells);
        }
      } else {
        var i :| 0 <= i < |tail| && Keyed(tail[i], k) && Load(d', tail).value[k] == Values(tail[i].value.value.cells);
        assert tail[i] == entries[i + 1];
      }
    }
  }

  /** Each data row's outcome, in order. */
  function RowEntries(rows: seq<seq<string>>, n: nat): (r: seq<Result<Option<Entry>>>)
    ensures |r| == |rows|
    ensures forall i :: 0 <= i < |rows| ==> r[i] == RowEntry(rows[i], n)
  {
    if |rows| == 0 then [] else [RowEntry(rows[0], n)] + RowEntries(rows[1..], n)
  }

  /** `get_data_dict` over split rows: StopIteration when there is no header
      row (`next(reader)`), otherwise the header list under "headers" and one
      series per long-enough metric row. */
  function GetDataDict(rows: seq<seq<string>>): (r: Result<Dataset>)
    ensures |rows| == 0 ==> r == Failure(StopIteration)
  {
    if |rows| == 0 then
      Failure(StopIteration)
    else
      var headers := Headers(rows[0]);
      Load(map[HeadersKey := Labels(headers)], RowEntries(rows[1..], |headers|))
  }

  /** The number of header columns a table's rows are aligned to. */
  function Width(rows: seq<seq<string>>): nat
    requires |rows| > 0
  {
    |Headers(rows[0])|
  }

  /** Loading succeeds exactly when there is a header row and no data row
      raises: every data row is non-empty, and each long-enough one sanitises. */
  lemma {:induction false} DataDictSuccess(rows: seq<seq<string>>)
    ensures GetDataDict(rows).Success? <==>
      |rows| > 0 && forall i :: 1 <= i < |rows| ==> RowEntry(rows[i], Width(rows)).Success?
  {
    if |rows| > 0 {
      var entries := RowEntries(rows[1..], Width(rows));
      assert forall i :: 1 <= i < |rows| ==> entries[i - 1] == RowEntry(rows[i], Width(rows));
    }
  }

  /** The keys of the dict: "headers" and the stripped name of every stored row. */
  lemma {:induction false} DataDictKeys(rows: seq<seq<string>>, k: string)
    requires GetDataDict(rows).Success?
    ensures k in GetDataDict(rows).value <==>
      k == HeadersKey || exists i :: 1 <= i < |rows| && Keyed(RowEntry(rows[i], Width(rows)), k)
  {
    var entries := RowEntries(rows[1..], Width(rows));
    var d := map[HeadersKey := Labels(Headers(rows[0]))];
    LoadKeys(d, entries, k);
    if exists i :: 0 <= i < |entries| && Keyed(entries[i], k) {
      var i :| 0 <= i < |entries| && Keyed(entries[i], k);
      assert entries[i] == RowEntry(rows[i + 1], Width(rows));
    }
    if exists i :: 1 <= i < |rows| && Keyed(RowEntry(rows[i], Width(rows)), k) {
      var i :| 1 <= i < |rows| && Keyed(RowEntry(rows[i], Width(rows)), k);
      assert entries[i - 1] == RowEntry(rows[i], Width(rows));
    }
  }

  /** The header list stays under "headers" unless a metric row has that name. */
  lemma {:induction false} DataDictHeaders(rows: seq<seq<string>>)
    requires GetDataDict(rows).Success?
    requires forall i :: 1 <= i < |rows| ==> !Keyed(RowEntry(rows[i], Width(rows)), HeadersKey)
    ensures HeadersKey in GetDataDict(rows).value
    ensures GetDataDict(rows).value[HeadersKey] == Labels(Headers(rows[0]))
  {
    var entries := RowEntries(rows[1..], Width(rows));
    var d := map[HeadersKey := Labels(Headers(rows[0]))];
    assert forall i :: 0 <= i < |entries| ==> entries[i] == RowEntry(rows[i + 1], Width(rows));
    LoadUntouched(d, entries, HeadersKey);
  }

  /** Every stored series has one cell per header. */
  lemma {:induction false} DataDictWidth(rows: seq<seq<string>>, k: string)
    requires GetDataDict(rows).Success? && k in GetDataDict(rows).value
    requires GetDataDict(rows).value[k].Values?
    ensures |GetDataDict(rows).value[k].cells| == Width(rows)
  {
    var entries := RowEntries(rows[1..], Width(rows));
    var d := map[HeadersKey := Labels(Headers(rows[0]))];
    LoadOrigin(d, entries, k);
    if !(k in d && Load(d, entries).value[k] == d[k]) {
      var i :| 0 <= i < |entries| && Keyed(entries[i], k)
               && Load(d, entries).value[k] == Values(entries[i].value.value.cells);
      assert entries[i] == RowEntry(rows[i + 1], Width(rows));
    }
  }

  /** The series stored under a row's name, when no later row has the same
      name, is that row's last Width cells, sanitised and reversed to oldest first. */
  lemma {:induction false} DataDictLatest(rows: seq<seq<string>>, i: nat)
    requires GetDataDict(rows).Success?
    requires 1 <= i < |rows| && |rows[i]| >= Width(rows)
    requires forall j :: i < j < |rows| ==> !Keyed(RowEntry(rows[j], Width(rows)), Strip(rows[i][0]))
    ensures var row := rows[i];
      && Strip(row[0]) in GetDataDict(rows).value
      && var column := GetDataDict(rows).value[Strip(row[0])];
      && column.Values? && SanitizedFrom(row, Width(rows), column.cells)
  {
    var n := Width(rows);
    var entries := RowEntries(rows[1..], n);
    var d := map[HeadersKey := Labels(Headers(rows[0]))];
    DataDictSuccess(rows);
    assert entries[i - 1] == RowEntry(rows[i], n);
    assert forall j :: i - 1 < j < |entries| ==> entries[j] == RowEntry(rows[j + 1], n);
    LoadLatest(d, entries, i - 1);
  }

  /** Only the header list is stored as labels; every other key holds a series. */
  lemma {:induction false} DataDictColumns(rows: seq<seq<string>>, k: string)
    requires GetDataDict(rows).Success? && k in GetDataDict(rows).value && k != HeadersKey
    ensures GetDataDict(rows).value[k].Values?
  {
    var entries := RowEntries(rows[1..], Width(rows));
    var d := map[HeadersKey := Labels(Headers(rows[0]))];
    LoadOrigin(d, entries, k);
  }

  /** `d[key]` read as a series: KeyError for a missing key. The header list is
      not a series; reading it as one is reported as a TypeError. */
  function Metric(d: Dataset, key: string): (r: Result<seq<Option<real>>>)
    ensures r.Success? <==> key in d && d[key].Values?
    ensures r.Success? ==> r.value == d[key].cells
    ensures key !in d ==> r == Failure(KeyError(key))
  {
    if key !in d then Failure(KeyError(key))
    else match d[key]
      case Labels(_) => Failure(TypeError)
      case Values(cells) => Success(cells)
  }
}

=== FILE: text.dfy ===
/** Character-level string operations and Python's `float()` on strings. */
module Text {
  import opened Wrappers
  import opened Numbers

  /** Python's `str.isspace()` for one character. */
  predicate IsSpace(c: char) {
    || c == ' '
    || ('\t' <= c <= '\r')
    || ('\U{1C}' <= c <= '\U{1F}')
    || c == '\U{85}' || c == '\U{A0}' || c == '\U{1680}'
    || ('\U{2000}' <= c <= '\U{200A}')
    || c == '\U{2028}' || c == '\U{2029}' || c == '\U{202F}' || c == '\U{205F}' || c == '\U{3000}'
  }

  predicate IsDigit(c: char) {
    '0' <= c <= '9'
  }

  predicate AllDigits(s: string) {
    forall i :: 0 <= i < |s| ==> IsDigit(s[i])
  }

  predicate IsPoint(c: char) {
    c == '.'
  }

  predicate IsExponentMark(c: char) {
    c == 'e' || c == 'E'
  }

  predicate IsAscii(s: string) {
    forall i :: 0 <= i < |s| ==> (s[i] as int) < 128
  }

  /** `s` with its leading characters satisfying `drop` removed: Python's `lstrip`. */
  function TrimStart(s: string, drop: char -> bool): (r: string)
    ensures |r| <= |s|
  {
    if |s| > 0 && drop(s[0]) then TrimStart(s[1..], drop) else s
  }

  /** What `lstrip` keeps is a suffix that does not start with a dropped
      character, and every character before it is dropped. */
  lemma {:induction false} TrimStartSpec(s: string, drop: char -> bool)
    ensures var r := TrimStart(s, drop);
      && r == s[|s| - |r|..]
      && (|r| > 0 ==> !drop(r[0]))
      && forall i :: 0 <= i < |s| - |r| ==> drop(s[i])
  {
    if |s| > 0 && drop(s[0]) {
      TrimStartSpec(s[1..], drop);
      var r := TrimStart(s, drop);
      assert forall i :: 1 <= i < |s| - |r| ==> s[i] == s[1..][i - 1];
    }
  }

  /** `s` with its trailing characters satisfying `drop` removed: Python's `rstrip`. */
  function TrimEnd(s: string, drop: char -> bool): (r: string)
    ensures |r| <= |s|
  {
    if |s| > 0 && drop(s[|s| - 1]) then TrimEnd(s[..|s| - 1], drop) else s
  }

  /** What `rstrip` keeps is a prefix that does not end with a dropped
      character, and every character after it is dropped. */
  lemma {:induction false} TrimEndSpec(s: string, drop: char -> bool)
    ensures var r := TrimEnd(s, drop);
      && r == s[..|r|]
      && (|r| > 0 ==> !drop(r[|r| - 1]))
      && forall i :: |r| <= i < |s| ==> drop(s[i])
  {
    if |s| > 0 && drop(s[|s| - 1]) {
      TrimEndSpec(s[..|s| - 1], drop);
      var r := TrimEnd(s, drop);
      assert forall i :: |r| <= i < |s| - 1 ==> s[i] == s[..|s| - 1][i];
    }
  }

  /** Python's `str.strip()`. */
  function Strip(s: string): string {
    TrimEnd(TrimStart(s, IsSpace), IsSpace)
  }

  /** The whitespace `float()` strips from its argument. Non-ASCII Python
      whitespace is first turned into a space and so stripped, but of the
      ASCII characters only space, tab, newline, vertical tab, form feed and
      carriage return are: the separators U+001C-U+001F, which `str.strip()`
      removes, stay and make the text unreadable. */
  predicate IsFloatSpace(c: char) {
    IsSpace(c) && !('\U{1C}' <= c <= '\U{1F}')
  }

  /** `s` without the leading and trailing whitespace `float()` ignores. */
  function FloatStrip(s: string): string {
    TrimEnd(TrimStart(s, IsFloatSpace), IsFloatSpace)
  }

  /** Every occurrence of `c` removed: Python's `s.replace(c, '')`. */
  function Without(s: string, c: char): (r: string)
    ensures |r| <= |s|
    ensures forall i :: 0 <= i < |r| ==> r[i] != c
  {
    if |s| == 0 then [] else (if s[0] == c then [] else [s[0]]) + Without(s[1..], c)
  }

  /** Characters with code 128 or above removed. */
  function AsciiOnly(s: string): (r: string)
    ensures IsAscii(r)
    ensures |r| <= |s|
  {
    if |s| == 0 then [] else (if (s[0] as int) < 128 then [s[0]] else []) + AsciiOnly(s[1..])
  }

  /** Index of the first character satisfying `p`, or |s| when there is none. */
  function IndexWhere(s: string, p: char -> bool): (i: nat)
    ensures i <= |s|
    ensures i < |s| ==> p(s[i])
    ensures forall j :: 0 <= j < i ==> !p(s[j])
  {
    if |s| == 0 then 0 else if p(s[0]) then 0 else 1 + IndexWhere(s[1..], p)
  }

  function DigitValue(c: char): nat
    requires IsDigit(c)
  {
    (c as int) - ('0' as int)
  }

  function DigitChar(d: nat): (c: char)
    requires d < 10
    ensures IsDigit(c) && DigitValue(c) == d
  {
    (('0' as int) + d) as char
  }

  /** The natural number a run of decimal digits denotes (0 for the empty run). */
  function DigitsValue(s: string): nat
    requires AllDigits(s)
  {
    if |s| == 0 then 0 else DigitsValue(s[..|s| - 1]) * 10 + DigitValue(s[|s| - 1])
  }

  function ScaleByPowerOfTen(m: real, e: int): real {
    if e >= 0 then m * Pow10(e) as real else m / Pow10(-e) as real
  }

  /** `123`, `1.5`, `1.` or `.5`: digits with at most one point and at least one digit. */
  function ParseMantissa(m: string): (r: Option<real>)
    ensures r.Some? ==> exists i :: 0 <= i < |m| && IsDigit(m[i])
  {
    var p := IndexWhere(m, IsPoint);
    var whole := m[..p];
    var fraction := if p < |m| then m[p + 1..] else [];
    if |whole| + |fraction| > 0 && AllDigits(whole) && AllDigits(fraction) then
      assert |whole| > 0 ==> IsDigit(m[0]);
      assert |whole| == 0 ==> IsDigit(m[p + 1]);
      Some(DigitsValue(whole) as real + DigitsValue(fraction) as real / Pow10(|fraction|) as real)
    else
      None
  }

  /** The exponent after `e`: an optional sign and at least one digit. */
  function ParseExponent(x: string): Option<int> {
    var signed := |x| > 0 && (x[0] == '+' || x[0] == '-');
    var digits := if signed then x[1..] else x;
    if |digits| > 0 && AllDigits(digits) then
      var magnitude: int := DigitsValue(digits);
      Some(if signed && x[0] == '-' then -magnitude else magnitude)
    else
      None
  }

  /** A decimal literal without sign, with an optional exponent. */
  function ParseUnsigned(t: string): (r: Option<real>)
    ensures r.Some? ==> exists i :: 0 <= i < |t| && IsDigit(t[i])
  {
    var e := IndexWhere(t, IsExponentMark);
    var mantissa := ParseMantissa(t[..e]);
    var exponent := if e == |t| then Some(0) else ParseExponent(t[e + 1..]);
    if mantissa.None? || exponent.None? then None
    else
      assert forall i :: 0 <= i < e ==> t[..e][i] == t[i];
      Some(ScaleByPowerOfTen(mantissa.value, exponent.value))
  }

  /** A decimal literal with an optional sign. */
  function ParseSigned(t: string): (r: Option<real>)
    ensures r.Some? ==> exists i :: 0 <= i < |t| && IsDigit(t[i])
  {
    if |t| > 0 && (t[0] == '+' || t[0] == '-') then
      var u := ParseUnsigned(t[1..]);
      TailDigit(t);
      if u.None? then None
      else Some(if t[0] == '-' then -u.value else u.value)
    else
      ParseUnsigned(t)
  }

  /** A digit after the first character is a digit of the text. */
  lemma {:induction false} TailDigit(t: string)
    requires |t| > 0
    ensures (exists i :: 0 <= i < |t[1..]| && IsDigit(t[1..][i])) ==> exists i :: 0 <= i < |t| && IsDigit(t[i])
  {
    if exists i :: 0 <= i < |t[1..]| && IsDigit(t[1..][i]) {
      var i :| 0 <= i < |t[1..]| && IsDigit(t[1..][i]);
      assert t[i + 1] == t[1..][i];
    }
  }

  /** Python's `float(s)` on a string, for decimal literals: surrounding
      whitespace (`FloatStrip`) is ignored, then an optional sign, then the literal. */
  function ParseFloat(s: string): (r: Option<real>)
    ensures FloatStrip(s) == [] ==> r.None?
    ensures r.Some? ==> exists i :: 0 <= i < |s| && IsDigit(s[i])
  {
    var t := FloatStrip(s);
    StripDigit(s);
    ParseSigned(t)
  }

  /** Text that starts with one of the separators U+001C-U+001F does not
      parse: `str.strip()` counts the separator as whitespace, `float()` does not. */
  lemma {:induction false} SeparatorRejected(c: char, s: string)
    requires '\U{1C}' <= c <= '\U{1F}'
    ensures IsSpace(c) && !IsFloatSpace(c)
    ensures ParseFloat([c] + s) == None
  {
    var u := [c] + s;
    assert TrimStart(u, IsFloatSpace) == u;
    TrimEndSpec(u, IsFloatSpace);
    var t := FloatStrip(u);
    assert |t| > 0 && t[0] == c;
    UnsignedBadFirst(t);
  }

  /** A literal whose first character is neither a digit, a point nor an
      exponent mark does not parse. */
  lemma {:induction false} UnsignedBadFirst(t: string)
    requires |t| > 0 && !IsDigit(t[0]) && !IsPoint(t[0]) && !IsExponentMark(t[0])
    ensures ParseUnsigned(t) == None
  {
    var e := IndexWhere(t, IsExponentMark);
    assert e > 0;
    var m := t[..e];
    assert m[0] == t[0];
    var p := IndexWhere(m, IsPoint);
    assert p > 0;
    assert m[..p][0] == t[0];
  }

  /** A digit of the stripped text is a digit of the text. */
  lemma {:induction false} StripDigit(s: string)
    ensures (exists i :: 0 <= i < |FloatStrip(s)| && IsDigit(FloatStrip(s)[i])) ==> exists i :: 0 <= i < |s| && IsDigit(s[i])
  {
    if exists i :: 0 <= i < |FloatStrip(s)| && IsDigit(FloatStrip(s)[i]) {
      StripIsInfix(s);
      DigitInInfix(s, FloatStrip(s), |s| - |TrimStart(s, IsFloatSpace)|);
    }
  }

  lemma {:induction false} StripIsInfix(s: string)
    ensures var k := |s| - |TrimStart(s, IsFloatSpace)|;
      k + |FloatStrip(s)| <= |s| && FloatStrip(s) == s[k..k + |FloatStrip(s)|]
  {
    TrimStartSpec(s, IsFloatSpace);
    TrimEndSpec(TrimStart(s, IsFloatSpace), IsFloatSpace);
  }

  lemma {:induction false} DigitInInfix(s: string, t: string, k: nat)
    requires k + |t| <= |s| && t == s[k..k + |t|]
    requires exists i :: 0 <= i < |t| && IsDigit(t[i])
    ensures exists i :: 0 <= i < |s| && IsDigit(s[i])
  {
    var i :| 0 <= i < |t| && IsDigit(t[i]);
    assert s[k + i] == t[i];
  }

  /** `float(s)` with its exception: text it cannot parse raises ValueError. */
  function ToFloat(s: string): (r: Result<real>)
    ensures r.Success? <==> ParseFloat(s).Some?
    ensures r.Success? ==> r.value == ParseFloat(s).value
    ensures r.Failure? ==> r.error == ValueError(s)
  {
    match ParseFloat(s)
    case None => Failure(ValueError(s))
    case Some(v) => Success(v)
  }

  /** Python's `str(n)` for a natural number. */
  function NatToString(n: nat): (r: string)
    ensures |r| > 0 && AllDigits(r) && IsAscii(r)
  {
    if n < 10 then [DigitChar(n)] else NatToString(n / 10) + [DigitChar(n % 10)]
  }

  /** The digits `str(n)` writes denote n. */
  lemma {:induction false} NatToStringValue(n: nat)
    ensures DigitsValue(NatToString(n)) == n
  {
    if n >= 10 {
      NatToStringValue(n / 10);
      var r := NatToString(n);
      assert r[..|r| - 1] == NatToString(n / 10);
    }
  }

  /** Python's `str(i)` for an integer. */
  function IntToString(i: int): (r: string)
    ensures |r| > 0 && IsAscii(r) && IsDigit(r[|r| - 1])
    ensures r[0] == '-' || IsDigit(r[0])
    ensures forall k :: 0 < k < |r| ==> IsDigit(r[k])
  {
    if i < 0 then "-" + NatToString(-i) else NatToString(i)
  }

  lemma {:induction false} IndexWhereAbsent(s: string, p: char -> bool)
    requires forall i :: 0 <= i < |s| ==> !p(s[i])
    ensures IndexWhere(s, p) == |s|
  {
  }

  lemma {:induction false} StripDigits(s: string)
    requires |s| > 0 && IsDigit(s[0]) && IsDigit(s[|s| - 1])
    ensures FloatStrip(s) == s
  {
  }

  /** A run of digits is read as the number it denotes. */
  lemma {:induction false} ParseUnsignedDigits(s: string)
    requires |s| > 0 && AllDigits(s)
    ensures ParseUnsigned(s) == Some(DigitsValue(s) as real)
  {
    IndexWhereAbsent(s, IsExponentMark);
    assert s[..|s|] == s;
    IndexWhereAbsent(s, IsPoint);
    var v := DigitsValue(s) as real;
    assert ParseMantissa(s) == Some(v);
    assert Pow10(0) == 1;
    assert ScaleByPowerOfTen(v, 0) == v;
  }

  /** `float(str(i))` gives back i. */
  lemma {:induction false} ParseIntString(i: int)
    ensures ParseFloat(IntToString(i)) == Some(i as real)
  {
    if i < 0 {
      ParseNegativeString(i, -i, i as real);
    } else {
      ParseNatInt(i);
      assert IntToString(i) == NatToString(i);
    }
  }

  /** `float(str(i))` for a negative i: a minus sign before the digits of -i. */
  lemma {:induction false} ParseNegativeString(i: int, n: nat, w: real)
    requires i < 0 && n == -i && w == i as real
    ensures ParseFloat(IntToString(i)) == Some(w)
  {
    var t := IntToString(i);
    var digits := NatToString(n);
    assert t == "-" + digits;
    NatDigits(n);
    ParseNegated(t, digits, n as real, w);
  }

  /** The digits of n read as n, and a minus sign before them is not stripped. */
  lemma {:induction false} NatDigits(n: nat)
    ensures ParseUnsigned(NatToString(n)) == Some(n as real)
    ensures FloatStrip("-" + NatToString(n)) == "-" + NatToString(n)
  {
    NatToStringValue(n);
    ParseUnsignedDigits(NatToString(n));
    StripSign(NatToString(n));
  }

  lemma {:induction false} ParseNatInt(n: nat)
    ensures ParseFloat(NatToString(n)) == Some(n as real)
  {
    NatToStringValue(n);
    ParseDigits(NatToString(n));
  }

  lemma {:induction false} ParseDigits(s: string)
    requires |s| > 0 && AllDigits(s)
    ensures ParseFloat(s) == Some(DigitsValue(s) as real)
  {
    StripDigits(s);
    assert !(s[0] == '+' || s[0] == '-');
    ParseUnsignedDigits(s);
  }

  /** Digits, a point and digits (`1234.56`) read as the whole part plus the
      fraction over the matching power of ten. */
  lemma {:induction false} ParseDecimalPoint(w: string, f: string, x: real)
    requires |w| > 0 && AllDigits(w) && |f| > 0 && AllDigits(f)
    requires x == DigitsValue(w) as real + DigitsValue(f) as real / Pow10(|f|) as real
    ensures ParseFloat(w + "." + f) == Some(x)
  {
    var s := w + "." + f;
    assert IsDigit(s[0]) && IsDigit(s[|s| - 1]);
    StripDigits(s);
    assert !(s[0] == '+' || s[0] == '-');
    UnsignedPoint(w, f, x);
  }

  lemma {:induction false} UnsignedPoint(w: string, f: string, x: real)
    requires |w| > 0 && AllDigits(w) && |f| > 0 && AllDigits(f)
    requires x == DigitsValue(w) as real + DigitsValue(f) as real / Pow10(|f|) as real
    ensures ParseUnsigned(w + "." + f) == Some(x)
  {
    var s := w + "." + f;
    PointAt(w, f);
    assert s[..|s|] == s;
    MantissaPoint(w, f, x);
    assert Pow10(0) == 1;
  }

  lemma {:induction false} MantissaPoint(w: string, f: string, x: real)
    requires |w| > 0 && AllDigits(w) && |f| > 0 && AllDigits(f)
    requires x == DigitsValue(w) as real + DigitsValue(f) as real / Pow10(|f|) as real
    ensures ParseMantissa(w + "." + f) == Some(x)
  {
    var s := w + "." + f;
    PointAt(w, f);
    assert s[..|w|] == w;
    assert s[|w| + 1..] == f;
  }

  /** In digits, a point and digits, the point is the first point and there is no exponent mark. */
  lemma {:induction false} PointAt(w: string, f: string)
    requires AllDigits(w) && AllDigits(f)
    ensures IndexWhere(w + "." + f, IsPoint) == |w|
    ensures IndexWhere(w + "." + f, IsExponentMark) == |w + "." + f|
  {
    var s := w + "." + f;
    assert forall i :: 0 <= i < |s| ==> IsDigit(s[i]) || s[i] == '.';
    IndexWhereAbsent(s, IsExponentMark);
    assert IsPoint(s[|w|]);
    assert forall j :: 0 <= j < |w| ==> !IsPoint(s[j]);
  }

  /** A stripped text that is a minus sign before an unsigned literal parses as its negation. */
  lemma {:induction false} ParseNegated(t: string, digits: string, v: real, w: real)
    requires t == "-" + digits && FloatStrip(t) == t && ParseUnsigned(digits) == Some(v) && w == -v
    ensures ParseFloat(t) == Some(w)
  {
    assert t[1..] == digits;
    ParseMinus(t, v, w);
    ParseStripped(t);
  }

  lemma {:induction false} ParseStripped(s: string)
    requires FloatStrip(s) == s
    ensures ParseFloat(s) == ParseSigned(s)
  {
  }

  lemma {:induction false} ParseMinus(t: string, v: real, w: real)
    requires |t| > 0 && t[0] == '-' && ParseUnsigned(t[1..]) == Some(v) && w == -v
    ensures ParseSigned(t) == Some(w)
  {
  }

  lemma {:induction false} StripSign(digits: string)
    requires |digits| > 0 && AllDigits(digits)
    ensures FloatStrip("-" + digits) == "-" + digits
  {
    var t := "-" + digits;
    assert !IsFloatSpace(t[0]) && !IsFloatSpace(t[|t| - 1]);
  }

  /** Value of two digit runs written one after the other. */
  lemma {:induction false} DigitsValueAppend(a: string, b: string)
    requires AllDigits(a) && AllDigits(b)
    ensures AllDigits(a + b)
    ensures DigitsValue(a + b) == DigitsValue(a) * Pow10(|b|) + DigitsValue(b)
  {
    if |b| > 0 {
      var b' := b[..|b| - 1];
      var ab := a + b;
      assert ab[..|ab| - 1] == a + b';
      assert ab[|ab| - 1] == b[|b| - 1];
      DigitsValueAppend(a, b');
      var d := DigitValue(b[|b| - 1]);
      assert DigitsValue(ab) == DigitsValue(a + b') * 10 + d;
      assert DigitsValue(b) == DigitsValue(b') * 10 + d;
      assert Pow10(|b|) == Pow10(|b'|) * 10;
      ShiftDigit(DigitsValue(a), Pow10(|b'|), DigitsValue(b'), d);
    } else {
      assert a + b == a;
    }
  }

  /** (x * p + y) * 10 + d == x * (p * 10) + (y * 10 + d). */
  lemma {:induction false} ShiftDigit(x: int, p: int, y: int, d: int)
    ensures (x * p + y) * 10 + d == x * (p * 10) + (y * 10 + d)
  {
  }

  lemma {:induction false} WithoutAppend(a: string, b: string, c: char)
    ensures Without(a + b, c) == Without(a, c) + Without(b, c)
  {
    if |a| > 0 {
      assert (a + b)[1..] == a[1..] + b;
      WithoutAppend(a[1..], b, c);
    } else {
      assert a + b == b;
    }
  }

  lemma {:induction false} WithoutAbsent(s: string, c: char)
    requires forall i :: 0 <= i < |s| ==> s[i] != c
    ensures Without(s, c) == s
  {
    if |s| > 0 {
      WithoutAbsent(s[1..], c);
    }
  }

  lemma {:induction false} AsciiOnlyKeepsAscii(s: string)
    requires IsAscii(s)
    ensures AsciiOnly(s) == s
  {
    if |s| > 0 {
      AsciiOnlyKeepsAscii(s[1..]);
    }
  }

  lemma {:induction false} AsciiOnlyIdempotent(s: string)
    ensures AsciiOnly(AsciiOnly(s)) == AsciiOnly(s)
  {
    AsciiOnlyKeepsAscii(AsciiOnly(s));
  }

  /** Dropping one leading character that `drop` accepts, before one it does not. */
  lemma {:induction false} TrimStartOne(c: char, s: string, drop: char -> bool)
    requires drop(c) && |s| > 0 && !drop(s[0])
    ensures TrimStart([c] + s, drop) == s
  {
    assert ([c] + s)[1..] == s;
  }

  /** Dropping one trailing character that `drop` accepts, after one it does not. */
  lemma {:induction false} TrimEndOne(s: string, c: char, drop: char -> bool)
    requires drop(c) && |s| > 0 && !drop(s[|s| - 1])
    ensures TrimEnd(s + [c], drop) == s
  {
    assert (s + [c])[..|s|] == s;
  }

  /** `replace(c, '')` keeps only characters of the original. */
  lemma {:induction false} WithoutSubset(s: string, c: char)
    ensures forall x :: x in Without(s, c) ==> x in s
  {
    if |s| > 0 {
      WithoutSubset(s[1..], c);
      assert Without(s, c) == (if s[0] == c then [] else [s[0]]) + Without(s[1..], c);
    }
  }

  /** A text made only of `c` is empty once `c` is removed. */
  lemma {:induction false} WithoutAll(s: string, c: char)
    requires forall i :: 0 <= i < |s| ==> s[i] == c
    ensures Without(s, c) == []
  {
    if |s| > 0 {
      WithoutAll(s[1..], c);
    }
  }

  /** Dropping non-ASCII characters keeps only characters of the original. */
  lemma {:induction false} AsciiOnlySubset(s: string)
    ensures forall x :: x in AsciiOnly(s) ==> x in s
  {
    if |s| > 0 {
      AsciiOnlySubset(s[1..]);
      assert AsciiOnly(s) == (if (s[0] as int) < 128 then [s[0]] else []) + AsciiOnly(s[1..]);
    }
  }

  /** The characters `lstrip` and `rstrip` keep come from the original. */
  lemma {:induction false} TrimSubset(s: string, drop: char -> bool)
    ensures forall x :: x in TrimStart(s, drop) ==> x in s
    ensures forall x :: x in TrimEnd(s, drop) ==> x in s
  {
    TrimStartSpec(s, drop);
    TrimEndSpec(s, drop);
  }
}

=== FILE: valuation.dfy ===
/** scripts/intrinsic_value.py: a discounted-cash-flow valuation of one ticker.
    The inputs are one row of the estimates file (read as a dict from column
    name to text) and the ticker's data table; the output is the intrinsic
    value per share, the margin-of-safety price and the buy verdict. */
module Valuation {
  import opened Wrappers
  import opened Numbers
  import opened Text
  import opened Table
  import opened Series
  import opened Friendly
  import opened Floats

  /** A row of the estimates file, as `csv.DictReader` yields it. */
  type Record = map<string, string>

  const TickerColumn: string := "ticker"

  function NotFound(ticker: string): Error {
    ValueError("Estimate for " + ticker + " not found in estimates file!")
  }

  /** The loop over the estimate rows: the first row whose ticker is exactly
      the requested one. A row without a ticker column raises KeyError, and
      running out of rows raises ValueError. */
  function FindEstimate(records: seq<Record>, ticker: string): (r: Result<Record>)
    ensures r.Success? ==>
      exists i :: 0 <= i < |records| && records[i] == r.value
        && TickerColumn in records[i] && records[i][TickerColumn] == ticker
        && forall j :: 0 <= j < i ==> TickerColumn in records[j] && records[j][TickerColumn] != ticker
    ensures r == Failure(NotFound(ticker)) <==>
      forall i :: 0 <= i < |records| ==> TickerColumn in records[i] && records[i][TickerColumn] != ticker
    ensures r.Failure? ==> r.error == NotFound(ticker) || r.error == KeyError(TickerColumn)
  {
    if |records| == 0 then
      Failure(NotFound(ticker))
    else if TickerColumn !in records[0] then
      Failure(KeyError(TickerColumn))
    else if records[0][TickerColumn] == ticker then
      Success(records[0])
    else
      var r := FindEstimate(records[1..], ticker);
      assert forall i :: 1 <= i < |records| ==> records[1..][i - 1] == records[i];
      r
  }

  /** `row[key]`. */
  function Field(rec: Record, key: string): (r: Result<string>)
    ensures r.Success? <==> key in rec
    ensures r.Success? ==> r.value == rec[key]
    ensures r.Failure? ==> r.error == KeyError(key)
  {
    if key in rec then Success(rec[key]) else Failure(KeyError(key))
  }

  /** `float(row[key])`. */
  function NumberField(rec: Record, key: string): (r: Result<real>)
    ensures r.Success? <==> key in rec && ParseFloat(rec[key]).Some?
    ensures r.Success? ==> r.value == ParseFloat(rec[key]).value
    ensures key !in rec ==> r == Failure(KeyError(key))
    ensures key in rec && ParseFloat(rec[key]).None? ==> r == Failure(ValueError(rec[key]))
  {
    var text :- Field(rec, key);
    ToFloat(text)
  }

  /** `float(row[key]) / 100`: a percentage column read as a fraction. */
  function FractionField(rec: Record, key: string): (r: Result<real>)
    ensures r.Success? <==> NumberField(rec, key).Success?
    ensures r.Success? ==> r.value * 100.0 == NumberField(rec, key).value
    ensures r.Failure? ==> r.error == NumberField(rec, key).error
  {
    var x :- NumberField(rec, key);
    Success(x / 100.0)
  }

  /** The estimates, percentages already turned into fractions. */
  datatype Assumptions = Assumptions(
    price: real, discount: real, growth1: real, growth2: real, perpetuity: real, mos: real)

  const PriceKey: string := "current_stock_price"
  const DiscountKey: string := "discount_rate_pct"
  const Growth1Key: string := "growth_rate1_pct"
  const Growth2Key: string := "growth_rate2_pct"
  const PerpetuityKey: string := "perpetuity_growth_rate_pct"
  const MosKey: string := "mos_factor_pct"

  /** Lines 35-40: the six numbers of the estimate row, read in this order;
      the first missing column or unreadable number is the error. */
  function ReadAssumptions(rec: Record): (r: Result<Assumptions>)
    ensures r.Success? <==>
      && NumberField(rec, PriceKey).Success? && NumberField(rec, DiscountKey).Success?
      && NumberField(rec, Growth1Key).Success? && NumberField(rec, Growth2Key).Success?
      && NumberField(rec, PerpetuityKey).Success? && NumberField(rec, MosKey).Success?
    ensures r.Success? ==>
      && r.value.price == NumberField(rec, PriceKey).value
      && r.value.discount * 100.0 == NumberField(rec, DiscountKey).value
      && r.value.growth1 * 100.0 == NumberField(rec, Growth1Key).value
      && r.value.growth2 * 100.0 == NumberField(rec, Growth2Key).value
      && r.value.perpetuity * 100.0 == NumberField(rec, PerpetuityKey).value
      && r.value.mos * 100.0 == NumberField(rec, MosKey).value
    ensures NumberField(rec, PriceKey).Failure? ==> r == Failure(NumberField(rec, PriceKey).error)
    ensures NumberField(rec, PriceKey).Success? && NumberField(rec, DiscountKey).Failure? ==>
      r == Failure(NumberField(rec, DiscountKey).error)
    ensures NumberField(rec, PriceKey).Success? && NumberField(rec, DiscountKey).Success?
            && NumberField(rec, Growth1Key).Failure? ==>
      r == Failure(NumberField(rec, Growth1Key).error)
    ensures NumberField(rec, PriceKey).Success? && NumberField(rec, DiscountKey).Success?
            && NumberField(rec, Growth1Key).Success? && NumberField(rec, Growth2Key).Failure? ==>
      r == Failure(NumberField(rec, Growth2Key).error)
    ensures NumberField(rec, PriceKey).Success? && NumberField(rec, DiscountKey).Success?
            && NumberField(rec, Growth1Key).Success? && NumberField(rec, Growth2Key).Success?
            && NumberField(rec, PerpetuityKey).Failure? ==>
      r == Failure(NumberField(rec, PerpetuityKey).error)
    ensures NumberField(rec, PriceKey).Success? && NumberField(rec, DiscountKey).Success?
            && NumberField(rec, Growth1Key).Success? && NumberField(rec, Growth2Key).Success?
            && NumberField(rec, PerpetuityKey).Success? && NumberField(rec, MosKey).Failure? ==>
      r == Failure(NumberField(rec, MosKey).error)
  {
    var price :- NumberField(rec, PriceKey);
    var discount :- FractionField(rec, DiscountKey);
    var growth1 :- FractionField(rec, Growth1Key);
    var growth2 :- FractionField(rec, Growth2Key);
    var perpetuity :- FractionField(rec, PerpetuityKey);
    var mos :- FractionField(rec, MosKey);
    Success(Assumptions(price, discount, growth1, growth2, perpetuity, mos))
  }

  const Diluted: string := "Weighted Average Shs Out (Dil.)"
  const Basic: string := "Weighted Average Shs Out"

  /** The diluted share count is used when its series is non-empty and its latest value is truthy. */
  predicate DilutedUsable(d: Dataset) {
    Diluted in d && d[Diluted].Values? && |d[Diluted].cells| > 0
    && IsTruthy(d[Diluted].cells[|d[Diluted].cells| - 1])
  }

  /** Lines 49-53: the latest diluted share count, else the latest basic one,
      which raises KeyError when missing, IndexError when empty and TypeError
      (`float(None)`) when its latest value is missing. */
  function SharesOut(d: Dataset): (r: Result<real>)
    ensures DilutedUsable(d) ==> r == Success(d[Diluted].cells[|d[Diluted].cells| - 1].value)
    ensures !DilutedUsable(d) ==>
      (r.Success? <==> Metric(d, Basic).Success? && |d[Basic].cells| > 0 && d[Basic].cells[|d[Basic].cells| - 1].Some?)
    ensures !DilutedUsable(d) && r.Success? ==> r.value == d[Basic].cells[|d[Basic].cells| - 1].value
    ensures !DilutedUsable(d) && Basic !in d ==> r == Failure(KeyError(Basic))
    ensures !DilutedUsable(d) && Metric(d, Basic).Success? && |d[Basic].cells| == 0 ==> r == Failure(IndexError)
    ensures && !DilutedUsable(d) && Metric(d, Basic).Success? && |d[Basic].cells| > 0
            && d[Basic].cells[|d[Basic].cells| - 1].None?
            ==> r == Failure(TypeError)
  {
    if DilutedUsable(d) then
      var cells := d[Diluted].cells;
      Success(cells[|cells| - 1].value)
    else
      var cells :- Metric(d, Basic);
      if |cells| == 0 then Failure(IndexError)
      else if cells[|cells| - 1].None? then Failure(TypeError)
      else Success(cells[|cells| - 1].value)
  }

  /** A usable diluted count decides alone: the basic series, whatever it
      holds or whether it exists, is never read. */
  lemma {:induction false} DilutedIgnoresBasic(d: Dataset, basic: Column)
    requires DilutedUsable(d)
    ensures DilutedUsable(d[Basic := basic])
    ensures SharesOut(d[Basic := basic]) == SharesOut(d)
  {
  }

  /** Without a usable diluted count, the diluted series does not matter: any
      other unusable diluted series gives the same result. */
  lemma {:induction false} UnusableDilutedIgnored(d: Dataset, diluted: Column)
    requires !DilutedUsable(d)
    requires !DilutedUsable(d[Diluted := diluted])
    ensures SharesOut(d[Diluted := diluted]) == SharesOut(d)
  {
  }

  /** Next year's cash flow as the script holds it: a Python float parsed from
      the estimates file, or the `numpy.float64` that `np.mean` produces, which
      is NaN for an empty list. */
  datatype Cashflow = FromFile(value: real) | Historical(flow: Float)

  /** `np.mean(xs)` of a non-empty list. */
  function Mean(xs: seq<real>): (m: real)
    requires |xs| > 0
    ensures m * |xs| as real == Sum(xs)
  {
    Sum(xs) / |xs| as real
  }

  /** The file's next-year FCF is consulted when the column is present and non-empty. */
  predicate HasOverride(rec: Record) {
    "next_year_FCF" in rec && rec["next_year_FCF"] != ""
  }

  /** Lines 42-57: next year's free cash flow. `parsed` is what the number
      parser made of the file's `next_year_FCF` text. A truthy file value wins;
      otherwise the mean of the truthy FCF-per-share values times the share
      count, which is NaN when there are none. */
  function NextYearFcf(rec: Record, parsed: Option<real>, d: Dataset, shares: real): (r: Result<Cashflow>)
    ensures HasOverride(rec) && IsTruthy(parsed) ==> r == Success(FromFile(parsed.value))
    ensures !(HasOverride(rec) && IsTruthy(parsed)) ==>
      (r.Success? <==> Metric(d, "FCF per Share").Success?)
    ensures !(HasOverride(rec) && IsTruthy(parsed)) && r.Success? ==>
      var xs := Truthy(d["FCF per Share"].cells);
      && r.value.Historical?
      && (r.value.flow.NaN? <==> |xs| == 0)
      && (|xs| > 0 ==> r.value.flow == Fin(Mean(xs) * shares))
    ensures !(HasOverride(rec) && IsTruthy(parsed)) && "FCF per Share" !in d ==>
      r == Failure(KeyError("FCF per Share"))
  {
    if HasOverride(rec) && IsTruthy(parsed) then
      Success(FromFile(parsed.value))
    else
      var cells :- Metric(d, "FCF per Share");
      var xs := Truthy(cells);
      if |xs| == 0 then
        Success(Historical(NaN))
      else
        Success(Historical(Fin(Mean(xs) * shares)))
  }

  /** The number of projected years, and the last of them that grows at the first rate. */
  const Years: nat := 10
  const FirstStage: nat := 5

  /** The growth rate that takes year i - 1's cash flow to year i's (i counted from 0). */
  function RateFor(i: nat, g1: real, g2: real): real {
    if i <= FirstStage then g1 else g2
  }

  /** The cumulative growth from year 0 to year i: i steps at g1 while i <= 5, then steps at g2. */
  function Factor(i: nat, g1: real, g2: real): real {
    if i <= FirstStage then Pow(1.0 + g1, i)
    else Pow(1.0 + g1, FirstStage) * Pow(1.0 + g2, i - FirstStage)
  }

  lemma {:induction false} FactorStep(i: nat, g1: real, g2: real)
    requires i >= 1
    ensures Factor(i, g1, g2) == Factor(i - 1, g1, g2) * (1.0 + RateFor(i, g1, g2))
  {
    if i <= FirstStage {
      assert Pow(1.0 + g1, i) == (1.0 + g1) * Pow(1.0 + g1, i - 1);
    } else if i == FirstStage + 1 {
      assert Pow(1.0 + g2, 1) == 1.0 + g2;
    } else {
      assert Pow(1.0 + g2, i - FirstStage) == (1.0 + g2) * Pow(1.0 + g2, i - 1 - FirstStage);
    }
  }

  lemma {:induction false} FactorPositive(i: nat, g1: real, g2: real)
    requires g1 > -1.0 && g2 > -1.0
    ensures Factor(i, g1, g2) > 0.0
  {
    PowPositive(1.0 + g1, i);
    PowPositive(1.0 + g1, FirstStage);
    if i > FirstStage {
      PowPositive(1.0 + g2, i - FirstStage);
    }
  }

  /** Year i's projected cash flow, from year 0's. */
  function Grown(fcf0: real, i: nat, g1: real, g2: real): real {
    fcf0 * Factor(i, g1, g2)
  }

  lemma {:induction false} GrownStep(fcf0: real, i: nat, g1: real, g2: real)
    requires i >= 1
    ensures Grown(fcf0, i, g1, g2) == Grown(fcf0, i - 1, g1, g2) * (1.0 + RateFor(i, g1, g2))
  {
    FactorStep(i, g1, g2);
    var f := Factor(i - 1, g1, g2);
    var s := 1.0 + RateFor(i, g1, g2);
    assert fcf0 * (f * s) == (fcf0 * f) * s;
  }

  /** Lines 70-76: the first n projected cash flows, each year the previous one
      times one plus that year's rate. The result is year 0's flow compounded. */
  function Projection(fcf0: real, g1: real, g2: real, n: nat): (r: seq<real>)
    ensures |r| == n
    ensures forall i :: 0 <= i < n ==> r[i] == Grown(fcf0, i, g1, g2)
  {
    if n == 0 then []
    else if n == 1 then [fcf0]
    else
      var p := Projection(fcf0, g1, g2, n - 1);
      GrownStep(fcf0, n - 1, g1, g2);
      p + [p[n - 2] * (1.0 + RateFor(n - 1, g1, g2))]
  }

  /** Each projected flow is the one before it grown at that year's rate. */
  lemma {:induction false} ProjectionRecurrence(fcf0: real, g1: real, g2: real, n: nat, i: nat)
    requires 1 <= i < n
    ensures Projection(fcf0, g1, g2, n)[i] == Projection(fcf0, g1, g2, n)[i - 1] * (1.0 + RateFor(i, g1, g2))
  {
    var r := Projection(fcf0, g1, g2, n);
    GrownStepAt(fcf0, i, g1, g2, r[i], r[i - 1]);
  }

  /** `GrownStep` for two flows x and y known to be years i and i - 1 of the
      projection: x is y grown at year i's rate. */
  lemma {:induction false} GrownStepAt(fcf0: real, i: nat, g1: real, g2: real, x: real, y: real)
    requires i >= 1 && x == Grown(fcf0, i, g1, g2) && y == Grown(fcf0, i - 1, g1, g2)
    ensures x == y * (1.0 + RateFor(i, g1, g2))
  {
    GrownStep(fcf0, i, g1, g2);
  }

  /** x is `flow / (1 + rate) ** year`. */
  predicate DiscountsTo(x: real, flow: real, rate: real, year: nat) {
    x * Pow(1.0 + rate, year) == flow
  }

  /** Lines 79-81: each flow divided by (1 + rate) to the power of its year
      number counted from 1. A zero base raises ZeroDivisionError. */
  function Discounted(fcfs: seq<real>, rate: real): (r: Result<seq<real>>)
    ensures r.Success? <==> |fcfs| == 0 || 1.0 + rate != 0.0
    ensures r.Failure? ==> r.error == ZeroDivisionError
    ensures r.Success? ==> |r.value| == |fcfs|
    ensures r.Success? ==> forall i :: 0 <= i < |fcfs| ==> DiscountsTo(r.value[i], fcfs[i], rate, i + 1)
  {
    if |fcfs| == 0 then Success([])
    else
      var n := |fcfs| - 1;
      var p :- Discounted(fcfs[..n], rate);
      PowZero(1.0 + rate, n + 1);
      var q :- Divide(fcfs[n], Pow(1.0 + rate, n + 1));
      assert DiscountsTo(q, fcfs[n], rate, n + 1);
      Success(p + [q])
  }

  /** v is the perpetuity value of a last flow: `last * (1 + g) / (rate - g)`. */
  predicate PerpetuityOf(v: real, last: real, rate: real, g: real) {
    v * (rate - g) == last * (1.0 + g)
  }

  /** Lines 84-86: the perpetuity value of the last flow, discounted over the
      ten years. `discount == perpetuity` raises ZeroDivisionError. */
  function Terminal(last: real, discount: real, perpetuity: real): (r: Result<real>)
    ensures r.Success? <==> discount != perpetuity && 1.0 + discount != 0.0
    ensures r.Failure? ==> r.error == ZeroDivisionError
    ensures r.Success? ==> exists v :: PerpetuityOf(v, last, discount, perpetuity) && DiscountsTo(r.value, v, discount, Years)
  {
    var value :- Divide(last * (1.0 + perpetuity), discount - perpetuity);
    PowZero(1.0 + discount, Years);
    var v :- Divide(value, Pow(1.0 + discount, Years));
    assert PerpetuityOf(value, last, discount, perpetuity) && DiscountsTo(v, value, discount, Years);
    Success(v)
  }

  /** The margin factor times the intrinsic value, before rounding. */
  function Margin(mos: real, intrinsic: real): real {
    mos * intrinsic
  }

  /** The margin-of-safety price: the margin factor times the intrinsic value, to the nearest hundredth. */
  predicate MarginPrice(price: real, mos: real, intrinsic: real) {
    NearestHundredth(price, Margin(mos, intrinsic))
  }

  /** The stages of the valuation: the discounted flows, the discounted
      terminal value, their sum, the rounded value per share, the rounded
      margin-of-safety price and the verdict. */
  datatype Valuation = Valuation(
    flows: seq<real>, terminal: real, equity: real, intrinsic: real, mosPrice: real, buy: bool)

  /** Lines 70-96 for a finite next-year cash flow `fcf0`. */
  function Dcf(a: Assumptions, fcf0: real, shares: real): (r: Result<Valuation>)
    ensures r.Success? <==> 1.0 + a.discount != 0.0 && a.discount != a.perpetuity && shares != 0.0
    ensures r.Failure? ==> r.error == ZeroDivisionError
    ensures r.Success? ==> |r.value.flows| == Years
    ensures r.Success? ==> forall i :: 0 <= i < Years ==>
      DiscountsTo(r.value.flows[i], Grown(fcf0, i, a.growth1, a.growth2), a.discount, i + 1)
    ensures r.Success? ==> exists v ::
      PerpetuityOf(v, Grown(fcf0, Years - 1, a.growth1, a.growth2), a.discount, a.perpetuity)
      && DiscountsTo(r.value.terminal, v, a.discount, Years)
    ensures r.Success? ==> r.value.equity == Sum(r.value.flows) + r.value.terminal
    ensures r.Success? ==> NearestHundredth(r.value.intrinsic, r.value.equity / shares)
    ensures r.Success? ==> r.value.intrinsic == Round(r.value.equity / shares, 2)
    ensures r.Success? ==> MarginPrice(r.value.mosPrice, a.mos, r.value.intrinsic)
    ensures r.Success? ==> r.value.mosPrice == Round(Margin(a.mos, r.value.intrinsic), 2)
    ensures r.Success? ==> (r.value.buy <==> r.value.mosPrice > a.price)
  {
    var fcfs := Projection(fcf0, a.growth1, a.growth2, Years);
    var flows :- Discounted(fcfs, a.discount);
    var terminal :- Terminal(fcfs[Years - 1], a.discount, a.perpetuity);
    var equity := Sum(flows) + terminal;
    var perShare :- Divide(equity, shares);
    var intrinsic := Round(perShare, 2);
    var margin := Margin(a.mos, intrinsic);
    var mosPrice := Round(margin, 2);
    RoundHundredth(perShare);
    RoundHundredth(margin);
    assert MarginPrice(mosPrice, a.mos, intrinsic);
    Success(Valuation(flows, terminal, equity, intrinsic, mosPrice, mosPrice > a.price))
  }

  /** A flow over a positive discount factor keeps its sign. */
  lemma {:induction false} SignOfQuotient(x: real, p: real, y: real)
    requires p > 0.0 && x * p == y
    ensures y > 0.0 ==> x > 0.0
    ensures y < 0.0 ==> x < 0.0
  {
  }

  /** Dividing c times a value by a non-zero divisor gives c times the quotient. */
  lemma {:induction false} QuotientScales(x: real, y: real, p: real, v: real, c: real)
    requires p != 0.0 && x * p == v && y * p == c * v
    ensures y == c * x
  {
    assert y * p == (c * x) * p;
  }

  lemma {:induction false} GrownScales(fcf0: real, c: real, i: nat, g1: real, g2: real)
    ensures Grown(c * fcf0, i, g1, g2) == c * Grown(fcf0, i, g1, g2)
  {
  }

  /** v holds the discounted flows, terminal value and equity value the
      assumptions give for next year's cash flow fcf0. */
  ghost predicate Explains(a: Assumptions, fcf0: real, v: Valuation) {
    && |v.flows| == Years
    && (forall i :: 0 <= i < Years ==>
          DiscountsTo(v.flows[i], Grown(fcf0, i, a.growth1, a.growth2), a.discount, i + 1))
    && (exists pv :: PerpetuityOf(pv, Grown(fcf0, Years - 1, a.growth1, a.growth2), a.discount, a.perpetuity)
                     && DiscountsTo(v.terminal, pv, a.discount, Years))
    && v.equity == Sum(v.flows) + v.terminal
  }

  lemma {:induction false} DcfExplains(a: Assumptions, fcf0: real, shares: real)
    requires Dcf(a, fcf0, shares).Success?
    ensures Explains(a, fcf0, Dcf(a, fcf0, shares).value)
  {
  }

  /** y is c times x. */
  predicate ScaledBy(x: real, y: real, c: real) {
    y == c * x
  }

  /** The stage values scale with the cash flow. */
  lemma {:induction false} ExplainedScales(a: Assumptions, fcf0: real, c: real, v: Valuation, w: Valuation)
    requires 1.0 + a.discount != 0.0 && a.discount != a.perpetuity
    requires Explains(a, fcf0, v) && Explains(a, c * fcf0, w)
    ensures ScaledBy(v.equity, w.equity, c)
  {
    ExplainedFlowsScale(a, fcf0, c, v, w);
    ExplainedTerminalScales(a, fcf0, c, v, w);
    SumOfScaled(Sum(v.flows), v.terminal, Sum(w.flows), w.terminal, c);
  }

  lemma {:induction false} ExplainedFlowsScale(a: Assumptions, fcf0: real, c: real, v: Valuation, w: Valuation)
    requires 1.0 + a.discount != 0.0
    requires Explains(a, fcf0, v) && Explains(a, c * fcf0, w)
    ensures Sum(w.flows) == c * Sum(v.flows)
  {
    FlowsScale(a, fcf0, c, v.flows, w.flows);
    SumScale(v.flows, w.flows, c);
  }

  lemma {:induction false} ExplainedTerminalScales(a: Assumptions, fcf0: real, c: real, v: Valuation, w: Valuation)
    requires 1.0 + a.discount != 0.0 && a.discount != a.perpetuity
    requires Explains(a, fcf0, v) && Explains(a, c * fcf0, w)
    ensures w.terminal == c * v.terminal
  {
    GrownScales(fcf0, c, Years - 1, a.growth1, a.growth2);
    TerminalScales(a.discount, a.perpetuity, Grown(fcf0, Years - 1, a.growth1, a.growth2),
                   Grown(c * fcf0, Years - 1, a.growth1, a.growth2), c, v.terminal, w.terminal);
  }

  /** Scaling both parts of a sum scales the sum. */
  lemma {:induction false} SumOfScaled(x: real, y: real, xc: real, yc: real, c: real)
    requires xc == c * x && yc == c * y
    ensures xc + yc == c * (x + y)
  {
  }

  /** The discounted flows scale with the cash flow. */
  lemma {:induction false} FlowsScale(a: Assumptions, fcf0: real, c: real, vf: seq<real>, wf: seq<real>)
    requires 1.0 + a.discount != 0.0 && |vf| == Years && |wf| == Years
    requires forall i :: 0 <= i < Years ==>
      DiscountsTo(vf[i], Grown(fcf0, i, a.growth1, a.growth2), a.discount, i + 1)
    requires forall i :: 0 <= i < Years ==>
      DiscountsTo(wf[i], Grown(c * fcf0, i, a.growth1, a.growth2), a.discount, i + 1)
    ensures forall i :: 0 <= i < Years ==> wf[i] == c * vf[i]
  {
    forall i | 0 <= i < Years
      ensures wf[i] == c * vf[i]
    {
      FlowScales(a.discount, fcf0, c, i, a.growth1, a.growth2, vf[i], wf[i]);
    }
  }

  /** One discounted flow scales with the cash flow. */
  lemma {:induction false} FlowScales(r: real, fcf0: real, c: real, i: nat, g1: real, g2: real, x: real, y: real)
    requires 1.0 + r != 0.0
    requires DiscountsTo(x, Grown(fcf0, i, g1, g2), r, i + 1) && DiscountsTo(y, Grown(c * fcf0, i, g1, g2), r, i + 1)
    ensures y == c * x
  {
    PowZero(1.0 + r, i + 1);
    GrownScales(fcf0, c, i, g1, g2);
    QuotientScales(x, y, Pow(1.0 + r, i + 1), Grown(fcf0, i, g1, g2), c);
  }

  lemma {:induction false} TerminalScales(r: real, g: real, last: real, lastC: real, c: real, tv: real, tw: real)
    requires 1.0 + r != 0.0 && r != g && lastC == c * last
    requires exists pv :: PerpetuityOf(pv, last, r, g) && DiscountsTo(tv, pv, r, Years)
    requires exists pw :: PerpetuityOf(pw, lastC, r, g) && DiscountsTo(tw, pw, r, Years)
    ensures tw == c * tv
  {
    var pv :| PerpetuityOf(pv, last, r, g) && DiscountsTo(tv, pv, r, Years);
    var pw :| PerpetuityOf(pw, lastC, r, g) && DiscountsTo(tw, pw, r, Years);
    PerpetuityScales(tv, tw, pv, pw, last, c, r, g);
  }

  /** The discounted perpetuity value of c times a flow is c times that of the flow. */
  lemma {:induction false} PerpetuityScales(tv: real, tw: real, pv: real, pw: real, last: real, c: real, r: real, g: real)
    requires 1.0 + r != 0.0 && r != g
    requires PerpetuityOf(pv, last, r, g) && DiscountsTo(tv, pv, r, Years)
    requires PerpetuityOf(pw, c * last, r, g) && DiscountsTo(tw, pw, r, Years)
    ensures tw == c * tv
  {
    var y := last * (1.0 + g);
    assert pw * (r - g) == c * y;
    QuotientScales(pv, pw, r - g, y, c);
    PowZero(1.0 + r, Years);
    QuotientScales(tv, tw, Pow(1.0 + r, Years), pv, c);
  }

  /** The valuation is linear in next year's cash flow: c times the flow gives
      c times the total equity value, every other input unchanged. */
  lemma {:induction false} DcfScales(a: Assumptions, fcf0: real, c: real, shares: real)
    requires Dcf(a, fcf0, shares).Success?
    ensures Dcf(a, c * fcf0, shares).Success?
    ensures ScaledBy(Dcf(a, fcf0, shares).value.equity, Dcf(a, c * fcf0, shares).value.equity, c)
  {
    var r := Dcf(a, fcf0, shares);
    var q := Dcf(a, c * fcf0, shares);
    assert q.Success?;
    DcfExplains(a, fcf0, shares);
    DcfExplains(a, c * fcf0, shares);
    ExplainedScales(a, fcf0, c, r.value, q.value);
  }

  /** Rates a valuation is sane under: every growth factor positive and the
      discount rate above the perpetuity growth rate. */
  predicate SaneRates(a: Assumptions) {
    a.growth1 > -1.0 && a.growth2 > -1.0 && a.perpetuity > -1.0 && a.discount > a.perpetuity
  }

  /** Under sane rates a positive cash flow has positive discounted flows, a
      positive terminal value and so a positive equity value. */
  lemma {:induction false} ExplainedPositive(a: Assumptions, fcf0: real, v: Valuation)
    requires SaneRates(a) && fcf0 > 0.0 && Explains(a, fcf0, v)
    ensures forall i :: 0 <= i < Years ==> v.flows[i] > 0.0
    ensures v.terminal > 0.0
    ensures v.equity > 0.0
  {
    FlowsPositive(a, fcf0, v.flows);
    SumPositive(v.flows);
    TerminalPositive(a, fcf0, v);
  }

  /** Under sane rates each flow of a positive cash flow, discounted, is positive. */
  lemma {:induction false} FlowsPositive(a: Assumptions, fcf0: real, flows: seq<real>)
    requires SaneRates(a) && fcf0 > 0.0 && |flows| == Years
    requires forall i :: 0 <= i < Years ==>
      DiscountsTo(flows[i], Grown(fcf0, i, a.growth1, a.growth2), a.discount, i + 1)
    ensures forall i :: 0 <= i < Years ==> flows[i] > 0.0
  {
    forall i | 0 <= i < Years
      ensures flows[i] > 0.0
    {
      FactorPositive(i, a.growth1, a.growth2);
      PowPositive(1.0 + a.discount, i + 1);
      SignOfQuotient(flows[i], Pow(1.0 + a.discount, i + 1), Grown(fcf0, i, a.growth1, a.growth2));
    }
  }

  /** Under sane rates the discounted terminal value of a positive cash flow is positive. */
  lemma {:induction false} TerminalPositive(a: Assumptions, fcf0: real, v: Valuation)
    requires SaneRates(a) && fcf0 > 0.0 && Explains(a, fcf0, v)
    ensures v.terminal > 0.0
  {
    var last := Grown(fcf0, Years - 1, a.growth1, a.growth2);
    FactorPositive(Years - 1, a.growth1, a.growth2);
    var pv :| PerpetuityOf(pv, last, a.discount, a.perpetuity) && DiscountsTo(v.terminal, pv, a.discount, Years);
    assert last * (1.0 + a.perpetuity) > 0.0;
    SignOfQuotient(pv, a.discount - a.perpetuity, last * (1.0 + a.perpetuity));
    PowPositive(1.0 + a.discount, Years);
    SignOfQuotient(v.terminal, Pow(1.0 + a.discount, Years), pv);
  }

  lemma {:induction false} DcfPositive(a: Assumptions, fcf0: real, shares: real)
    requires SaneRates(a) && fcf0 > 0.0 && shares != 0.0
    ensures Dcf(a, fcf0, shares).Success?
    ensures Dcf(a, fcf0, shares).value.terminal > 0.0
    ensures Dcf(a, fcf0, shares).value.equity > 0.0
  {
    DcfExplains(a, fcf0, shares);
    ExplainedPositive(a, fcf0, Dcf(a, fcf0, shares).value);
  }

  /** Nothing guards the discount rate against being below the perpetuity
      growth rate: then a positive cash flow gets a negative terminal value. */
  lemma {:induction false} TerminalNegative(a: Assumptions, fcf0: real, shares: real)
    requires a.growth1 > -1.0 && a.growth2 > -1.0 && a.perpetuity > -1.0
    requires -1.0 < a.discount < a.perpetuity && fcf0 > 0.0 && shares != 0.0
    ensures Dcf(a, fcf0, shares).Success?
    ensures Dcf(a, fcf0, shares).value.terminal < 0.0
  {
    var v := Dcf(a, fcf0, shares).value;
    var last := Grown(fcf0, Years - 1, a.growth1, a.growth2);
    FactorPositive(Years - 1, a.growth1, a.growth2);
    var pv :| PerpetuityOf(pv, last, a.discount, a.perpetuity) && DiscountsTo(v.terminal, pv, a.discount, Years);
    NegativeTerminal(v.terminal, pv, last, a.discount, a.perpetuity);
  }

  /** The terminal value's sign when the discount rate is below the perpetuity growth rate. */
  lemma {:induction false} NegativeTerminal(t: real, pv: real, last: real, r: real, g: real)
    requires PerpetuityOf(pv, last, r, g) && DiscountsTo(t, pv, r, Years)
    requires last > 0.0 && -1.0 < r < g
    ensures t < 0.0
  {
    var y := -(last * (1.0 + g));
    assert pv * (g - r) == y;
    SignOfQuotient(pv, g - r, y);
    PowPositive(1.0 + r, Years);
    SignOfQuotient(t, Pow(1.0 + r, Years), pv);
  }

  /** Lines 70-76 on the `numpy.float64` path: the same compounding, each
      product a float64. A finite flow compounds as the reals do; a NaN stays NaN. */
  function ProjectionF(fcf0: Float, g1: real, g2: real, n: nat): (r: seq<Float>)
    ensures |r| == n
    ensures fcf0.Fin? ==> forall i :: 0 <= i < n ==> r[i] == Fin(Grown(fcf0.value, i, g1, g2))
    ensures fcf0.NaN? ==> forall i :: 0 <= i < n ==> r[i].NaN?
  {
    if n == 0 then []
    else if n == 1 then
      assert fcf0.Fin? ==> Grown(fcf0.value, 0, g1, g2) == fcf0.value;
      [fcf0]
    else
      var p := ProjectionF(fcf0, g1, g2, n - 1);
      var next := Mul(p[n - 2], Fin(1.0 + RateFor(n - 1, g1, g2)));
      if fcf0.Fin? then
        GrownStep(fcf0.value, n - 1, g1, g2);
        p + [next]
      else
        p + [next]
  }

  /** The finite float64 projection is the real one. */
  lemma {:induction false} ProjectionFins(f: real, g1: real, g2: real, n: nat)
    ensures ProjectionF(Fin(f), g1, g2, n) == Fins(Projection(f, g1, g2, n))
  {
  }

  /** Lines 79-81 on the float64 path: each flow over (1 + rate) raised to its
      year number. Python's `0.0 ** k` is 0.0, so a rate of -100% divides by zero. */
  function DiscountedF(fcfs: seq<Float>, rate: real): (r: seq<Float>)
    ensures |r| == |fcfs|
    ensures forall i :: 0 <= i < |fcfs| ==> r[i] == Div(fcfs[i], Fin(Pow(1.0 + rate, i + 1)))
  {
    if |fcfs| == 0 then []
    else
      var n := |fcfs| - 1;
      DiscountedF(fcfs[..n], rate) + [Div(fcfs[n], Fin(Pow(1.0 + rate, n + 1)))]
  }

  /** A finite quotient by a non-zero divisor is the float64 one. */
  lemma {:induction false} DivAgrees(x: real, p: real, y: real)
    requires p != 0.0 && y * p == x
    ensures Div(Fin(x), Fin(p)) == Fin(y)
  {
    var q := x / p;
    assert (q - y) * p == 0.0;
  }

  /** On finite flows the float64 discounting agrees with the raising one
      wherever that one succeeds. */
  lemma {:induction false} DiscountedFins(fcfs: seq<real>, rate: real)
    requires Discounted(fcfs, rate).Success?
    ensures DiscountedF(Fins(fcfs), rate) == Fins(Discounted(fcfs, rate).value)
  {
    var flows := Discounted(fcfs, rate).value;
    var r := DiscountedF(Fins(fcfs), rate);
    forall i | 0 <= i < |fcfs|
      ensures r[i] == Fin(flows[i])
    {
      DiscountedAt(fcfs[i], rate, i + 1, flows[i]);
    }
  }

  /** One flow discounted as a float64 is the real quotient. */
  lemma {:induction false} DiscountedAt(x: real, rate: real, year: nat, y: real)
    requires 1.0 + rate != 0.0 && year >= 1 && DiscountsTo(y, x, rate, year)
    ensures Div(Fin(x), Fin(Pow(1.0 + rate, year))) == Fin(y)
  {
    PowZero(1.0 + rate, year);
    DivAgrees(x, Pow(1.0 + rate, year), y);
  }

  /** Lines 84-86 on the float64 path: the perpetuity value of the last flow,
      discounted over the ten years. */
  function TerminalF(last: Float, discount: real, perpetuity: real): (r: Float)
    ensures last.NaN? ==> r.NaN?
    ensures last.Fin? && Terminal(last.value, discount, perpetuity).Success? ==>
      r == Fin(Terminal(last.value, discount, perpetuity).value)
  {
    Div(Div(Mul(last, Fin(1.0 + perpetuity)), Fin(discount - perpetuity)), Fin(Pow(1.0 + discount, Years)))
  }

  /** With equal discount and perpetuity rates, a positive last flow and a
      positive discount factor, the terminal value is +inf. */
  lemma {:induction false} TerminalInfinite(last: real, rate: real)
    requires last > 0.0 && 1.0 + rate > 0.0
    ensures TerminalF(Fin(last), rate, rate) == PosInf
  {
    assert last * (1.0 + rate) > 0.0;
    PowPositive(1.0 + rate, Years);
  }

  /** Line 89 on the float64 path: the discounted flows summed, plus the
      discounted terminal value. */
  function EquityF(a: Assumptions, fcf0: Float): Float {
    var fcfs := ProjectionF(fcf0, a.growth1, a.growth2, Years);
    Add(SumOf(DiscountedF(fcfs, a.discount)), TerminalF(fcfs[Years - 1], a.discount, a.perpetuity))
  }

  /** The float64 equity value of a finite flow is the real one wherever the
      raising valuation succeeds. */
  lemma {:induction false} EquityAgrees(a: Assumptions, f: real, shares: real)
    requires Dcf(a, f, shares).Success?
    ensures EquityF(a, Fin(f)) == Fin(Dcf(a, f, shares).value.equity)
  {
    var fcfs := Projection(f, a.growth1, a.growth2, Years);
    var flows := Discounted(fcfs, a.discount).value;
    var terminal := Terminal(fcfs[Years - 1], a.discount, a.perpetuity).value;
    assert Dcf(a, f, shares).value.equity == Sum(flows) + terminal;
    ProjectionFins(f, a.growth1, a.growth2, Years);
    DiscountedFins(fcfs, a.discount);
    SumOfFins(flows);
    assert TerminalF(Fin(fcfs[Years - 1]), a.discount, a.perpetuity) == Fin(terminal);
  }

  /** A NaN cash flow makes the float64 equity value NaN. */
  lemma {:induction false} EquityNaN(a: Assumptions)
    ensures EquityF(a, NaN).NaN?
  {
    var flows := DiscountedF(ProjectionF(NaN, a.growth1, a.growth2, Years), a.discount);
    assert flows[0].NaN?;
    assert HasNaN(flows);
  }

  /** What the script prints at the end: the intrinsic value, the
      margin-of-safety price and whether to buy. */
  datatype Verdict = Verdict(intrinsic: Float, mosPrice: Float, buy: bool)

  /** Line 90 on the float64 path: the equity value per share, rounded to
      hundredths. A zero share count gives an infinity, or NaN for a zero
      equity value. */
  function PerShareF(equity: Float, shares: real): (r: Float)
    ensures r.Fin? <==> equity.Fin? && shares != 0.0
    ensures r.Fin? ==> NearestHundredth(r.value, equity.value / shares)
    ensures r.NaN? <==> equity.NaN? || (equity == Fin(0.0) && shares == 0.0)
  {
    assert Pow10(2) == 100;
    if equity.Fin? && shares != 0.0 then Fin(Round(equity.value / shares, 2))
    else RoundTo(Div(equity, Fin(shares)), 2)
  }

  /** Line 92 on the float64 path: the margin factor times the intrinsic
      value, rounded to hundredths. */
  function MarginPriceF(mos: real, intrinsic: Float): (r: Float)
    ensures r.Fin? <==> intrinsic.Fin?
    ensures r.Fin? ==> MarginPrice(r.value, mos, intrinsic.value)
    ensures r.NaN? <==> intrinsic.NaN? || (mos == 0.0 && !intrinsic.Fin?)
    ensures mos > 0.0 && intrinsic.PosInf? ==> r.PosInf?
  {
    assert Pow10(2) == 100;
    if intrinsic.Fin? then Fin(Round(Margin(mos, intrinsic.value), 2))
    else RoundTo(Mul(Fin(mos), intrinsic), 2)
  }

  /** Lines 90-96 on the float64 path: the intrinsic value, the
      margin-of-safety price and the strict buy test, which NaN never passes
      and +inf always does. */
  function PerShare(a: Assumptions, equity: Float, shares: real): (r: Verdict)
    ensures r.intrinsic.Fin? <==> equity.Fin? && shares != 0.0
    ensures r.intrinsic.Fin? ==> NearestHundredth(r.intrinsic.value, equity.value / shares)
    ensures r.mosPrice.Fin? ==> r.intrinsic.Fin? && MarginPrice(r.mosPrice.value, a.mos, r.intrinsic.value)
    ensures r.intrinsic.NaN? ==> r.mosPrice.NaN? && !r.buy
    ensures r.buy <==> r.mosPrice.PosInf? || (r.mosPrice.Fin? && r.mosPrice.value > a.price)
  {
    var intrinsic := PerShareF(equity, shares);
    var mosPrice := MarginPriceF(a.mos, intrinsic);
    Verdict(intrinsic, mosPrice, Greater(mosPrice, a.price))
  }

  /** Lines 70-96 for a float64 next-year cash flow. */
  function FloatDcf(a: Assumptions, fcf0: Float, shares: real): Verdict {
    PerShare(a, EquityF(a, fcf0), shares)
  }

  /** The verdict of a valuation that did not raise. */
  function FromDcf(v: Valuation): (r: Verdict)
    ensures r.intrinsic.Fin? && r.mosPrice.Fin?
  {
    Verdict(Fin(v.intrinsic), Fin(v.mosPrice), v.buy)
  }

  /** Where the raising valuation succeeds, the float64 one gives the same
      verdict: the two paths differ only at the divisions by zero. */
  lemma {:induction false} FloatDcfAgrees(a: Assumptions, f: real, shares: real)
    requires Dcf(a, f, shares).Success?
    ensures FloatDcf(a, Fin(f), shares) == FromDcf(Dcf(a, f, shares).value)
  {
    var v := Dcf(a, f, shares).value;
    EquityAgrees(a, f, shares);
    PerShareFinite(a, v.equity, shares, v.intrinsic, v.mosPrice);
  }

  /** A finite equity value over a non-zero share count rounds as the reals do. */
  lemma {:induction false} PerShareFinite(a: Assumptions, equity: real, shares: real, intrinsic: real, mosPrice: real)
    requires shares != 0.0 && intrinsic == Round(equity / shares, 2) && mosPrice == Round(Margin(a.mos, intrinsic), 2)
    ensures PerShare(a, Fin(equity), shares) == Verdict(Fin(intrinsic), Fin(mosPrice), mosPrice > a.price)
  {
  }

  /** A NaN cash flow (no truthy FCF per share) gives NaN for both values and
      the verdict not to buy. */
  lemma {:induction false} FloatDcfNaN(a: Assumptions, shares: real)
    ensures FloatDcf(a, NaN, shares) == Verdict(NaN, NaN, false)
  {
    EquityNaN(a);
  }

  /** Equal discount and perpetuity rates: where a file cash flow raises
      ZeroDivisionError, a positive float64 one makes the intrinsic value and
      the margin-of-safety price +inf and the verdict "Good to buy". */
  lemma {:induction false} EqualRatesBuy(a: Assumptions, f: real, shares: real)
    requires a.discount == a.perpetuity && a.perpetuity > -1.0
    requires a.growth1 > -1.0 && a.growth2 > -1.0
    requires f > 0.0 && shares > 0.0 && a.mos > 0.0
    ensures Dcf(a, f, shares) == Failure(ZeroDivisionError)
    ensures FloatDcf(a, Fin(f), shares) == Verdict(PosInf, PosInf, true)
  {
    var fcfs := Projection(f, a.growth1, a.growth2, Years);
    DiscountedFins(fcfs, a.discount);
    SumOfFins(Discounted(fcfs, a.discount).value);
    FactorPositive(Years - 1, a.growth1, a.growth2);
    TerminalInfinite(fcfs[Years - 1], a.discount);
    assert EquityF(a, Fin(f)) == PosInf;
  }

  /** A share count of zero: where a file cash flow raises ZeroDivisionError,
      a positive float64 one under sane rates gives +inf and "Good to buy". */
  lemma {:induction false} NoSharesBuy(a: Assumptions, f: real)
    requires SaneRates(a) && f > 0.0 && a.mos > 0.0
    ensures Dcf(a, f, 0.0) == Failure(ZeroDivisionError)
    ensures FloatDcf(a, Fin(f), 0.0) == Verdict(PosInf, PosInf, true)
  {
    DcfPositive(a, f, 1.0);
    EquityAgrees(a, f, 1.0);
  }

  /** Lines 66-99 once the inputs are gathered: the friendly formats of the
      share count and of the cash flow (each raises IndexError from 999.5
      trillion on; NaN formats as "nan"), then the valuation, which raises
      ZeroDivisionError for a cash flow from the file and goes to infinity or
      NaN for a float64 one. */
  function Evaluate(a: Assumptions, fcf: Cashflow, shares: real): (r: Result<Verdict>)
    ensures r.Failure? ==> r.error == IndexError || (fcf.FromFile? && r.error == ZeroDivisionError)
    ensures r == Failure(IndexError) <==>
      || Abs(shares) >= Limit
      || (fcf.FromFile? && Abs(fcf.value) >= Limit)
      || (fcf.Historical? && fcf.flow.Fin? && Abs(fcf.flow.value) >= Limit)
    ensures fcf.FromFile? && r.Success? ==>
      Dcf(a, fcf.value, shares).Success? && r.value == FromDcf(Dcf(a, fcf.value, shares).value)
    ensures fcf.Historical? && r.Success? ==> r.value == FloatDcf(a, fcf.flow, shares)
  {
    var sharesText :- SuffixOf(shares);
    match fcf
    case FromFile(f) =>
      var fcfText :- SuffixOf(f);
      var v :- Dcf(a, f, shares);
      Success(FromDcf(v))
    case Historical(x) =>
      if x.Fin? then
        var fcfText :- SuffixOf(x.value);
        Success(FloatDcf(a, x, shares))
      else
        Success(FloatDcf(a, x, shares))
  }

  /** The estimate row of the ticker is found and its six numbers read. */
  predicate EstimatesRead(records: seq<Record>, ticker: string) {
    FindEstimate(records, ticker).Success? && ReadAssumptions(FindEstimate(records, ticker).value).Success?
  }

  /** Lines 25-99 in order. `parsedFcf` is what the number parser made of the
      row's `next_year_FCF` text and `data` is the outcome of loading the
      ticker's table. */
  function IntrinsicValue(records: seq<Record>, ticker: string, parsedFcf: Option<real>, data: Result<Dataset>): (r: Result<Verdict>)
    ensures FindEstimate(records, ticker).Failure? ==> r == Failure(FindEstimate(records, ticker).error)
    ensures FindEstimate(records, ticker).Success? && ReadAssumptions(FindEstimate(records, ticker).value).Failure? ==>
      r == Failure(ReadAssumptions(FindEstimate(records, ticker).value).error)
    ensures EstimatesRead(records, ticker) && data.Failure? ==> r == Failure(data.error)
    ensures EstimatesRead(records, ticker) && data.Success? && SharesOut(data.value).Failure? ==>
      r == Failure(SharesOut(data.value).error)
    ensures EstimatesRead(records, ticker) && data.Success? && SharesOut(data.value).Success? ==>
      var rec := FindEstimate(records, ticker).value;
      var shares := SharesOut(data.value).value;
      var fcf := NextYearFcf(rec, parsedFcf, data.value, shares);
      && (fcf.Failure? ==> r == Failure(fcf.error))
      && (fcf.Success? && Evaluate(ReadAssumptions(rec).value, fcf.value, shares).Failure? ==>
            r == Failure(Evaluate(ReadAssumptions(rec).value, fcf.value, shares).error))
    ensures r.Success? ==>
      && FindEstimate(records, ticker).Success?
      && ReadAssumptions(FindEstimate(records, ticker).value).Success?
      && data.Success? && SharesOut(data.value).Success?
      && NextYearFcf(FindEstimate(records, ticker).value, parsedFcf, data.value, SharesOut(data.value).value).Success?
    ensures r.Success? ==>
      var rec := FindEstimate(records, ticker).value;
      var a := ReadAssumptions(rec).value;
      var shares := SharesOut(data.value).value;
      match NextYearFcf(rec, parsedFcf, data.value, shares).value
      case FromFile(f) => Dcf(a, f, shares).Success? && r.value == FromDcf(Dcf(a, f, shares).value)
      case Historical(x) => r.value == FloatDcf(a, x, shares)
  {
    var rec :- FindEstimate(records, ticker);
    var a :- ReadAssumptions(rec);
    var d :- data;
    var shares :- SharesOut(d);
    var fcf :- NextYearFcf(rec, parsedFcf, d, shares);
    Evaluate(a, fcf, shares)
  }
}

=== FILE: wrappers.dfy ===
/** Failure-compatible result type and the exceptions the modelled scripts can raise. */
module Wrappers {

  datatype Option<+T> = None | Some(value: T)

  /** One constructor per Python exception that the modelled code can reach. */
  datatype Error =
    | ValueError(text: string)        // `float(text)` could not parse its argument
    | ZeroDivisionError               // `/` with a zero divisor
    | TypeError                       // arithmetic or `float()` applied to None
    | IndexError                      // `[0]` or `[-1]` on an empty list or row
    | KeyError(key: string)           // a metric the table does not have
    | AssertionError                  // the length check at the end of `sanitize`
    | StopIteration                   // a table with no header line

  datatype Result<+T> = Success(value: T) | Failure(error: Error) {

    predicate IsFailure() {
      Failure?
    }

    function PropagateFailure<U>(): Result<U>
      requires Failure?
    {
      Failure(error)
    }

    function Extract(): T
      requires Success?
    {
      value
    }
  }

  /** Python's `/` on floats: a zero divisor raises instead of returning a value. */
  function Divide(a: real, b: real): (r: Result<real>)
    ensures r.Success? <==> b != 0.0
    ensures r.Success? ==> r.value * b == a
    ensures r.Failure? ==> r.error == ZeroDivisionError
  {
    if b == 0.0 then Failure(ZeroDivisionError) else Success(a / b)
  }
}
